=== FILE: README.md ===
# Discovery ADCET registration: a Dafny model

This project models the logic of the registration site for the Discovery
ADCET 2025 college festival. It covers the parts that decide something; the
pages and the database driver are not modelled.

- **Registration pipeline.** `POST /api/register` runs three handlers in turn:
  - the duplicate guard (`checkDuplicate`);
  - the Razorpay signature check (`verifyPayment`);
  - the registration handler (`registerUser`).

  The handler checks the payment fields and the fee, normalises the
  submission and numbers it (1001, else one more than the highest stored
  number). It saves it with up to three attempts and then sends a welcome
  mail with up to three attempts.
- **Gateway order request** (`orderRazorpay`): the guards that run before
  the gateway is called.
- **Admin service**: the bearer-token check, login, the filtered, sorted and
  paged listing, the spreadsheet export and the statistics.
- **Enhanced team document**: its schema bounds, the migration of a stored
  registration into it, its lookups and its statistics.
- **Frontend team helpers**: validators, the mobile formatter, adding and
  removing members, statistics, CSV export, search and filters, and the
  registration/team mapping.
- **Event catalogue and registration form**: the event list, the handlers
  for event, participation type and team size, the fee and member-slot
  effect, and the event and amount submitted.

The modules follow the source files:

| module | file |
|---|---|
| `Search`, `Payment`, `Register`, `Razorpay`, `Mail`, `Admin` | the backend files of the same names |
| `Pipeline` | the route at `backend/src/index.ts:51` (and, for the finding below, the same route with a corrected duplicate guard) |
| `EnhancedTeams` | `enhancedTeamSchema.ts` |
| `TeamUtils` | `teamMemberUtils.ts` |
| `Events` | `src/data/events.ts` |
| `Form` | `RegistrationForm.tsx` |
| `Records` | the `registrations` document and the request body |
| `Common`, `Text`, `Seqs`, `Sorting`, `Grouping`, `Retry` | shared helpers |

**How the state is modelled.**
- The collection is a `seq<Registration>`.
- The store, the mailer and the clock are an `Env` value. It gives the time, whether the number lookup throws, and scripted outcomes for each save and send attempt.
- The HMAC and the gateway are function parameters.
- `registerUser` and `sendWelcomeEmail` are methods with the source's loops. Each is proved equal to a specification function.
- The form is a class whose fields are the component's state and form values.
- `calculateTeamMemberStatistics` and the export row builder are methods with the source's loops. `validateTeamMember` and `validateExtendedTeamMember` are straight-line methods that push their messages one check at a time, as the source does. Each method is proved against a function.

Behaviours of the code, kept as written:
- `formatMobileNumber` turns ten characters into fifteen (`+91-` + 5 + `-` + 5).
- `getNextRegistrationId` treats a highest stored number of 0 as missing and returns 1001.
- The export's Registration ID column shows "N/A" for a number of 0.
- The registration form offers the years "Graduate" and "Post Graduate". The enhanced team schema does not accept them, so such a registration migrates to a document the schema refuses (`EnhancedTeams.FormYearsMigrate`).

## Model

| member | source | states |
|---|---|---|
| Search.CheckDuplicateNext | backend/src/search.ts:9-46 | The guard as written passes the request on exactly when e-mail, event and mobile are all present, the lookup does not throw, and no stored registration has an event equal, character for character, to the trimmed and lower-cased requested event together with the same e-mail or mobile. A missing field is exactly the 400, a throwing lookup with the fields present exactly the 500, and every refusal is a 400, 409 or 500 with success false. |
| Search.CheckDuplicateMonotone | backend/src/search.ts:22-36 | For the guard as written, storing more registrations never turns a 409 back into a pass. |
| Search.CaselessNext | backend/src/search.ts:17-36 | Corrected guard of the finding below: it passes the request on exactly when the three fields are present, the lookup works and no stored registration has the same event ignoring case together with the same e-mail or mobile; every refusal is a 400, 409 or 500 with success false. |
| Search.CaselessMonotone | backend/src/search.ts:22-36 | Corrected guard of the finding below: storing more registrations never turns a 409 back into a pass. |
| Search.StoredIsFound | backend/src/search.ts:17-36 | Corrected guard of the finding below: once a registration with the body's normalised e-mail and trimmed event is stored, the same body is refused with 409. |
| Search.AsWrittenIgnoresCapitalised | backend/src/search.ts:18-28 | As written, the lookup event is lower-cased, so a stored event name containing a capital letter never produces a 409. |
| Search.AsWrittenLetsDuplicateThrough | backend/src/search.ts:17-38 | Concrete case: after "Robo Race" is stored for a@b.in, the same leader asking again for "Robo Race" is passed on by the guard as written. |
| Payment.Pick | backend/src/utils/payment-verification.ts:5-7 | The `razorpay_*` field is taken when it is truthy, otherwise the fallback; the result is truthy exactly when one of the two is. |
| Payment.VerifyPaymentIff | backend/src/utils/payment-verification.ts:10-46 | The request goes on exactly when the order id, payment id, signature and secret are present, the HMAC does not throw, and the HMAC of "order\|payment" equals the signature. A missing field is a 400, checked before the secret. A missing secret is a 500. |
| Payment.GenuineSignaturePasses | backend/src/utils/payment-verification.ts:26-32 | A signature that is the gateway's HMAC of the order and payment ids passes. |
| Payment.VerifyPaymentDependsOnFields | backend/src/utils/payment-verification.ts:4-47 | The outcome depends only on the three selected fields, the secret and the HMAC. |
| Razorpay.ErrorText | backend/src/utils/razorpay.ts:70-73 | The error text is the description when truthy, otherwise the message when truthy, otherwise "Failed to create order". |
| Razorpay.ConfigCheckedFirst | backend/src/utils/razorpay.ts:6-12 | Missing credentials give 500 whatever the body holds, and the gateway is not called. |
| Razorpay.GatewayCalledOnlyWhenValid | backend/src/utils/razorpay.ts:23-47 | The gateway is called exactly when the credentials are set, currency and receipt are truthy, and the amount is a positive number. It receives the three values unchanged with capture 1. An amount of 0 is reported as a missing field. |
| Razorpay.OrderSuccessIff | backend/src/utils/razorpay.ts:47-74 | The reply is a 200 with the order exactly when the gateway returns an order. Every other reply is a 400 or 500 without an order. |
| Retry.FirstSuccess | backend/src/register.ts:184-193 | The attempt chosen is the first of the allowed attempts that succeeds; every earlier attempt fails. |
| Retry.Attempts | backend/dist/utils/mail.js:100-114 | Attempts stop at the first success and never exceed the limit; at least one is made. |
| Retry.Backoff | backend/src/register.ts:191 | The waits after failures 1..n are base·1, …, base·n. |
| Mail.Capitalize | backend/dist/utils/mail.js:12 | Only the first character of a word is upper-cased; the length and every other character are kept. |
| Mail.TitleCaseShape | backend/dist/utils/mail.js:12 | Title-casing keeps the length, upper-cases exactly the characters that start a space-separated word, and keeps the rest. |
| Mail.TitleCaseIdempotent | backend/dist/utils/mail.js:12 | Title-casing twice is title-casing once. |
| Mail.TitleCaseWords | backend/dist/utils/mail.js:12 | The words of the result are the input's words, each capitalised; the word count is kept. |
| Mail.WelcomeMailContents | backend/dist/utils/mail.js:13-99 | The message goes to the given address with the fixed subject. It shows the id, year and phone verbatim and the name, event and college title-cased. |
| Mail.SendWelcomeEmail | backend/dist/utils/mail.js:100-114 | The loop succeeds exactly when one of the first three sends succeeds. It sends the same message on every try and stops at the first success. After failure k it waits 2000·k, with no wait after the last try. |
| Register.MaxRegistrationId | backend/src/register.ts:111 | The value a descending sort on `registrationId` finds: a stored number that is at least every other stored number, or none when no document has one. |
| Register.NextIdFresh | backend/src/register.ts:110-116 | The next number is larger than every stored number, so the unique index admits it. With no stored number it is 1001. |
| Register.NextIdSequential | backend/src/register.ts:110-116 | After registrations numbered 1001, 1002, … in order, the next number is 1001 plus their count. |
| Register.PaymentRejectionIff | backend/src/register.ts:128-149 | A request passes exactly when it has a payment id starting "pay_", an order id starting "order_", a signature and a positive fee. Otherwise the first failing check gives a 400. |
| Register.NormalizeMembers | backend/src/register.ts:163-168 | Members are normalised one for one, keeping their number, and only when every member has its four fields. |
| Register.NormalizeDefined | backend/src/register.ts:151-173 | Normalisation fails (the handler's 500) exactly when one of the leader and event strings or a member field is missing. |
| Register.NormalizeClean | backend/src/register.ts:151-173 | Every string is trimmed and every e-mail lower-cased. Members keep their count and order. The payment id, order id and signature pass through unchanged. |
| Register.NormalizeIdempotent | backend/src/register.ts:151-173 | Normalising the body of a normalised submission gives the same submission. |
| Register.SaveAndMailFacts | backend/src/register.ts:176-214 | Once normalised, the document is either stored once at the end with the next number, with one to three welcome mails to the leader showing that number and a 201 exactly when a mail goes out; or nothing is stored, nothing is mailed and the reply is a 500. |
| Register.RegisterStoresOnlyValid | backend/src/register.ts:118-214 | A document is stored only for a request that passes the payment checks and normalises. It is stored once, at the end, with the next number, the normalised fields and the current time. Otherwise nothing is stored or mailed. |
| Register.RegisterReply | backend/src/register.ts:195-214 | The reply is a 201 exactly when the document was stored and the mail went out. Only a 201 reports success. A stored document whose mail fails three times still gets a 500. |
| Register.RegisterMails | backend/src/register.ts:199-208 | Every message handed to the mailer goes to the stored leader e-mail with the new number as a string. |
| Register.RegisterKeepsStoreValid | backend/src/register.ts:86-105 | Registering keeps every stored document schema-valid and the numbers distinct. |
| Register.Store.RegisterUser | backend/src/register.ts:118-214 | The handler's new collection, reply, save waits, mails and mail waits are those of the specification. It preserves the store invariant. |
| Register.Store.SaveAndSend | backend/src/register.ts:175-208 | The save loop of at most three attempts, with 1000·attempt waits, followed by the mail loop, matches the specification from the numbering step on. |
| Pipeline.ChainStoresOnlyWhenAllPass | backend/src/index.ts:51 | Whatever the duplicate guard answers, something is stored only when it and the payment check pass the request and the handler's checks pass. Then exactly one schema-valid document with a fresh number is appended; otherwise nothing is stored or mailed. |
| Pipeline.RouteStoresOnlyWhenAllPass | backend/src/index.ts:51 | On the route as written, something is stored only when `checkDuplicate` as written, `verifyPayment` and the handler's checks all pass. Then exactly one schema-valid document with a fresh number is appended; otherwise nothing is stored or mailed. |
| Pipeline.RouteReply | backend/src/index.ts:51 | On the route as written, `checkDuplicate` answers before `verifyPayment`, and `verifyPayment` before the handler. The reply is a 409 exactly when the guard as written finds a stored registration with the lower-cased event and the same e-mail or mobile. It is a 201 exactly when a document is stored and mailed, and only a 201 is a success. |
| Pipeline.RouteKeepsStoreValid | backend/src/index.ts:51 | The route as written, and the route with the corrected guard, keep the collection schema-valid with distinct numbers. |
| Pipeline.StoredKeys | backend/src/register.ts:153-159 | The stored e-mail is the guard's lookup key, and the stored event is the trimmed event. |
| Pipeline.ReplayRefused | backend/src/search.ts:17-36 | With the corrected guard, replaying a request that registered a team is refused with 409 and stores and mails nothing, whatever the second request's payment and environment. |
| Pipeline.AsWrittenReplayStoresTwice | backend/src/search.ts:18-23 | With the guard as written and events with capital letters, replaying a stored request stores the same submission a second time under a different number. |
| Pipeline.HandleRegister | backend/src/index.ts:51 | The route as written, run on a store object (`checkDuplicate` as written, then `verifyPayment`, then `registerUser`), has the outcome of the route function, and it preserves the store invariant. |
| Admin.AuthenticateAdminIff | backend/src/utils/admin.ts:31-45 | A request passes exactly when the header is "Bearer " followed by the configured password. A missing or malformed header and a wrong token get different 401 messages. |
| Admin.LoginTokenAuthenticates | backend/src/utils/admin.ts:48-61 | Login succeeds exactly for the non-empty configured password. The token it returns, sent as "Bearer " + token, passes the middleware. |
| Admin.PageOf | backend/src/utils/admin.ts:112-116 | `skip(skip).limit(limit)` returns at most \|limit\| items, and exactly the items following the skipped ones. |
| Admin.TotalPagesCover | backend/src/utils/admin.ts:127 | With a positive limit, ceil(total/limit) pages exactly cover the matches. |
| Admin.PageShows | backend/src/utils/admin.ts:104-115 | The match at sorted position k is on page k/limit+1, at position k mod limit. |
| Admin.ListReplyFacts | backend/src/utils/admin.ts:69-138 | The listing fails exactly when a store call throws or the page and limit give a negative skip, and the failure is the 500 "Failed to fetch registrations". |
| Admin.ListingCounts | backend/src/utils/admin.ts:104-129 | The total is the number of stored registrations, repeats included, that pass the event filter and the search; a page holds at most `limit` of them. |
| Admin.ListingContents | backend/src/utils/admin.ts:73-116 | Every listed registration passes the event filter (ignored when absent or "all") and the search. With the default sort, and any order other than "asc", the page runs newest first. |
| Admin.SelectedMeans | backend/src/utils/admin.ts:85-97 | Passing the combined query means passing the event filter and, when a search is given, the search. |
| Admin.NewestFirst | backend/src/utils/admin.ts:100-113 | A descending sort on `createdAt` orders the page newest first. |
| Admin.PageOfSorted | backend/src/utils/admin.ts:112-116 | A page of a sorted list keeps the order and holds only elements of the list. |
| Admin.AllMemberColumns | backend/src/utils/admin.ts:198-205 | Each team member adds four columns. |
| Admin.MemberColumnsAt | backend/src/utils/admin.ts:198-205 | Member j occupies the four columns "Team Member j+1 Name/Email/Mobile/College". |
| Admin.BuildRow | backend/src/utils/admin.ts:176-208 | The row-building loop produces the row function's row: 17 base columns plus four per member. |
| Admin.RowFacts | backend/src/utils/admin.ts:176-205 | "Sr. No." is the position plus one. The Registration ID column is "N/A" exactly for a missing or zero number, and the paper department column exactly for a missing one. Member j's columns come in order. |
| Admin.SheetNameFacts | backend/src/utils/admin.ts:221-223 | The sheet name is the filter's letters, digits, underscores and white space, in order, followed by "_Registrations"; an absent or "all" filter gives "All_Registrations". |
| Admin.ColumnWidths | backend/src/utils/admin.ts:215-217 | One width per key of the first row, each being max(key length, 15). |
| Admin.ExportMatchesFacts | backend/src/utils/admin.ts:150-169 | The export holds exactly the registrations passing the event filter and the inclusive date range, each as often as it is stored, newest first. |
| Admin.ExportSheetFacts | backend/src/utils/admin.ts:143-240 | The export fails exactly when a store call throws, with the 500 "Failed to export registrations", or nothing matches, with the 404. Otherwise there is one row per match, in order, with widths from the first row. |
| Admin.StatsOverview | backend/src/utils/admin.ts:249-283 | The total counts every registration. The solo and team counts are the sizes of the matching `find` results, zero exactly when no registration has that type. Solo plus team is at most the total, and equal to it over schema-valid documents. The per-event groups' counts add up to the total and their fee totals to the revenue. An empty collection gives zeros. |
| Admin.StatsReplyFacts | backend/src/utils/admin.ts:245-291 | The statistics fail exactly when a store call throws, with the 500 "Failed to fetch statistics"; otherwise they count the whole collection. |
| Admin.StatsGroups | backend/src/utils/admin.ts:254-265 | The per-event groups are sorted by count, largest first. Their keys are distinct, and each count and fee total is that event's. |
| Admin.NewestFacts | backend/src/utils/admin.ts:268-272 | The recent list holds five registrations, or all when there are fewer, each no more often than it is stored, newest first. Every registration left out is no newer than the last one shown. |
| Grouping.GroupByCorrect | backend/src/utils/admin.ts:254-261 | Grouping gives distinct keys and positive counts. Per key it gives the number of entries and the sum of their amounts. |
| Grouping.BumpAt | frontend/src/utils/teamMemberUtils.ts:143-146 | Adding one entry adds 1 to the count and the amount to the total of the first group with its key, leaving every other group as it was; for a new key it appends a group with count 1 and that amount. |
| Grouping.BumpTallies | frontend/src/utils/teamMemberUtils.ts:143-146 | Per key, adding an entry raises the recorded count by one and the total by its amount for its own key only; the counts overall grow by one. |
| EnhancedTeams.MigrateFacts | backend/src/schemas/enhancedTeamSchema.ts:289-334 | The team id is "TEAM_" + id. Event, size and payment fields are copied unchanged. There is one member per stored member, with the leader's department, year and city and status "confirmed". Max size 4, "paid" and "registered" are always set. On a normalised registration the leader and member fields are copied as they are. |
| EnhancedTeams.MigratedValidIff | backend/src/schemas/enhancedTeamSchema.ts:147-204 | A stored registration migrates to a valid document exactly when its department and year are in the schema's enums, its team size is at least 1 and its fee is not negative. |
| EnhancedTeams.FormChoicesAgainstSchema | backend/src/schemas/enhancedTeamSchema.ts:157-177 | Every department the form offers is accepted. Of the form's six years, exactly the first four are accepted. |
| EnhancedTeams.FormYearsMigrate | backend/src/schemas/enhancedTeamSchema.ts:289-331 | A registration with the form's "Graduate" or "Post Graduate" migrates to a document the schema refuses. |
| EnhancedTeams.FindFacts | backend/src/schemas/enhancedTeamSchema.ts:243-253 | Each lookup returns, in stored order, exactly the teams with the given event, leader department or payment status, each as often as it is stored. |
| EnhancedTeams.StatisticsFacts | backend/src/schemas/enhancedTeamSchema.ts:255-283 | An empty collection gives the all-zero record. Solo plus team participations is at most the number of teams, and equal to it over valid documents. |
| Events.Lookup | src/data/events.ts:347-349 | A key in the table gets the list stored under its first entry; a key not in the table gets the empty list; any non-empty result is a list stored under the key. |
| Events.DepartmentListsFound | src/data/events.ts:343-349 | Each of the nine department keys of the catalogue gets its own department's list. |
| Events.ByDepartmentInAll | src/data/events.ts:343-349 | Every event of a department is among all events, and an unknown key gives []. |
| Events.AllEventsListed | src/data/events.ts:343-345 | `getAllEvents` is the department lists concatenated in table order. |
| Events.CatalogueFacts | src/data/events.ts:24-341 | There are 24 events, each with fee 100 and a team limit from 1 to 6. |
| Events.CatalogueIdsDistinct | src/data/events.ts:24-341 | No two events share an id. |
| Events.NamesCapitalised | src/data/events.ts:24-341 | Every event name contains a capital letter. |
| Events.PaperPositions | src/data/events.ts:24-341 | The paper presentations are exactly the events at positions 0, 3, …, 21. |
| Events.PaperPresentations | src/data/events.ts:26-320 | The eight paper presentations are each in a different department and each allow up to 4. |
| Form.FilteredShape | frontend/src/components/RegistrationForm.tsx:102-117 | The form offers the events before the first paper presentation, then that one under "All Departments", then every later event that is not a paper presentation. |
| Form.FilteredKeepsOthers | frontend/src/components/RegistrationForm.tsx:102-117 | Events other than paper presentations are offered unchanged and in order. |
| Form.FilteredCatalogue | frontend/src/components/RegistrationForm.tsx:99-117 | On the catalogue, the offered list is the aeronautical paper presentation as "All Departments", followed by all non-paper events. |
| Form.FindById | frontend/src/components/RegistrationForm.tsx:178 | An event is found exactly when one has the id, and it is in the catalogue. |
| Form.Resized | frontend/src/components/RegistrationForm.tsx:159-173 | Resizing keeps the existing slots first, then adds empty slots or cuts from the end, giving exactly the target count. |
| Form.EventChangeFacts | frontend/src/components/RegistrationForm.tsx:190-214 | After an event change the size is within the event's limit. A solo-only event forces solo with size 1. A larger size is clamped to the limit; a smaller one is kept. |
| Form.ParticipationChangeFacts | frontend/src/components/RegistrationForm.tsx:217-238 | "team" is refused exactly for a solo-only event. Solo sets size 1; team sets min(2, limit), or 2 with no event. |
| Form.TeamSizeChoicesFacts | frontend/src/components/RegistrationForm.tsx:708 | The size buttons are exactly 2 up to the event's limit, in increasing order. |
| Form.FindPaper | frontend/src/components/RegistrationForm.tsx:259-262 | The search finds a paper presentation of the given department exactly when the catalogue has one. |
| Form.ResolveFacts | frontend/src/components/RegistrationForm.tsx:256-276 | A paper presentation with a chosen department resolves to that department's event when one exists. Other events are unchanged. The submitted name is the same either way. |
| Form.RegistrationForm.constructor | frontend/src/components/RegistrationForm.tsx:90-139 | The initial state is no event, solo, size 1 and fee 0, with empty form values. |
| Form.RegistrationForm.ApplyParticipation | frontend/src/components/RegistrationForm.tsx:148-175 | Solo sets fee 100, size 1 and no member slots. Team sets fee 100·size, with the slots resized to size−1 by appending empty slots or removing from the end. The state is then settled, and the limit bounds are kept. |
| Form.RegistrationForm.HandleEventChange | frontend/src/components/RegistrationForm.tsx:177-215 | The selected event is the catalogue event with the id. Its paper flag controls the department field, which is cleared for other events. Type and size follow the event-change rule. Afterwards the size respects the event's limit. |
| Form.RegistrationForm.FitToEvent | frontend/src/components/RegistrationForm.tsx:190-214 | Forces solo for a solo-only event, or clamps the size to the limit, writing the form values as the source does. |
| Form.RegistrationForm.HandleParticipationTypeChange | frontend/src/components/RegistrationForm.tsx:217-238 | A refused change leaves everything as it was. An accepted one sets the type and the size the rule gives, and keeps the limit bounds. |
| Form.RegistrationForm.HandleTeamSizeChange | frontend/src/components/RegistrationForm.tsx:240-251 | A size above the event's limit is refused and the size is unchanged; any other size is taken. |
| Form.CatalogueEventBounds | src/data/events.ts:24-341 | Any event the form can select allows 1 to 6 participants and costs 100. |
| Form.SettledFee | frontend/src/components/RegistrationForm.tsx:285-291 | A settled fee is at most 100 times the event's limit. The order amount is that fee in paise, which is 10000 per participant. |
| TeamUtils.BaseErrorsFacts | frontend/src/utils/teamMemberUtils.ts:15-35 | At most four messages, in the order name, email, mobile, college. Each message appears exactly when its check fails, and none exactly when the member is valid. |
| TeamUtils.ValidateTeamMember | frontend/src/utils/teamMemberUtils.ts:15-35 | The validator's pushes produce exactly those messages. |
| TeamUtils.ExtendedErrorsShape | frontend/src/utils/teamMemberUtils.ts:37-63 | The base errors come first, then the department, year and city errors. Contact errors come only when a contact is given. There are at most nine messages. |
| TeamUtils.ExtendedErrorsEmptyIff | frontend/src/utils/teamMemberUtils.ts:37-63 | Nothing is reported exactly when every check passes, the contact's only when a contact is present. |
| TeamUtils.ValidateExtendedTeamMember | frontend/src/utils/teamMemberUtils.ts:37-63 | The validator's pushes produce exactly the extended messages. |
| TeamUtils.CheckEmergencyContact | frontend/src/utils/teamMemberUtils.ts:52-60 | The contact's name and mobile errors are appended, in that order, to the existing errors. |
| TeamUtils.SampleEmailValid | frontend/src/utils/teamMemberUtils.ts:66-69 | "john.doe@example.com" passes the e-mail pattern. |
| TeamUtils.EmailWithoutDotInvalid | frontend/src/utils/teamMemberUtils.ts:66-69 | "john@example" fails the e-mail pattern. |
| TeamUtils.MobileExamples | frontend/src/utils/teamMemberUtils.ts:71-74 | Ten digits pass the mobile pattern; a dash fails it. |
| TeamUtils.EmailShape | frontend/src/utils/teamMemberUtils.ts:66-69 | A valid address has no white space and exactly one '@'. |
| TeamUtils.DotlessDomainInvalid | frontend/src/utils/teamMemberUtils.ts:66-69 | Any address with an '@' that no '.' follows fails the e-mail pattern. |
| TeamUtils.FormatMobileFacts | frontend/src/utils/teamMemberUtils.ts:85-91 | Ten characters become "+91-" + first five + "-" + last five, fifteen characters in all, from which the input can be read back. Any other input is unchanged, so formatting is idempotent. |
| TeamUtils.FormatMobileInjective | frontend/src/utils/teamMemberUtils.ts:85-91 | Two valid mobile numbers never format to the same text. |
| TeamUtils.AddMemberFacts | frontend/src/utils/teamMemberUtils.ts:94-111 | Adding fails exactly unless the team is forming with room. Otherwise the member goes last and the size grows by one. The status is "complete" exactly when the new size reaches the maximum, and nothing else changes. |
| TeamUtils.RemoveMemberFacts | frontend/src/utils/teamMemberUtils.ts:113-122 | Every member with the id is dropped and every other member is kept, in order and as often as it occurs. The size is the rest plus one, the status is coherent with it, and removing again changes nothing. |
| TeamUtils.AddThenRemove | frontend/src/utils/teamMemberUtils.ts:98-122 | Adding a member with a fresh id to a coherent team and then removing it gives back the team. |
| TeamUtils.TallyFacts | frontend/src/utils/teamMemberUtils.ts:143-161 | Each tally has distinct keys, and its counts add up to the number of people. |
| TeamUtils.CalculateTeamMemberStatistics | frontend/src/utils/teamMemberUtils.ts:125-177 | The total is the leaders plus the members. Solo plus team equals the number of teams, with solo meaning size 1. Each per-department, college, year and city tally adds up to the total. |
| TeamUtils.CsvRowWidth | frontend/src/utils/teamMemberUtils.ts:180-217 | The header and every row have sixteen fields. |
| TeamUtils.CsvLineFields | frontend/src/utils/teamMemberUtils.ts:219-221 | A line of fields without commas splits at its commas into the quoted fields, and each field is recovered between its quotes. |
| TeamUtils.CsvLines | frontend/src/utils/teamMemberUtils.ts:219-223 | With no line break in any field, the export has one line for the header and one per team, in order. |
| TeamUtils.SearchFacts | frontend/src/utils/teamMemberUtils.ts:227-258 | A blank term returns the list unchanged. Any other term keeps, in order, exactly the teams with a case-insensitive hit in the searched fields, each as often as it occurs. |
| TeamUtils.SearchIgnoresCase | frontend/src/utils/teamMemberUtils.ts:231-233 | Searching for the lower-cased term gives the same result. |
| TeamUtils.FilterByEventFacts | frontend/src/utils/teamMemberUtils.ts:260-263 | "all" keeps every team. Any other id keeps, in order, exactly the teams of that event, each as often as it occurs, and filtering is idempotent. |
| TeamUtils.FilterByDepartmentFacts | frontend/src/utils/teamMemberUtils.ts:265-268 | The same for the leader's department. |
| TeamUtils.FilterByPaymentStatusFacts | frontend/src/utils/teamMemberUtils.ts:270-273 | The same for the payment status. |
| TeamUtils.RegistrationToTeamMembers | frontend/src/utils/teamMemberUtils.ts:300-324 | Members keep the entries' count, order and contact fields and take the leader's department, year and city. Their ids are distinct and differ from the leader's. |
| TeamUtils.RegistrationRoundTrip | frontend/src/utils/teamMemberUtils.ts:276-339 | Registration → team → registration gives back the registration. The member list becomes explicit, and the participation type is "solo" exactly for size 1. |
| TeamUtils.TeamRoundTrip | frontend/src/utils/teamMemberUtils.ts:276-339 | Team → registration → team keeps the id, leader details, event, date, size, fee and each member's contact fields. It sets maximum 4, "registered" and "paid". |
| Text.TrimFacts | backend/src/register.ts:152-167 | `trim` gives a trimmed substring of the input that is no longer than it. |
| Text.TrimIdempotent | backend/src/register.ts:152-167 | Trimming twice is trimming once. |
| Text.SplitJoin | backend/dist/utils/mail.js:12 | Splitting a join at a separator absent from the parts gives back the parts. |
| Sorting.SortByKey | backend/src/utils/admin.ts:100-113 | The sort is ordered by the key in the requested direction and is a permutation of its input. |

## Left out

- `connectToMongoDB` (memoised connection, endless reconnect loop): concurrency and I/O. Its only effect kept is that a store call may throw. On the registration path that is an `Env` flag. In `Admin.ListRegistrations`, `Admin.ExportRegistrations` and `Admin.GetRegistrationStats` it is the `storeFails` parameter, which yields each handler's 500.
- HMAC-SHA256 (section 2 of RFC 2104 over SHA-256): a function parameter, so no property of the digest itself is assumed.
- The Razorpay `orders.create` call and the nodemailer transporter: foreign services. The gateway is a function parameter, and each send's outcome is scripted.
- The HTML body of the welcome mail: template text. The message records only the fields the code fills in.
- Real sleeps: the waits are recorded as sequences of milliseconds.
- XLSX workbook writing, the download headers and file name, and `toLocaleDateString`/`toISOString`: the export stops at the sheet name, rows and widths. Dates are opaque ordered integers, and date cells stay dates.
- `Admin.ListingContents`: the Mongo `$regex` search is the `hit` parameter. The contract says only that every listed registration satisfies it, not what a regular expression matches.
- `Admin.ListingContents`: sort fields other than `createdAt` order by the `rank` parameter. Mongo's tie order is not modelled; the sort is stable.
- `Mail.SendWelcomeEmail`: after the third failure it returns `delivered == false` instead of throwing. The handler's catch turns both into the same 500.
- `TeamUtils.CalculateTeamMemberStatistics`: omits `averageTeamSize`, which is floating-point division and rounding.
- `EnhancedTeams.StatisticsFacts`: omits `avgTeamSize` for the same reason.
- `Search.CheckDuplicateNext`: lower-casing maps ASCII letters only; `toLowerCase`'s Unicode case mapping is not modelled. White space is the full set JavaScript's `trim` removes.
- `Register.NormalizeClean`: the e-mail's `toLowerCase` maps ASCII letters only, so the contract says nothing about non-ASCII letters.
- `Register.NormalizeIdempotent`: holds for the ASCII lower-casing modelled, for the same reason.
- `TeamUtils.SearchFacts`: the case-insensitive match lower-cases ASCII letters only.
- `TeamUtils.SearchIgnoresCase`: the same ASCII-only lower-casing.
- `EnhancedTeams.MigrateFacts`: the schema's `lowercase` setters map ASCII letters only.
- `Mail.TitleCaseShape`: upper-casing maps ASCII letters only. JavaScript's `toUpperCase` can lengthen a string ('ß' becomes "SS"), which the length claim does not cover.
- `Mail.TitleCaseIdempotent`: upper-casing maps ASCII letters only, for the same reason.
- `Mail.Capitalize`: lengths and positions count code points, not the UTF-16 code units of JavaScript's `length`, `charAt` and `slice`; a character outside the Basic Multilingual Plane counts once here and twice there.
- `TeamUtils.BaseErrorsFacts`: the "at least two characters" checks count code points, not UTF-16 code units, so a single astral character is rejected here and accepted by the source.
- `TeamUtils.ExtendedErrorsEmptyIff`: the same code-point counting for the city and contact-name checks.
- `TeamUtils.FormatMobileFacts`: the ten-character test counts code points, not UTF-16 code units, so five astral characters are left unchanged here and reformatted by the source.
- JavaScript numbers are unbounded integers here. `Number(...)` conversion of strings is not modelled: body numbers arrive as integers or are absent. `parseInt` of the page and limit is an optional integer.
- `TeamUtils.TallyFacts`: plain-object key semantics are not modelled. A college, year or city named after an inherited property ("constructor", "toString") reads that property in the source and "__proto__" is dropped, so the counts add up as stated only for keys that are not such names; integer-like keys, listed first by JavaScript, keep first-appearance order here.
- `TeamUtils.CalculateTeamMemberStatistics`: the same plain-object key semantics are not modelled for its four tallies.
- `Events.ByDepartmentInAll`: plain-object key semantics are not modelled; in the source a key inherited by the table object ("constructor", say) returns that inherited value instead of [].
- `formatTeamMemberForDisplay` and `formatTeamMemberDetails`: display strings only, with nothing to decide.
- `frontend/src/utils/performance.ts`, all JSX, toasts, and the form's fetch and Razorpay modal code: presentation and browser I/O.
- Route wiring other than the handler order of `POST /api/register`.
- The compiled copies under `backend/dist/` other than `mail.js`: they lag the TypeScript sources.
- Mongoose index declarations and the pre-save `lastUpdated` hook: storage details with no decision in them.
- The live-server test scripts' expected messages: with the route's handler order, the payment check answers before `registerUser` does, so those expectations are not stated as properties.

## Findings

| source | as written | input that shows it | evidently intended | confidence | as-written member | corrected member |
|---|---|---|---|---|---|---|
| backend/src/search.ts:18-23 | The duplicate lookup compares the stored `selectedEvent` with the request's event lower-cased. The handler stores the event only trimmed, and every catalogue event name has a capital letter (`Events.NamesCapitalised`), so the guard never finds a registration made through the form. | "Robo Race" stored for a@b.in and mobile 9876543210; the same leader submits "Robo Race" again and is registered a second time | A second registration by the same e-mail or mobile for the same event is refused with 409, comparing events without regard to case. The corrected definitions are `Search.CheckDuplicateCaseless` and `Pipeline.RegisterRouteCaseless`; the route the model runs (`Pipeline.RegisterRoute`, `Pipeline.HandleRegister`) keeps the guard as written | not executed | Search.AsWrittenLetsDuplicateThrough | Pipeline.ReplayRefused |

=== FILE: admin.dfy ===
/** The admin service (backend/src/utils/admin.ts): the bearer-token check,
    login, the paged listing, the spreadsheet export and the statistics. All
    of them read the collection of registrations and change nothing. */
module Admin {
  import opened Common
  import opened Text
  import opened Seqs
  import opened Sorting
  import opened Grouping
  import opened Records

  const NoToken := "No admin token provided"
  const BadCredentials := "Invalid admin credentials"
  const BadPassword := "Invalid admin password"
  const LoggedIn := "Admin authenticated successfully"
  const FetchFailed := "Failed to fetch registrations"
  const NoneFound := "No registrations found for the given criteria"
  const ExportError := "Failed to export registrations"
  const StatsError := "Failed to fetch statistics"
  const BearerPrefix := "Bearer "

  // ---------------------------------------------------------------- access

  /** The bearer-token middleware; `adminPassword` is the configured password. */
  function AuthenticateAdmin(header: Option<string>, adminPassword: Option<string>): Step {
    if !Truthy(header) || !StartsWith(header.value, BearerPrefix) then Stop(Fail(401, NoToken))
    else if Some(header.value[|BearerPrefix|..]) != adminPassword then Stop(Fail(401, BadCredentials))
    else Next
  }

  /** A request passes exactly when its header is "Bearer " followed by the
      configured password; a missing or malformed header and a wrong token
      get different 401 replies. */
  lemma AuthenticateAdminIff(header: Option<string>, adminPassword: Option<string>)
    ensures AuthenticateAdmin(header, adminPassword) == Next <==>
      adminPassword.Some? && header == Some(BearerPrefix + adminPassword.value)
    ensures AuthenticateAdmin(header, adminPassword).Stop? ==>
      AuthenticateAdmin(header, adminPassword).response ==
        (if header.Some? && StartsWith(header.value, BearerPrefix) then Fail(401, BadCredentials)
         else Fail(401, NoToken))
  {
    if header.Some? && StartsWith(header.value, BearerPrefix) {
      assert header.value == BearerPrefix + header.value[|BearerPrefix|..];
    }
    if adminPassword.Some? && header == Some(BearerPrefix + adminPassword.value) {
      assert header.value[|BearerPrefix|..] == adminPassword.value;
    }
  }

  datatype LoginReply = LoginReply(response: Response, token: Option<string>)

  function AdminLogin(password: Option<string>, adminPassword: Option<string>): LoginReply {
    if !Truthy(password) || password != adminPassword then LoginReply(Fail(401, BadPassword), None)
    else LoginReply(Response(200, true, LoggedIn), password)
  }

  /** Login succeeds exactly for the configured, non-empty password, and the
      token it hands out opens every admin route. */
  lemma LoginTokenAuthenticates(password: Option<string>, adminPassword: Option<string>)
    ensures AdminLogin(password, adminPassword).response.success <==>
      Truthy(password) && password == adminPassword
    ensures var reply := AdminLogin(password, adminPassword);
      reply.response.success ==>
        reply.token.Some? && AuthenticateAdmin(Some(BearerPrefix + reply.token.value), adminPassword) == Next
  {
    var reply := AdminLogin(password, adminPassword);
    if reply.response.success {
      AuthenticateAdminIff(Some(BearerPrefix + reply.token.value), adminPassword);
    }
  }

  // --------------------------------------------------------------- listing

  /** The query string of the listing; `page` and `limit` as parsed numbers. */
  datatype ListQuery = ListQuery(
    sortBy: Option<string>, sortOrder: Option<string>, eventFilter: Option<string>,
    search: Option<string>, page: Option<int>, limit: Option<int>)

  datatype Listing = Listing(
    registrations: seq<Registration>, currentPage: int, totalPages: Option<int>,
    totalCount: nat, limit: int, availableEvents: set<string>)

  datatype ListReply = Listed(listing: Listing) | ListFailed(response: Response)

  /** The event filter applies when it is set and is not "all". */
  predicate EventSelected(eventFilter: Option<string>, r: Registration) {
    !Truthy(eventFilter) || eventFilter.value == "all" || r.data.selectedEvent == eventFilter.value
  }

  /** The sort position of a document by the named field; documents are
      ordered by creation time unless another field is named, whose order
      `rank` gives. */
  function SortKey(field: string, rank: (string, Registration) -> int, r: Registration): int {
    if field == "createdAt" then r.createdAt else rank(field, r)
  }

  function SortKeyOf(field: string, rank: (string, Registration) -> int): Registration -> int {
    r => SortKey(field, rank, r)
  }

  function Abs(n: int): nat {
    if n < 0 then -n else n
  }

  /** `skip(skip).limit(limit)`: a limit of 0 means no limit, a negative one
      is taken by its size. */
  function PageOf<T>(s: seq<T>, skip: nat, limit: int): (r: seq<T>)
    ensures limit != 0 ==> |r| <= Abs(limit)
    ensures skip <= |s| ==> |r| == if limit == 0 || |s| - skip < Abs(limit) then |s| - skip else Abs(limit)
    ensures skip <= |s| ==> forall i :: 0 <= i < |r| ==> r[i] == s[skip + i]
    ensures skip >= |s| ==> r == []
  {
    var rest := if skip <= |s| then s[skip..] else [];
    if limit == 0 || |rest| < Abs(limit) then rest else rest[..Abs(limit)]
  }

  /** `Math.ceil(total / limit)`, with `None` for the non-finite results of
      a zero limit. */
  function TotalPages(total: nat, limit: int): Option<int> {
    if limit == 0 then None
    else if limit > 0 then Some((total + limit - 1) / limit)
    else Some(-(total / -limit))
  }

  /** With a positive limit the pages exactly cover the matches: the last
      page is not empty and no match is left over. */
  lemma TotalPagesCover(total: nat, limit: int)
    requires limit > 0
    ensures TotalPages(total, limit).Some?
    ensures var p := TotalPages(total, limit).value;
      p * limit >= total && (total > 0 ==> (p - 1) * limit < total) && (total == 0 ==> p == 0)
  {
    var p := (total + limit - 1) / limit;
    var m := (total + limit - 1) % limit;
    assert total + limit - 1 == p * limit + m;
    assert (p - 1) * limit == p * limit - limit;
    if total == 0 {
      if p >= 1 {
        MulAtLeast(p, limit);
      }
    }
  }

  lemma MulAtLeast(a: int, b: int)
    requires a >= 1 && b > 0
    ensures a * b >= b
  {
    assert a * b == (a - 1) * b + b;
  }

  /** The match at position `k` of the sorted list is shown on page
      `k / limit + 1`, at position `k % limit`. */
  lemma PageShows<T>(s: seq<T>, limit: int, k: nat)
    requires limit > 0 && k < |s|
    ensures var p := k / limit + 1;
      var page := PageOf(s, (p - 1) * limit, limit);
      k % limit < |page| && page[k % limit] == s[k]
  {
    var skip := (k / limit) * limit;
    assert k == skip + k % limit;
  }

  function Query(rs: seq<Registration>, eventFilter: Option<string>, search: Option<string>,
                 hit: (string, Registration) -> bool): seq<Registration>
  {
    Filter(rs, Selected(eventFilter, search, hit))
  }

  /** The event filter and the text search together. */
  function Selected(eventFilter: Option<string>, search: Option<string>,
                    hit: (string, Registration) -> bool): Registration -> bool
  {
    r => EventSelected(eventFilter, r) && (!Truthy(search) || hit(search.value, r))
  }

  /** The requested page, 1 when none is given. */
  function PageNumber(q: ListQuery): int {
    if q.page.Some? then q.page.value else 1
  }

  /** The requested page size, 50 when none is given. */
  function PageLimit(q: ListQuery): int {
    if q.limit.Some? then q.limit.value else 50
  }

  /** How many matches the requested page skips. */
  function Skip(q: ListQuery): int {
    (PageNumber(q) - 1) * PageLimit(q)
  }

  /** `getAllRegistrations`; `storeFails` says whether a store call throws,
      `rank` orders documents by a named field and `hit(term, r)` says
      whether the text search matches `r`. */
  function ListRegistrations(rs: seq<Registration>, storeFails: bool, q: ListQuery,
                             rank: (string, Registration) -> int,
                             hit: (string, Registration) -> bool): ListReply
  {
    var sortBy := if q.sortBy.Some? then q.sortBy.value else "createdAt";
    var ascending := q.sortOrder == Some("asc");
    var page := PageNumber(q);
    var limit := PageLimit(q);
    var skip := Skip(q);
    if storeFails || skip < 0 then ListFailed(Fail(500, FetchFailed))
    else
      var matches := Query(rs, q.eventFilter, q.search, hit);
      var sorted := SortByKey(matches, SortKeyOf(sortBy, rank), ascending);
      Listed(Listing(PageOf(sorted, skip, limit), page, TotalPages(|matches|, limit), |matches|, limit,
                     set i | 0 <= i < |rs| :: rs[i].data.selectedEvent))
  }

  /** The listing fails with a 500 exactly when the store throws or the
      page and limit give a negative skip (which the store refuses). */
  lemma ListReplyFacts(rs: seq<Registration>, storeFails: bool, q: ListQuery,
                       rank: (string, Registration) -> int, hit: (string, Registration) -> bool)
    ensures ListRegistrations(rs, storeFails, q, rank, hit).ListFailed? <==> storeFails || Skip(q) < 0
    ensures ListRegistrations(rs, storeFails, q, rank, hit).ListFailed? ==>
      ListRegistrations(rs, storeFails, q, rank, hit).response == Fail(500, FetchFailed)
  {
  }

  /** A listing's total counts every registration passing the event filter
      and the search, and its page holds at most `limit` of them. */
  lemma ListingCounts(rs: seq<Registration>, storeFails: bool, q: ListQuery,
                      rank: (string, Registration) -> int, hit: (string, Registration) -> bool)
    requires ListRegistrations(rs, storeFails, q, rank, hit).Listed?
    ensures var l := ListRegistrations(rs, storeFails, q, rank, hit).listing;
      var limit := PageLimit(q);
      l.totalCount == |Query(rs, q.eventFilter, q.search, hit)| && l.totalCount <= |rs|
      && l.totalCount == CountIf(rs, Selected(q.eventFilter, q.search, hit))
      && (limit != 0 ==> |l.registrations| <= Abs(limit))
  {
  }

  /** Every registration on a listed page passes the event filter and the
      search, and with no sort order "asc" the page runs from newest to oldest
      (when sorted by creation time). */
  lemma ListingContents(rs: seq<Registration>, storeFails: bool, q: ListQuery,
                        rank: (string, Registration) -> int, hit: (string, Registration) -> bool)
    requires ListRegistrations(rs, storeFails, q, rank, hit).Listed?
    ensures var l := ListRegistrations(rs, storeFails, q, rank, hit).listing;
      (forall i :: 0 <= i < |l.registrations| ==>
         EventSelected(q.eventFilter, l.registrations[i])
         && (!Truthy(q.search) || hit(q.search.value, l.registrations[i])))
      && ((q.sortBy.None? || q.sortBy == Some("createdAt")) && q.sortOrder != Some("asc") ==>
            forall i, j :: 0 <= i < j < |l.registrations| ==>
              l.registrations[i].createdAt >= l.registrations[j].createdAt)
  {
    var sortBy := if q.sortBy.Some? then q.sortBy.value else "createdAt";
    var skip := Skip(q);
    var matches := Query(rs, q.eventFilter, q.search, hit);
    var key := SortKeyOf(sortBy, rank);
    var ascending := q.sortOrder == Some("asc");
    var pass := Selected(q.eventFilter, q.search, hit);
    var regs := PageOf(SortByKey(matches, key, ascending), skip, PageLimit(q));
    assert ListRegistrations(rs, storeFails, q, rank, hit).listing.registrations == regs;
    PageOfSorted(matches, key, ascending, skip, PageLimit(q), pass);
    SelectedMeans(q.eventFilter, q.search, hit, regs);
    if sortBy == "createdAt" && !ascending {
      NewestFirst(regs, rank);
    }
  }

  /** Passing the combined selection means passing the event filter and the search. */
  lemma SelectedMeans(eventFilter: Option<string>, search: Option<string>,
                      hit: (string, Registration) -> bool, regs: seq<Registration>)
    requires forall i :: 0 <= i < |regs| ==> Selected(eventFilter, search, hit)(regs[i])
    ensures forall i :: 0 <= i < |regs| ==>
      EventSelected(eventFilter, regs[i]) && (!Truthy(search) || hit(search.value, regs[i]))
  {
  }

  /** Descending by the creation-time key is newest first. */
  lemma NewestFirst(regs: seq<Registration>, rank: (string, Registration) -> int)
    requires Ordered(regs, SortKeyOf("createdAt", rank), false)
    ensures forall i, j :: 0 <= i < j < |regs| ==> regs[i].createdAt >= regs[j].createdAt
  {
    forall i, j | 0 <= i < j < |regs| ensures regs[i].createdAt >= regs[j].createdAt {
      assert InOrder(SortKeyOf("createdAt", rank)(regs[i]), SortKeyOf("createdAt", rank)(regs[j]), false);
    }
  }

  /** A page of a sorted list keeps the sort order and holds only elements
      of the list. */
  lemma PageOfSorted<T>(s: seq<T>, key: T -> int, ascending: bool, skip: nat, limit: int, p: T -> bool)
    requires forall i :: 0 <= i < |s| ==> p(s[i])
    ensures var page := PageOf(SortByKey(s, key, ascending), skip, limit);
      Ordered(page, key, ascending) && forall i :: 0 <= i < |page| ==> p(page[i])
  {
    var sorted := SortByKey(s, key, ascending);
    var page := PageOf(sorted, skip, limit);
    forall i | 0 <= i < |page| ensures p(page[i]) {
      assert page[i] in multiset(sorted);
      assert page[i] in multiset(s);
      var k :| 0 <= k < |s| && s[k] == page[i];
    }
  }

  // ---------------------------------------------------------------- export

  datatype ExportQuery = ExportQuery(eventFilter: Option<string>, startDate: Option<int>, endDate: Option<int>)

  /** Creation time within the inclusive range, each end applying only when given. */
  predicate InRange(q: ExportQuery, r: Registration) {
    (q.startDate.None? || q.startDate.value <= r.createdAt)
    && (q.endDate.None? || r.createdAt <= q.endDate.value)
  }

  function CreatedAt(r: Registration): int {
    r.createdAt
  }

  /** The registrations to export, newest first. */
  function ExportMatches(rs: seq<Registration>, q: ExportQuery): seq<Registration> {
    SortByKey(Filter(rs, r => EventSelected(q.eventFilter, r) && InRange(q, r)), CreatedAt, false)
  }

  /** A spreadsheet cell: a number, a text, a date, or nothing (`undefined`). */
  datatype Cell = Empty | Num(n: int) | Text(s: string) | Date(t: int)

  /** The fee column's prefix: the rupee sign's UTF-8 bytes as the source
      file spells them, read as single characters ("â‚¹"). */
  const FeePrefix := "\U{00E2}\U{201A}\U{00B9}"

  function OptText(o: Option<string>): Cell {
    if o.Some? then Text(o.value) else Empty
  }

  function OptNum(o: Option<int>): Cell {
    if o.Some? then Num(o.value) else Empty
  }

  function FeeText(fee: Option<int>): string {
    FeePrefix + (if fee.Some? then IntToString(fee.value) else "undefined")
  }

  /** The seventeen columns every row has, in order. */
  function BaseColumns(index: nat, r: Registration): seq<(string, Cell)> {
    var d := r.data;
    [("Sr. No.", Num(index + 1)),
     ("Registration ID", if r.registrationId.Some? && r.registrationId.value != 0
                         then Num(r.registrationId.value) else Text("N/A")),
     ("Registration Date", Date(r.createdAt)),
     ("Leader Name", Text(d.leaderName)),
     ("Leader Email", Text(d.leaderEmail)),
     ("Leader Mobile", Text(d.leaderMobile)),
     ("Leader College", Text(d.leaderCollege)),
     ("Leader Department", Text(d.leaderDepartment)),
     ("Leader Year", Text(d.leaderYear)),
     ("Leader City", Text(d.leaderCity)),
     ("Event", Text(d.selectedEvent)),
     ("Paper Presentation Dept", Text(if d.paperPresentationDept != "" then d.paperPresentationDept else "N/A")),
     ("Participation Type", OptText(d.participationType)),
     ("Team Size", OptNum(d.teamSize)),
     ("Total Fee", Text(FeeText(d.totalFee))),
     ("Payment ID", Text(d.paymentId)),
     ("Order ID", Text(d.orderId))]
  }

  function MemberKey(n: nat, field: string): string {
    "Team Member " + NatToString(n) + " " + field
  }

  /** The four columns of the member numbered `n` (from 1). */
  function MemberColumns(n: nat, m: Member): seq<(string, Cell)> {
    [(MemberKey(n, "Name"), Text(m.name)), (MemberKey(n, "Email"), Text(m.email)),
     (MemberKey(n, "Mobile"), Text(m.mobile)), (MemberKey(n, "College"), Text(m.college))]
  }

  /** The columns of the members `ms`, numbered from `first`. */
  function AllMemberColumns(ms: seq<Member>, first: nat): (cols: seq<(string, Cell)>)
    ensures |cols| == 4 * |ms|
  {
    if ms == [] then [] else MemberColumns(first, ms[0]) + AllMemberColumns(ms[1..], first + 1)
  }

  /** The spreadsheet row of the registration at position `index`. */
  function Row(index: nat, r: Registration): seq<(string, Cell)> {
    BaseColumns(index, r) + AllMemberColumns(r.data.teamMembers, 1)
  }

  lemma {:induction false} AllMemberColumnsAppend(ms: seq<Member>, m: Member, first: nat)
    ensures AllMemberColumns(ms + [m], first) == AllMemberColumns(ms, first) + MemberColumns(first + |ms|, m)
  {
    if ms == [] {
      assert ms + [m] == [m];
    } else {
      assert (ms + [m])[1..] == ms[1..] + [m];
      AllMemberColumnsAppend(ms[1..], m, first + 1);
    }
  }

  /** Member `j` (from 0) occupies the four columns after the base columns
      and the columns of the members before it, under the keys "Team Member
      j+1 Name", "… Email", "… Mobile", "… College". */
  lemma {:induction false} MemberColumnsAt(ms: seq<Member>, first: nat, j: nat)
    requires j < |ms|
    ensures AllMemberColumns(ms, first)[4 * j..4 * j + 4] == MemberColumns(first + j, ms[j])
  {
    if j > 0 {
      MemberColumnsAt(ms[1..], first + 1, j - 1);
      var rest := AllMemberColumns(ms[1..], first + 1);
      assert AllMemberColumns(ms, first)[4 * j..4 * j + 4] == rest[4 * (j - 1)..4 * (j - 1) + 4];
    }
  }

  /** Builds the row: the base columns, then four columns per team member,
      added member by member. */
  method BuildRow(index: nat, r: Registration) returns (row: seq<(string, Cell)>)
    ensures row == Row(index, r)
    ensures |row| == 17 + 4 * |r.data.teamMembers|
  {
    row := BaseColumns(index, r);
    var ms := r.data.teamMembers;
    var j := 0;
    while j < |ms|
      invariant 0 <= j <= |ms|
      invariant row == BaseColumns(index, r) + AllMemberColumns(ms[..j], 1)
    {
      AllMemberColumnsAppend(ms[..j], ms[j], 1);
      assert ms[..j + 1] == ms[..j] + [ms[j]];
      row := row + MemberColumns(j + 1, ms[j]);
      j := j + 1;
    }
    assert ms[..j] == ms;
  }

  /** A row starts with "Sr. No." = position + 1, shows "N/A" for a missing
      (or zero) registration number and a missing paper department, and ends
      with the four columns of each member in order. */
  lemma RowFacts(index: nat, r: Registration, j: nat)
    requires j < |r.data.teamMembers|
    ensures var row := Row(index, r);
      |row| == 17 + 4 * |r.data.teamMembers|
      && row[0] == ("Sr. No.", Num(index + 1))
      && (row[1].1 == Text("N/A") <==> r.registrationId.None? || r.registrationId.value == 0)
      && (row[11].1 == Text("N/A") <==> r.data.paperPresentationDept in {"", "N/A"})
      && row[17 + 4 * j..17 + 4 * j + 4] == MemberColumns(j + 1, r.data.teamMembers[j])
  {
    MemberColumnsAt(r.data.teamMembers, 1, j);
    var row := Row(index, r);
    assert row[17..] == AllMemberColumns(r.data.teamMembers, 1);
    assert row[17 + 4 * j..17 + 4 * j + 4] == row[17..][4 * j..4 * j + 4];
  }

  /** `[^\w\s]` removed: letters, digits, `_` and white space are kept. */
  predicate SheetChar(c: char) {
    ('A' <= c <= 'Z') || ('a' <= c <= 'z') || ('0' <= c <= '9') || c == '_' || IsSpace(c)
  }

  function SheetName(eventFilter: Option<string>): string {
    if Truthy(eventFilter) && eventFilter.value != "all"
    then Filter(eventFilter.value, SheetChar) + "_Registrations"
    else "All_Registrations"
  }

  /** The sheet name is the filter's letters, digits, underscores and spaces,
      in order, followed by "_Registrations"; a filter with nothing to remove
      is kept as it is; unfiltered exports use "All_Registrations". */
  lemma SheetNameFacts(eventFilter: Option<string>)
    ensures var name := SheetName(eventFilter);
      if Truthy(eventFilter) && eventFilter.value != "all" then
        var prefix := name[..|name| - |"_Registrations"|];
        name == prefix + "_Registrations"
        && (forall i :: 0 <= i < |prefix| ==> SheetChar(prefix[i]))
        && IsSubsequence(prefix, eventFilter.value)
        && ((forall i :: 0 <= i < |eventFilter.value| ==> SheetChar(eventFilter.value[i])) ==>
              prefix == eventFilter.value)
      else name == "All_Registrations"
  {
    if Truthy(eventFilter) && eventFilter.value != "all" {
      var kept := Filter(eventFilter.value, SheetChar);
      assert SheetName(eventFilter)[..|SheetName(eventFilter)| - |"_Registrations"|] == kept;
      FilterIsSubsequence(eventFilter.value, SheetChar);
      if forall i :: 0 <= i < |eventFilter.value| ==> SheetChar(eventFilter.value[i]) {
        FilterAll(eventFilter.value, SheetChar);
      }
    }
  }

  function Width(column: (string, Cell)): nat {
    if |column.0| > 15 then |column.0| else 15
  }

  /** Column widths from the keys of the first row: the key's length, at least 15. */
  function ColumnWidths(first: seq<(string, Cell)>): (ws: seq<nat>)
    ensures |ws| == |first|
    ensures forall i :: 0 <= i < |ws| ==>
              ws[i] >= 15 && ws[i] >= |first[i].0| && (ws[i] == 15 || ws[i] == |first[i].0|)
  {
    Map(first, Width)
  }

  datatype Sheet = Sheet(name: string, rows: seq<seq<(string, Cell)>>, widths: seq<nat>)
  datatype ExportReply = Exported(sheet: Sheet) | ExportFailed(response: Response)

  /** `exportToExcel`; `storeFails` says whether the store call throws. */
  function ExportRegistrations(rs: seq<Registration>, storeFails: bool, q: ExportQuery): ExportReply {
    var regs := ExportMatches(rs, q);
    if storeFails then ExportFailed(Fail(500, ExportError))
    else if regs == [] then ExportFailed(Fail(404, NoneFound))
    else
      var rows := seq(|regs|, i requires 0 <= i < |regs| => Row(i, regs[i]));
      Exported(Sheet(SheetName(q.eventFilter), rows, ColumnWidths(rows[0])))
  }

  /** The exported registrations are those passing the event filter and the
      inclusive date range, each as often as it is stored, newest first. */
  lemma ExportMatchesFacts(rs: seq<Registration>, q: ExportQuery)
    ensures var regs := ExportMatches(rs, q);
      (forall i :: 0 <= i < |regs| ==> EventSelected(q.eventFilter, regs[i]) && InRange(q, regs[i]))
      && (forall i :: 0 <= i < |rs| && EventSelected(q.eventFilter, rs[i]) && InRange(q, rs[i]) ==>
            rs[i] in regs)
      && (forall i, j :: 0 <= i < j < |regs| ==> regs[i].createdAt >= regs[j].createdAt)
      && (forall x :: multiset(regs)[x] == if EventSelected(q.eventFilter, x) && InRange(q, x) then multiset(rs)[x] else 0)
  {
    var p := r => EventSelected(q.eventFilter, r) && InRange(q, r);
    var kept := Filter(rs, p);
    var regs := ExportMatches(rs, q);
    FilterMultiplicity(rs, p);
    forall i | 0 <= i < |regs| ensures EventSelected(q.eventFilter, regs[i]) && InRange(q, regs[i]) {
      assert regs[i] in multiset(kept);
      var k :| 0 <= k < |kept| && kept[k] == regs[i];
    }
    forall i | 0 <= i < |rs| && p(rs[i]) ensures rs[i] in regs {
      assert rs[i] in kept;
      assert rs[i] in multiset(regs);
    }
  }

  /** The export fails exactly when the store throws (a 500) or no
      registration matches (a 404); otherwise the sheet has one row per
      match, in order, and the widths follow the first row's keys. */
  lemma ExportSheetFacts(rs: seq<Registration>, storeFails: bool, q: ExportQuery)
    ensures var regs := ExportMatches(rs, q);
      (ExportRegistrations(rs, storeFails, q).ExportFailed? <==> storeFails || regs == [])
      && (ExportRegistrations(rs, storeFails, q).ExportFailed? ==>
            ExportRegistrations(rs, storeFails, q).response
              == if storeFails then Fail(500, ExportError) else Fail(404, NoneFound))
      && (ExportRegistrations(rs, storeFails, q).Exported? ==>
            var sheet := ExportRegistrations(rs, storeFails, q).sheet;
            |sheet.rows| == |regs|
            && (forall i :: 0 <= i < |regs| ==> sheet.rows[i] == Row(i, regs[i]))
            && |sheet.widths| == 17 + 4 * |regs[0].data.teamMembers|)
  {
  }

  // ------------------------------------------------------------ statistics

  datatype RecentEntry = RecentEntry(leaderName: string, selectedEvent: string, createdAt: int, totalFee: Option<int>)
  datatype Overview = Overview(totalRegistrations: nat, soloRegistrations: nat, teamRegistrations: nat, totalRevenue: int)
  datatype Statistics = Statistics(overview: Overview, eventStats: seq<Group>, recent: seq<RecentEntry>)
  datatype StatsReply = StatsReturned(stats: Statistics) | StatsFailed(response: Response)

  /** `$sum` of `totalFee`: a document without a fee adds nothing. */
  function FeeOf(r: Registration): int {
    if r.data.totalFee.Some? then r.data.totalFee.value else 0
  }

  function EventEntry(r: Registration): (string, int) {
    (r.data.selectedEvent, FeeOf(r))
  }

  function Recent(r: Registration): RecentEntry {
    RecentEntry(r.data.leaderName, r.data.selectedEvent, r.createdAt, r.data.totalFee)
  }

  predicate IsSolo(r: Registration) {
    r.data.participationType == Some("solo")
  }

  predicate IsTeam(r: Registration) {
    r.data.participationType == Some("team")
  }

  function GroupCount(g: Group): int {
    g.count
  }

  function GroupTotal(g: Group): int {
    g.total
  }

  function Newest(rs: seq<Registration>): seq<Registration> {
    var sorted := SortByKey(rs, CreatedAt, false);
    if |sorted| <= 5 then sorted else sorted[..5]
  }

  function RegistrationStats(rs: seq<Registration>): Statistics {
    Statistics(
      Overview(|rs|, CountIf(rs, IsSolo),
               CountIf(rs, IsTeam), SumOf(rs, FeeOf)),
      SortByKey(GroupBy(Map(rs, EventEntry)), GroupCount, false),
      Map(Newest(rs), Recent))
  }

  /** `getRegistrationStats`; `storeFails` says whether a store call throws. */
  function GetRegistrationStats(rs: seq<Registration>, storeFails: bool): StatsReply {
    if storeFails then StatsFailed(Fail(500, StatsError)) else StatsReturned(RegistrationStats(rs))
  }

  /** The statistics fail with a 500 exactly when the store throws, and
      otherwise are computed from the whole collection. */
  lemma StatsReplyFacts(rs: seq<Registration>, storeFails: bool)
    ensures GetRegistrationStats(rs, storeFails).StatsFailed? <==> storeFails
    ensures GetRegistrationStats(rs, storeFails).StatsFailed? ==>
      GetRegistrationStats(rs, storeFails).response == Fail(500, StatsError)
    ensures GetRegistrationStats(rs, storeFails).StatsReturned? ==>
      GetRegistrationStats(rs, storeFails).stats.overview.totalRegistrations == |rs|
  {
  }

  lemma {:induction false} CountSoloTeam(rs: seq<Registration>)
    requires forall i :: 0 <= i < |rs| ==> SchemaValid(rs[i])
    ensures CountIf(rs, IsSolo)
            + CountIf(rs, IsTeam) == |rs|
  {
    if rs != [] {
      CountSoloTeam(rs[1..]);
    }
  }

  /** The overview counts every registration; the solo and team counts are
      those of the registrations a `find` on the participation type returns,
      zero exactly when there is none, never more than the total and, in a
      schema-valid collection, adding up to it; the per-event groups' counts
      add up to the total and their fee totals to the revenue; an empty
      collection gives zeros and empty lists. */
  lemma StatsOverview(rs: seq<Registration>)
    ensures var s := RegistrationStats(rs);
      s.overview.totalRegistrations == |rs|
      && s.overview.soloRegistrations + s.overview.teamRegistrations <= s.overview.totalRegistrations
      && (rs == [] ==> s.overview == Overview(0, 0, 0, 0) && s.eventStats == [] && s.recent == [])
    ensures (forall i :: 0 <= i < |rs| ==> SchemaValid(rs[i])) ==>
      var o := RegistrationStats(rs).overview;
      o.soloRegistrations + o.teamRegistrations == o.totalRegistrations
    ensures var o := RegistrationStats(rs).overview;
      o.soloRegistrations == |Filter(rs, IsSolo)| && o.teamRegistrations == |Filter(rs, IsTeam)|
      && (o.soloRegistrations == 0 <==> forall i :: 0 <= i < |rs| ==> !IsSolo(rs[i]))
      && (o.teamRegistrations == 0 <==> forall i :: 0 <= i < |rs| ==> !IsTeam(rs[i]))
    ensures var s := RegistrationStats(rs);
      SumOf(s.eventStats, GroupCount) == s.overview.totalRegistrations
      && SumOf(s.eventStats, GroupTotal) == s.overview.totalRevenue
  {
    CountIfDisjoint(rs);
    if forall i :: 0 <= i < |rs| ==> SchemaValid(rs[i]) {
      CountSoloTeam(rs);
    }
    CountIfZero(rs, IsSolo);
    CountIfZero(rs, IsTeam);
    var entries := Map(rs, EventEntry);
    var gs := GroupBy(entries);
    GroupByCorrect(entries);
    SortKeepsSum(gs, GroupCount, false, GroupCount);
    SortKeepsSum(gs, GroupCount, false, GroupTotal);
    GroupSums(gs);
    FeesGrouped(rs);
  }

  /** The sums over the groups' counts and totals. */
  lemma {:induction false} GroupSums(gs: seq<Group>)
    ensures SumOf(gs, GroupCount) == SumCounts(gs)
    ensures SumOf(gs, GroupTotal) == SumTotals(gs)
  {
    if gs != [] {
      GroupSums(gs[1..]);
    }
  }

  /** The per-event entries' amounts add up to the fees. */
  lemma {:induction false} FeesGrouped(rs: seq<Registration>)
    ensures SumAmounts(Map(rs, EventEntry)) == SumOf(rs, FeeOf)
  {
    if rs != [] {
      var init := rs[..|rs| - 1];
      var last := rs[|rs| - 1];
      assert rs == init + [last];
      FeesGrouped(init);
      MapAppend(init, [last], EventEntry);
      SumOfAppend(init, [last], FeeOf);
      var m := Map(rs, EventEntry);
      assert m[..|m| - 1] == Map(init, EventEntry);
    }
  }

  /** The per-event groups are ordered by count, largest first, have distinct
      events, and each records exactly the number of registrations for its
      event and the sum of their fees; the counts add up to the total. */
  lemma StatsGroups(rs: seq<Registration>)
    ensures var s := RegistrationStats(rs);
      Ordered(s.eventStats, GroupCount, false)
      && multiset(s.eventStats) == multiset(GroupBy(Map(rs, EventEntry)))
      && DistinctKeys(GroupBy(Map(rs, EventEntry)))
      && SumCounts(GroupBy(Map(rs, EventEntry))) == |rs|
      && forall i :: 0 <= i < |s.eventStats| ==>
           s.eventStats[i].count == CountKey(Map(rs, EventEntry), s.eventStats[i].key)
           && s.eventStats[i].total == SumKey(Map(rs, EventEntry), s.eventStats[i].key)
  {
    var entries := Map(rs, EventEntry);
    var gs := GroupBy(entries);
    var stats := SortByKey(gs, GroupCount, false);
    GroupByCorrect(entries);
    forall i | 0 <= i < |stats|
      ensures stats[i].count == CountKey(entries, stats[i].key)
      ensures stats[i].total == SumKey(entries, stats[i].key)
    {
      assert stats[i] in multiset(gs);
      var k :| 0 <= k < |gs| && gs[k] == stats[i];
      GroupLookup(gs, k);
    }
  }

  lemma {:induction false} CountIfDisjoint(rs: seq<Registration>)
    ensures CountIf(rs, IsSolo)
            + CountIf(rs, IsTeam) <= |rs|
  {
    if rs != [] {
      CountIfDisjoint(rs[1..]);
    }
  }

  /** The recent list holds the five newest registrations (all of them when
      there are fewer), each no more often than it is stored, newest first:
      any registration left out is no newer than the last one listed. */
  lemma NewestFacts(rs: seq<Registration>)
    ensures var n := Newest(rs);
      |n| == (if |rs| < 5 then |rs| else 5)
      && (forall i, j :: 0 <= i < j < |n| ==> n[i].createdAt >= n[j].createdAt)
      && (forall i :: 0 <= i < |n| ==> n[i] in rs)
      && multiset(n) <= multiset(rs)
      && (forall i :: 0 <= i < |rs| ==> rs[i] in n || rs[i].createdAt <= n[|n| - 1].createdAt)
  {
    var sorted := SortByKey(rs, CreatedAt, false);
    var n := Newest(rs);
    if |sorted| > 5 {
      assert sorted == n + sorted[5..];
    }
    forall i | 0 <= i < |n| ensures n[i] in rs {
      assert n[i] in multiset(sorted);
    }
    forall i | 0 <= i < |rs| ensures rs[i] in n || rs[i].createdAt <= n[|n| - 1].createdAt {
      assert rs[i] in multiset(sorted);
      var k :| 0 <= k < |sorted| && sorted[k] == rs[i];
      if k >= 5 {
        assert InOrder(CreatedAt(sorted[4]), CreatedAt(sorted[k]), false);
      } else {
        assert n[k] == rs[i];
      }
    }
  }
}

=== FILE: common.dfy ===
/** Values shared by every handler of the backend: optional request fields and
    the outcome of an Express-style handler (answer the request, or call next()). */
module Common {

  datatype Option<+T> = None | Some(value: T)

  /** JavaScript truthiness of an optional string field: `undefined` and `""` are falsy. */
  predicate Truthy(o: Option<string>) {
    o.Some? && o.value != ""
  }

  /** An optional string field read where the code expects a string; a
      missing value and `""` are treated alike by every check that follows. */
  function OrEmpty(o: Option<string>): string {
    if o.Some? then o.value else ""
  }

  /** The JSON reply of a handler: HTTP status, the `success` flag and the
      `error` (or `message`) text. */
  datatype Response = Response(status: int, success: bool, message: string)

  /** What a middleware does with the request: pass it on with `next()`, or
      end it with a response. */
  datatype Step = Next | Stop(response: Response)

  function Fail(status: int, message: string): Response {
    Response(status, false, message)
  }
}

=== FILE: enhanced.dfy ===
/** The enhanced team document (backend/src/schemas/enhancedTeamSchema.ts):
    its schema bounds, the migration of a stored registration into it, the
    three lookup statics and the statistics aggregation. */
module EnhancedTeams {
  import opened Common
  import opened Text
  import opened Seqs
  import opened Records
  import Register
  import Form

  const Departments: set<string> := {
    "Aeronautical Engineering", "Mechanical Engineering", "Electrical Engineering",
    "Civil Engineering", "Computer Science Engineering", "AI & Data Science",
    "IoT & Cyber Security", "Business Administration", "Food Technology", "Other"}
  const Years: set<string> := {"1st Year", "2nd Year", "3rd Year", "4th Year", "Postgraduate", "PhD"}
  const MemberStatuses: set<string> := {"pending", "confirmed", "cancelled"}
  const PaymentStatuses: set<string> := {"pending", "paid", "failed", "refunded"}
  const TeamStatuses: set<string> := {"forming", "complete", "registered", "cancelled"}

  /** The migrated fields of a member; the optional extras (emergency
      contact, diet, T-shirt size, …) are never set by the migration. */
  datatype TeamMember = TeamMember(
    name: string, mobile: string, email: string, college: string,
    department: string, year: string, city: string, registrationDate: int, status: string)

  datatype Leader = Leader(
    name: string, email: string, mobile: string, college: string,
    department: string, year: string, city: string)

  datatype Team = Team(
    teamId: string, teamName: string, leader: Leader, members: seq<TeamMember>,
    selectedEvent: string, paperPresentationDept: string,
    participationType: Option<string>, teamSize: Option<int>, maxTeamSize: int,
    paymentId: string, orderId: string, signature: string, totalFee: Option<int>,
    paymentStatus: string, teamStatus: string, registrationDate: int, createdAt: int)

  /** The schema's `trim` setter, and `trim` with `lowercase` for e-mails. */
  function Email(s: string): string {
    Lower(Trim(s))
  }

  predicate MemberValid(m: TeamMember) {
    m.name != "" && m.mobile != "" && m.email != "" && m.college != ""
    && m.department in Departments && m.year in Years && m.status in MemberStatuses
  }

  /** The document passes the schema's `required`, `enum`, `min` and `max`
      validators. */
  predicate TeamValid(t: Team) {
    var l := t.leader;
    t.teamId != ""
    && l.name != "" && l.email != "" && l.mobile != "" && l.college != "" && l.city != ""
    && l.department in Departments && l.year in Years
    && (forall i :: 0 <= i < |t.members| ==> MemberValid(t.members[i]))
    && t.selectedEvent != ""
    && (t.participationType == Some("solo") || t.participationType == Some("team"))
    && t.teamSize.Some? && t.teamSize.value >= 1
    && 1 <= t.maxTeamSize <= 6
    && t.paymentId != "" && t.orderId != "" && t.signature != ""
    && t.totalFee.Some? && t.totalFee.value >= 0
    && t.paymentStatus in PaymentStatuses && t.teamStatus in TeamStatuses
  }

  /** A stored member as migrated: its own contact fields, the leader's
      department, year and city, and status "confirmed". */
  function MigrateMember(m: Member, d: Submission, createdAt: int): TeamMember {
    TeamMember(Trim(m.name), Trim(m.mobile), Email(m.email), Trim(m.college),
               d.leaderDepartment, d.leaderYear, Trim(d.leaderCity), createdAt, "confirmed")
  }

  /** `migrateRegistrationToEnhancedTeam`; `objectId` is the registration's
      document id. */
  function Migrate(r: Registration, objectId: string): Team {
    var d := r.data;
    Team("TEAM_" + objectId, Trim(d.leaderName + "'s Team"),
         Leader(Trim(d.leaderName), Email(d.leaderEmail), Trim(d.leaderMobile), Trim(d.leaderCollege),
                d.leaderDepartment, d.leaderYear, Trim(d.leaderCity)),
         seq(|d.teamMembers|, i requires 0 <= i < |d.teamMembers| => MigrateMember(d.teamMembers[i], d, r.createdAt)),
         d.selectedEvent, d.paperPresentationDept, d.participationType, d.teamSize, 4,
         d.paymentId, d.orderId, d.signature, d.totalFee, "paid", "registered", r.createdAt, r.createdAt)
  }

  lemma TrimmedSuffix(name: string)
    requires IsTrimmed(name)
    ensures IsTrimmed(name + "'s Team")
  {
  }

  /** The migration names the team after its document id and leader, copies
      the event, team size and payment fields unchanged, keeps one member per
      stored member in order, and always sets a maximum of 4, "paid" and
      "registered". On a registration as the endpoint stores it (trimmed,
      e-mails lower-cased) the leader and member fields are copied unchanged. */
  lemma MigrateFacts(r: Registration, objectId: string)
    ensures var t := Migrate(r, objectId);
      var d := r.data;
      t.teamId == "TEAM_" + objectId
      && t.selectedEvent == d.selectedEvent && t.participationType == d.participationType
      && t.teamSize == d.teamSize && t.paymentId == d.paymentId && t.orderId == d.orderId
      && t.signature == d.signature && t.totalFee == d.totalFee
      && t.maxTeamSize == 4 && t.paymentStatus == "paid" && t.teamStatus == "registered"
      && |t.members| == |d.teamMembers|
      && forall i :: 0 <= i < |t.members| ==>
           t.members[i].department == d.leaderDepartment && t.members[i].year == d.leaderYear
           && t.members[i].city == t.leader.city && t.members[i].status == "confirmed"
    ensures Register.Clean(r.data) ==>
      var t := Migrate(r, objectId);
      var d := r.data;
      t.teamName == d.leaderName + "'s Team"
      && t.leader == Leader(d.leaderName, d.leaderEmail, d.leaderMobile, d.leaderCollege,
                            d.leaderDepartment, d.leaderYear, d.leaderCity)
      && forall i :: 0 <= i < |t.members| ==>
           var m := d.teamMembers[i];
           t.members[i].name == m.name && t.members[i].mobile == m.mobile
           && t.members[i].email == m.email && t.members[i].college == m.college
  {
    var d := r.data;
    if Register.Clean(d) {
      TrimOfTrimmed(d.leaderName);
      TrimOfTrimmed(d.leaderEmail);
      TrimOfTrimmed(d.leaderMobile);
      TrimOfTrimmed(d.leaderCollege);
      TrimOfTrimmed(d.leaderCity);
      TrimmedSuffix(d.leaderName);
      TrimOfTrimmed(d.leaderName + "'s Team");
      forall i | 0 <= i < |d.teamMembers|
        ensures Trim(d.teamMembers[i].name) == d.teamMembers[i].name
        ensures Trim(d.teamMembers[i].mobile) == d.teamMembers[i].mobile
        ensures Email(d.teamMembers[i].email) == d.teamMembers[i].email
        ensures Trim(d.teamMembers[i].college) == d.teamMembers[i].college
      {
        var m := d.teamMembers[i];
        assert Register.MemberClean(m);
        TrimOfTrimmed(m.name);
        TrimOfTrimmed(m.mobile);
        TrimOfTrimmed(m.email);
        TrimOfTrimmed(m.college);
      }
    }
  }

  /** A registration stored by the endpoint migrates to a valid team
      document exactly when its department and year are among the schema's
      choices, its team size is at least 1 and its fee is not negative. */
  lemma MigratedValidIff(r: Registration, objectId: string)
    requires SchemaValid(r) && Register.Clean(r.data)
    ensures TeamValid(Migrate(r, objectId)) <==>
      r.data.leaderDepartment in Departments && r.data.leaderYear in Years
      && r.data.teamSize.value >= 1 && r.data.totalFee.value >= 0
  {
    MigrateFacts(r, objectId);
    var t := Migrate(r, objectId);
    var d := r.data;
    if d.leaderDepartment in Departments && d.leaderYear in Years {
      forall i | 0 <= i < |t.members| ensures MemberValid(t.members[i]) {
        assert Records.MemberValid(d.teamMembers[i]);
      }
    }
  }

  /** Every department the registration form offers is one the team schema
      accepts, but only the first four of its six years of study are:
      "Graduate" and "Post Graduate" are not among the schema's years. */
  lemma FormChoicesAgainstSchema()
    ensures forall d :: d in Form.DepartmentChoices ==> d in Departments
    ensures forall y :: y in Form.YearChoices ==> (y in Years <==> y in Form.YearChoices[..4])
  {
  }

  /** A stored registration whose year was picked from the form's last two
      choices migrates to a team the schema refuses, and one that migrates to
      a valid team has one of the first four. */
  lemma FormYearsMigrate(r: Registration, objectId: string)
    requires SchemaValid(r) && Register.Clean(r.data)
    requires r.data.leaderYear in Form.YearChoices
    ensures TeamValid(Migrate(r, objectId)) ==> r.data.leaderYear in Form.YearChoices[..4]
    ensures r.data.leaderYear in Form.YearChoices[4..] ==> !TeamValid(Migrate(r, objectId))
  {
    MigratedValidIff(r, objectId);
    FormChoicesAgainstSchema();
  }

  /** The `findByEvent`, `findByDepartment` and `findByPaymentStatus` statics. */
  function FindByEvent(ts: seq<Team>, event: string): seq<Team> {
    Filter(ts, (t: Team) => t.selectedEvent == event)
  }

  function FindByDepartment(ts: seq<Team>, department: string): seq<Team> {
    Filter(ts, (t: Team) => t.leader.department == department)
  }

  function FindByPaymentStatus(ts: seq<Team>, status: string): seq<Team> {
    Filter(ts, (t: Team) => t.paymentStatus == status)
  }

  /** Each lookup returns, in stored order, exactly the teams with the given
      event, leader department or payment status, each as often as it is
      stored. */
  lemma FindFacts(ts: seq<Team>, key: string)
    ensures forall t :: t in FindByEvent(ts, key) <==> t in ts && t.selectedEvent == key
    ensures forall t :: t in FindByDepartment(ts, key) <==> t in ts && t.leader.department == key
    ensures forall t :: t in FindByPaymentStatus(ts, key) <==> t in ts && t.paymentStatus == key
    ensures IsSubsequence(FindByEvent(ts, key), ts) && IsSubsequence(FindByDepartment(ts, key), ts)
            && IsSubsequence(FindByPaymentStatus(ts, key), ts)
    ensures forall t :: multiset(FindByEvent(ts, key))[t] == if t.selectedEvent == key then multiset(ts)[t] else 0
    ensures forall t :: multiset(FindByDepartment(ts, key))[t] == if t.leader.department == key then multiset(ts)[t] else 0
    ensures forall t :: multiset(FindByPaymentStatus(ts, key))[t] == if t.paymentStatus == key then multiset(ts)[t] else 0
  {
    FindByEventExactly(ts, key);
    FindByDepartmentExactly(ts, key);
    FindByPaymentStatusExactly(ts, key);
  }

  lemma FindByEventExactly(ts: seq<Team>, key: string)
    ensures forall t :: t in FindByEvent(ts, key) <==> t in ts && t.selectedEvent == key
    ensures IsSubsequence(FindByEvent(ts, key), ts)
    ensures forall t :: multiset(FindByEvent(ts, key))[t] == if t.selectedEvent == key then multiset(ts)[t] else 0
  {
    FilterExactly(ts, (t: Team) => t.selectedEvent == key);
  }

  lemma FindByDepartmentExactly(ts: seq<Team>, key: string)
    ensures forall t :: t in FindByDepartment(ts, key) <==> t in ts && t.leader.department == key
    ensures IsSubsequence(FindByDepartment(ts, key), ts)
    ensures forall t :: multiset(FindByDepartment(ts, key))[t] == if t.leader.department == key then multiset(ts)[t] else 0
  {
    FilterExactly(ts, (t: Team) => t.leader.department == key);
  }

  lemma FindByPaymentStatusExactly(ts: seq<Team>, key: string)
    ensures forall t :: t in FindByPaymentStatus(ts, key) <==> t in ts && t.paymentStatus == key
    ensures IsSubsequence(FindByPaymentStatus(ts, key), ts)
    ensures forall t :: multiset(FindByPaymentStatus(ts, key))[t] == if t.paymentStatus == key then multiset(ts)[t] else 0
  {
    FilterExactly(ts, (t: Team) => t.paymentStatus == key);
  }

  /** The aggregation's result; the average team size is not part of the
      model. */
  datatype TeamStatistics = TeamStatistics(
    totalTeams: nat, totalParticipants: int, totalRevenue: int,
    soloParticipations: nat, teamParticipations: nat)

  /** `$sum` ignores a missing number. */
  function SizeOf(t: Team): int {
    if t.teamSize.Some? then t.teamSize.value else 0
  }

  function FeeOf(t: Team): int {
    if t.totalFee.Some? then t.totalFee.value else 0
  }

  predicate IsSolo(t: Team) {
    t.participationType == Some("solo")
  }

  predicate IsTeam(t: Team) {
    t.participationType == Some("team")
  }

  /** `getStatistics`: one group over the collection, or the all-zero
      default when there is nothing to group. */
  function GetStatistics(ts: seq<Team>): TeamStatistics {
    if ts == [] then TeamStatistics(0, 0, 0, 0, 0)
    else TeamStatistics(|ts|, SumOf(ts, SizeOf), SumOf(ts, FeeOf), CountIf(ts, IsSolo), CountIf(ts, IsTeam))
  }

  lemma {:induction false} SoloTeamCounts(ts: seq<Team>)
    ensures CountIf(ts, IsSolo) + CountIf(ts, IsTeam) <= |ts|
    ensures (forall i :: 0 <= i < |ts| ==> TeamValid(ts[i])) ==>
      CountIf(ts, IsSolo) + CountIf(ts, IsTeam) == |ts| && SumOf(ts, SizeOf) >= |ts| && SumOf(ts, FeeOf) >= 0
  {
    if ts != [] {
      SoloTeamCounts(ts[1..]);
    }
  }

  /** An empty collection gives the all-zero record; solo and team
      participations never exceed the number of teams, and over valid
      documents they add up to it, every team counts at least one participant
      and revenue is not negative. */
  lemma StatisticsFacts(ts: seq<Team>)
    ensures ts == [] ==> GetStatistics(ts) == TeamStatistics(0, 0, 0, 0, 0)
    ensures var s := GetStatistics(ts);
      s.totalTeams == |ts| && s.soloParticipations + s.teamParticipations <= s.totalTeams
    ensures (forall i :: 0 <= i < |ts| ==> TeamValid(ts[i])) ==>
      var s := GetStatistics(ts);
      s.soloParticipations + s.teamParticipations == s.totalTeams
      && s.totalParticipants >= s.totalTeams && s.totalRevenue >= 0
  {
    SoloTeamCounts(ts);
  }
}

=== FILE: events.dfy ===
/** The event catalogue (src/data/events.ts): a constant table of events
    keyed by department, flattened for the form and looked up by key. */
module Events {
  import opened Seqs
  import opened Text

  /** An event's identity, department, team limit and fee; the descriptive
      texts (topics, rules, coordinators) are not part of the model. */
  datatype Event = Event(id: string, name: string, department: string, maxTeamSize: int, entryFee: int)

  const PaperPresentation := "Paper Presentation"

  const Aeronautical: seq<Event> := [
    Event("aero-paper", PaperPresentation, "Aeronautical Engineering", 4, 100),
    Event("paper-glider", "Paper Glider: Flight Challenge", "Aeronautical Engineering", 4, 100),
    Event("water-rocket", "Water Rocket", "Aeronautical Engineering", 4, 100)]
  const Mechanical: seq<Event> := [
    Event("mech-paper", PaperPresentation, "Mechanical Engineering", 4, 100),
    Event("robo-race", "Robo Race", "Mechanical Engineering", 2, 100),
    Event("cad-conqueror", "CAD Conqueror", "Mechanical Engineering", 1, 100)]
  const Electrical: seq<Event> := [
    Event("elec-paper", PaperPresentation, "Electrical Engineering", 4, 100),
    Event("circuit-builder", "Circuit Builder", "Electrical Engineering", 2, 100),
    Event("troubleshooting", "Troubleshooting", "Electrical Engineering", 2, 100)]
  const Civil: seq<Event> := [
    Event("civil-paper", PaperPresentation, "Civil Engineering", 4, 100),
    Event("akruti", "AKRUTI", "Civil Engineering", 1, 100),
    Event("setu", "SETU", "Civil Engineering", 2, 100)]
  const ComputerScience: seq<Event> := [
    Event("cse-paper", PaperPresentation, "Computer Science Engineering", 4, 100),
    Event("code-compete", "Code 2 Compete", "Computer Science Engineering", 1, 100),
    Event("b-plan", "B-Plan", "Computer Science Engineering", 2, 100)]
  const DataScience: seq<Event> := [
    Event("aids-paper", PaperPresentation, "AI & Data Science", 4, 100),
    Event("bgmi-dominator", "BGMI Dominator", "AI & Data Science", 4, 100),
    Event("coding-competition", "Coding Competition", "AI & Data Science", 1, 100)]
  const CyberSecurity: seq<Event> := [
    Event("iot-paper", PaperPresentation, "IoT & Cyber Security", 4, 100),
    Event("ideathon", "Ideathon", "IoT & Cyber Security", 2, 100),
    Event("box-cricket", "Box Cricket League", "IoT & Cyber Security", 6, 100)]
  const Business: seq<Event> := [
    Event("bba-paper", PaperPresentation, "Business Administration", 4, 100)]
  const FoodTechnology: seq<Event> := [
    Event("functional-food", "Functional Food", "Food Technology", 4, 100),
    Event("product-development", "New Product Development (Prototype)", "Food Technology", 4, 100)]

  /** `eventsByDepartment`, in the order its keys are written. */
  const EventsByDepartment: seq<(string, seq<Event>)> := [
    ("aeronautical", Aeronautical), ("mechanical", Mechanical), ("electrical", Electrical),
    ("civil", Civil), ("cse", ComputerScience), ("aids", DataScience), ("iot", CyberSecurity),
    ("bba", Business), ("food", FoodTechnology)]

  /** The department lists one after another. */
  function Flatten(table: seq<(string, seq<Event>)>): seq<Event> {
    if table == [] then [] else table[0].1 + Flatten(table[1..])
  }

  /** The first list stored under `key`, or the empty list. */
  function Lookup(table: seq<(string, seq<Event>)>, key: string): (r: seq<Event>)
    ensures r == [] || exists k :: 0 <= k < |table| && table[k].0 == key && table[k].1 == r
    ensures forall k :: 0 <= k < |table| && table[k].0 == key && (forall j :: 0 <= j < k ==> table[j].0 != key) ==>
              r == table[k].1
    ensures (forall k :: 0 <= k < |table| ==> table[k].0 != key) ==> r == []
  {
    if table == [] then []
    else if table[0].0 == key then table[0].1
    else Lookup(table[1..], key)
  }

  function GetAllEvents(): seq<Event> {
    Flatten(EventsByDepartment)
  }

  /** `getEventsByDepartment`: the department's list, or the empty list for a
      key the table does not have (keys inherited by a plain object are not
      modelled). */
  function GetEventsByDepartment(departmentId: string): seq<Event> {
    Lookup(EventsByDepartment, departmentId)
  }

  lemma {:induction false} FlattenAppend(a: seq<(string, seq<Event>)>, b: seq<(string, seq<Event>)>)
    ensures Flatten(a + b) == Flatten(a) + Flatten(b)
  {
    if a == [] {
      assert a + b == b;
    } else {
      assert (a + b)[1..] == a[1..] + b;
      FlattenAppend(a[1..], b);
    }
  }

  /** The flattened list is the lists before position `k`, then the list at
      `k`, then the lists after it. */
  lemma FlattenAt(table: seq<(string, seq<Event>)>, k: nat)
    requires k < |table|
    ensures Flatten(table) == Flatten(table[..k]) + table[k].1 + Flatten(table[k + 1..])
  {
    assert table == table[..k] + table[k..];
    FlattenAppend(table[..k], table[k..]);
    assert table[k..][1..] == table[k + 1..];
  }

  /** A department's events are all among the flattened events; an unknown
      key gives the empty list. */
  lemma ByDepartmentInAll(departmentId: string)
    ensures forall e :: e in GetEventsByDepartment(departmentId) ==> e in GetAllEvents()
    ensures (forall k :: 0 <= k < |EventsByDepartment| ==> EventsByDepartment[k].0 != departmentId) ==>
              GetEventsByDepartment(departmentId) == []
  {
    var list := GetEventsByDepartment(departmentId);
    forall e | e in list ensures e in GetAllEvents() {
      var k :| 0 <= k < |EventsByDepartment| && EventsByDepartment[k].0 == departmentId
                && EventsByDepartment[k].1 == list;
      FlattenAt(EventsByDepartment, k);
    }
  }

  lemma FlattenStep(t: seq<(string, seq<Event>)>, k: nat)
    requires k < |t|
    ensures Flatten(t[k..]) == t[k].1 + Flatten(t[k + 1..])
  {
    assert t[k..][1..] == t[k + 1..];
  }

  /** Every department key of the catalogue gets its own list. */
  lemma DepartmentListsFound()
    ensures forall k :: 0 <= k < |EventsByDepartment| ==>
              GetEventsByDepartment(EventsByDepartment[k].0) == EventsByDepartment[k].1
  {
    var t := EventsByDepartment;
    forall k | 0 <= k < |t| ensures GetEventsByDepartment(t[k].0) == t[k].1 {
      assert forall j :: 0 <= j < k ==> t[j].0 != t[k].0;
    }
  }

  /** The flattened catalogue written out. */
  lemma AllEventsListed()
    ensures GetAllEvents() == Aeronautical + Mechanical + Electrical + Civil + ComputerScience
                              + DataScience + CyberSecurity + Business + FoodTechnology
  {
    var t := EventsByDepartment;
    LaterListed();
    FlattenStep(t, 4);
    FlattenStep(t, 3);
    FlattenStep(t, 2);
    FlattenStep(t, 1);
    FlattenStep(t, 0);
    assert t[0..] == t;
  }

  /** The last four department lists flattened. */
  lemma LaterListed()
    ensures Flatten(EventsByDepartment[5..]) == DataScience + CyberSecurity + Business + FoodTechnology
  {
    var t := EventsByDepartment;
    assert t[9..] == [];
    FlattenStep(t, 8);
    FlattenStep(t, 7);
    FlattenStep(t, 6);
    FlattenStep(t, 5);
  }

  predicate IsPaper(e: Event) {
    e.name == PaperPresentation
  }

  /** The catalogue has 24 events, each costing 100 and admitting teams of
      1 to 6. */
  lemma CatalogueFacts()
    ensures var all := GetAllEvents();
      |all| == 24
      && (forall i :: 0 <= i < |all| ==> all[i].entryFee == 100 && 1 <= all[i].maxTeamSize <= 6)
  {
    AllEventsListed();
  }

  /** No two catalogue events share an id. */
  lemma CatalogueIdsDistinct()
    ensures var all := GetAllEvents();
      forall i, j :: 0 <= i < j < |all| ==> all[i].id != all[j].id
  {
    AllEventsListed();
  }

  /** Every event name has a capital letter. */
  lemma NamesCapitalised()
    ensures var all := GetAllEvents();
      forall i :: 0 <= i < |all| ==> HasUpper(all[i].name)
  {
    AllEventsListed();
    var all := GetAllEvents();
    forall i | 0 <= i < |all| ensures HasUpper(all[i].name) {
      assert 'A' <= all[i].name[0] <= 'Z';
    }
  }

  /** The paper presentations are the events at positions 0, 3, …, 21: the
      first event of each of the first eight lists. */
  lemma PaperPositions()
    ensures var all := GetAllEvents();
      |all| == 24 && forall i :: 0 <= i < |all| ==> (IsPaper(all[i]) <==> i % 3 == 0 && i < 22)
  {
    PapersAt();
    OthersAt();
    var all := GetAllEvents();
    forall i | 0 <= i < |all| && i % 3 == 0 && i < 22 ensures IsPaper(all[i]) {
      assert i == 3 * (i / 3);
    }
  }

  lemma PapersAt()
    ensures var all := GetAllEvents();
      |all| == 24 && forall k :: 0 <= k < 8 ==> IsPaper(all[3 * k])
  {
    var firsts := [Aeronautical[0], Mechanical[0], Electrical[0], Civil[0],
                   ComputerScience[0], DataScience[0], CyberSecurity[0], Business[0]];
    PaperFirsts(firsts);
    assert forall k :: 0 <= k < 8 ==> IsPaper(firsts[k]);
  }

  lemma OthersAt()
    ensures var all := GetAllEvents();
      |all| == 24 && forall i :: 0 <= i < |all| && (i % 3 != 0 || i >= 22) ==> !IsPaper(all[i])
  {
    AllEventsListed();
  }

  /** The eight paper presentations are each in their own department and
      each for teams of up to 4. */
  lemma PaperPresentations()
    ensures var all := GetAllEvents();
      |all| == 24
      && (forall k :: 0 <= k < 8 ==> all[3 * k].maxTeamSize == 4)
      && (forall k, l :: 0 <= k < l < 8 ==> all[3 * k].department != all[3 * l].department)
  {
    var firsts := [Aeronautical[0], Mechanical[0], Electrical[0], Civil[0],
                   ComputerScience[0], DataScience[0], CyberSecurity[0], Business[0]];
    PaperFirsts(firsts);
    PaperDepartments();
    assert forall k :: 0 <= k < 8 ==> firsts[k].maxTeamSize == 4;
  }

  lemma PaperDepartments()
    ensures var all := GetAllEvents();
      |all| == 24 && forall k, l :: 0 <= k < l < 8 ==> all[3 * k].department != all[3 * l].department
  {
    var firsts := [Aeronautical[0], Mechanical[0], Electrical[0], Civil[0],
                   ComputerScience[0], DataScience[0], CyberSecurity[0], Business[0]];
    PaperFirsts(firsts);
    assert forall k, l :: 0 <= k < l < 8 ==> firsts[k].department != firsts[l].department;
  }

  /** The event at position 3k is the first event of the k-th list. */
  lemma PaperFirsts(firsts: seq<Event>)
    requires firsts == [Aeronautical[0], Mechanical[0], Electrical[0], Civil[0],
                        ComputerScience[0], DataScience[0], CyberSecurity[0], Business[0]]
    ensures var all := GetAllEvents();
      |all| == 24 && forall k :: 0 <= k < 8 ==> all[3 * k] == firsts[k]
  {
    AllEventsListed();
    var all := GetAllEvents();
    forall k | 0 <= k < 8 ensures all[3 * k] == firsts[k] {
      if k < 4 {
        assert all[3 * k] == [Aeronautical[0], Mechanical[0], Electrical[0], Civil[0]][k];
      } else {
        assert all[3 * k] == [ComputerScience[0], DataScience[0], CyberSecurity[0], Business[0]][k - 4];
      }
    }
  }
}

=== FILE: form.dfy ===
/** The registration form's fee and team-size logic
    (frontend/src/components/RegistrationForm.tsx): the event list it offers,
    the handlers that change the participation type, team size and event,
    the effect that recomputes the fee and resizes the member slots, and the
    event and amount it submits. */
module Form {
  import opened Common
  import opened Seqs
  import opened Events
  import opened Records

  /** An empty member slot, as the effect appends it. */
  const Blank := Member("", "", "", "")

  /** The fee per participant the form charges. */
  const FeePerHead := 100

  const AllDepartments := "All Departments"

  /** The departments and years of study the form offers in its selects. */
  const DepartmentChoices: seq<string> := [
    "Aeronautical Engineering", "Mechanical Engineering", "Electrical Engineering",
    "Civil Engineering", "Computer Science Engineering", "AI & Data Science",
    "IoT & Cyber Security", "Business Administration", "Food Technology", "Other"]
  const YearChoices: seq<string> := ["1st Year", "2nd Year", "3rd Year", "4th Year", "Graduate", "Post Graduate"]

  // ------------------------------------------------------------ event list

  predicate NotPaper(e: Event) {
    !IsPaper(e)
  }

  /** The events with every paper presentation after the first one dropped
      (`seen` says whether the first one has been passed). */
  function KeepFirstPaper(s: seq<Event>, seen: bool): seq<Event> {
    if s == [] then []
    else if IsPaper(s[0]) && seen then KeepFirstPaper(s[1..], true)
    else [s[0]] + KeepFirstPaper(s[1..], seen || IsPaper(s[0]))
  }

  /** The paper presentation is shown under "All Departments". */
  function Generic(e: Event): Event {
    if IsPaper(e) then e.(department := AllDepartments) else e
  }

  /** `filteredEvents`: the catalogue with only its first paper presentation,
      renamed to "All Departments". */
  function FilteredEvents(all: seq<Event>): seq<Event> {
    Map(KeepFirstPaper(all, false), Generic)
  }

  lemma {:induction false} KeepAfterSeen(s: seq<Event>)
    ensures KeepFirstPaper(s, true) == Filter(s, NotPaper)
  {
    if s != [] {
      KeepAfterSeen(s[1..]);
    }
  }

  /** Before the first paper presentation everything is kept; after it, only
      the other events are. */
  lemma {:induction false} KeepFirstPaperAt(s: seq<Event>, k: nat)
    requires k < |s| && IsPaper(s[k])
    requires forall i :: 0 <= i < k ==> !IsPaper(s[i])
    ensures KeepFirstPaper(s, false) == s[..k + 1] + Filter(s[k + 1..], NotPaper)
  {
    KeepUpToFirstPaper(s, k);
    KeepAfterSeen(s[k + 1..]);
  }

  lemma {:induction false} KeepUpToFirstPaper(s: seq<Event>, k: nat)
    requires k < |s| && IsPaper(s[k])
    requires forall i :: 0 <= i < k ==> !IsPaper(s[i])
    ensures KeepFirstPaper(s, false) == s[..k + 1] + KeepFirstPaper(s[k + 1..], true)
  {
    if k == 0 {
      assert s[..1] == [s[0]];
    } else {
      var t := s[1..];
      assert KeepFirstPaper(s, false) == [s[0]] + KeepFirstPaper(t, false);
      KeepUpToFirstPaper(t, k - 1);
      assert t[k..] == s[k + 1..];
      assert t[..k] == s[1..k + 1];
      assert s[..k + 1] == [s[0]] + s[1..k + 1];
    }
  }

  /** With the first paper presentation at position `k`, the form offers the
      events before it, that one under "All Departments", and every later
      event that is not a paper presentation. */
  lemma FilteredShape(all: seq<Event>, k: nat)
    requires k < |all| && IsPaper(all[k])
    requires forall i :: 0 <= i < k ==> !IsPaper(all[i])
    ensures FilteredEvents(all) == all[..k] + [all[k].(department := AllDepartments)] + Filter(all[k + 1..], NotPaper)
  {
    var before := all[..k];
    var after := Filter(all[k + 1..], NotPaper);
    KeepFirstPaperAt(all, k);
    assert all[..k + 1] == before + [all[k]];
    assert KeepFirstPaper(all, false) == before + [all[k]] + after;
    assert forall i :: 0 <= i < |before| ==> !IsPaper(before[i]);
    assert Generic(all[k]) == all[k].(department := AllDepartments);
    GenericAround(before, all[k], after);
  }

  /** Renaming around one event renames only that one when the events on
      both sides are not paper presentations. */
  lemma GenericAround(before: seq<Event>, e: Event, after: seq<Event>)
    requires forall i :: 0 <= i < |before| ==> !IsPaper(before[i])
    requires forall i :: 0 <= i < |after| ==> NotPaper(after[i])
    ensures Map(before + [e] + after, Generic) == before + [Generic(e)] + after
  {
    MapAround(before, e, after, Generic);
  }

  /** The events other than paper presentations are offered exactly as in
      the catalogue, in order. */
  lemma FilteredKeepsOthers(all: seq<Event>, k: nat)
    requires k < |all| && IsPaper(all[k])
    requires forall i :: 0 <= i < k ==> !IsPaper(all[i])
    ensures Filter(FilteredEvents(all), NotPaper) == Filter(all, NotPaper)
  {
    FilteredShape(all, k);
    FilterAll(all[..k], NotPaper);
    FilterIdempotent(all[k + 1..], NotPaper);
    FilterDropOne(all[..k], all[k].(department := AllDepartments), Filter(all[k + 1..], NotPaper), NotPaper);
    SplitAt(all, k);
    FilterDropOne(all[..k], all[k], all[k + 1..], NotPaper);
  }

  lemma SplitAt(s: seq<Event>, k: nat)
    requires k < |s|
    ensures s == s[..k] + [s[k]] + s[k + 1..]
  {
  }

  /** On the catalogue the form offers its first event, the aeronautical
      paper presentation, under "All Departments", followed by every event
      that is not a paper presentation. */
  lemma FilteredCatalogue()
    ensures var all := GetAllEvents();
      FilteredEvents(all) == [all[0].(department := AllDepartments)] + Filter(all[1..], NotPaper)
      && Filter(FilteredEvents(all), NotPaper) == Filter(all, NotPaper)
  {
    var all := GetAllEvents();
    PaperPositions();
    FilteredShape(all, 0);
    FilteredKeepsOthers(all, 0);
    assert all[..0] == [];
  }

  // ------------------------------------------------------------- handlers

  /** `allEvents.find(e => e.id === eventId)`. */
  function FindById(all: seq<Event>, id: string): (r: Option<Event>)
    ensures r.Some? <==> exists i :: 0 <= i < |all| && all[i].id == id
    ensures r.Some? ==> r.value in all && r.value.id == id
  {
    if all == [] then None
    else if all[0].id == id then Some(all[0])
    else FindById(all[1..], id)
  }

  /** The participation type and team size after the event changes to `e`:
      a solo-only event forces solo, otherwise a team size above the new
      limit is cut down to it. */
  function AfterEventChange(participationType: string, teamSize: int, e: Option<Event>): (string, int) {
    if e.None? then (participationType, teamSize)
    else if e.value.maxTeamSize == 1 then ("solo", 1)
    else if teamSize > e.value.maxTeamSize then
      var clamped := if teamSize < e.value.maxTeamSize then teamSize else e.value.maxTeamSize;
      if participationType == "team" && clamped < 2 then ("solo", 1) else (participationType, clamped)
    else (participationType, teamSize)
  }

  /** The new participation type and team size, or `None` when the change is
      refused because the event admits one participant only. */
  function AfterParticipationChange(kind: string, e: Option<Event>): Option<(string, int)> {
    if kind == "team" && e.Some? && e.value.maxTeamSize == 1 then None
    else if kind == "solo" then Some(("solo", 1))
    else Some((kind, if e.None? then 2 else if e.value.maxTeamSize < 2 then e.value.maxTeamSize else 2))
  }

  /** The team sizes offered as buttons: 2 up to the event's limit. */
  function TeamSizeChoices(maxTeamSize: int): seq<int> {
    seq(if maxTeamSize > 1 then maxTeamSize - 1 else 0, i => i + 2)
  }

  /** The member slots after resizing to `target`: the existing ones first,
      then empty ones, or the existing ones cut from the end. */
  function Resized(slots: seq<Member>, target: int): (r: seq<Member>)
    ensures |r| == if target < 0 then 0 else target
    ensures forall i :: 0 <= i < |r| ==> r[i] == if i < |slots| then slots[i] else Blank
  {
    if target <= 0 then []
    else if |slots| >= target then slots[..target]
    else slots + seq(target - |slots|, _ => Blank)
  }

  lemma EventChangeFacts(participationType: string, teamSize: int, e: Event)
    requires e.maxTeamSize >= 1
    ensures var (pt, size) := AfterEventChange(participationType, teamSize, Some(e));
      size <= e.maxTeamSize
      && (e.maxTeamSize == 1 ==> pt == "solo" && size == 1)
      && (e.maxTeamSize > 1 && teamSize <= e.maxTeamSize ==> pt == participationType && size == teamSize)
      && (e.maxTeamSize > 1 && teamSize > e.maxTeamSize ==> pt == participationType && size == e.maxTeamSize)
  {
  }

  lemma ParticipationChangeFacts(kind: string, e: Option<Event>)
    ensures AfterParticipationChange(kind, e).None? <==> kind == "team" && e.Some? && e.value.maxTeamSize == 1
    ensures AfterParticipationChange(kind, e).Some? ==>
      var (pt, size) := AfterParticipationChange(kind, e).value;
      pt == kind && (kind == "solo" ==> size == 1)
      && (kind != "solo" ==> size == 2 || (e.Some? && size == e.value.maxTeamSize && size < 2))
      && (e.Some? && e.value.maxTeamSize >= 1 ==> size <= e.value.maxTeamSize)
  {
  }

  /** The buttons offer exactly the sizes 2 to the limit, in increasing order. */
  lemma TeamSizeChoicesFacts(maxTeamSize: int, size: int)
    ensures size in TeamSizeChoices(maxTeamSize) <==> 2 <= size <= maxTeamSize
    ensures forall i :: 0 <= i < |TeamSizeChoices(maxTeamSize)| ==> TeamSizeChoices(maxTeamSize)[i] == i + 2
  {
    if 2 <= size <= maxTeamSize {
      assert TeamSizeChoices(maxTeamSize)[size - 2] == size;
    }
  }

  // --------------------------------------------------------------- submit

  /** The catalogue's paper presentation of department `dept`, if any. */
  function FindPaper(all: seq<Event>, dept: string): (r: Option<Event>)
    ensures r.Some? <==> exists i :: 0 <= i < |all| && IsPaper(all[i]) && all[i].department == dept
    ensures r.Some? ==> r.value in all && IsPaper(r.value) && r.value.department == dept
  {
    if all == [] then None
    else if IsPaper(all[0]) && all[0].department == dept then Some(all[0])
    else FindPaper(all[1..], dept)
  }

  /** The event submitted: for a paper presentation with a chosen department,
      that department's paper presentation when there is one. */
  function ResolveEvent(selected: Option<Event>, paperDept: string, all: seq<Event>): Option<Event> {
    if selected.Some? && IsPaper(selected.value) && paperDept != "" && FindPaper(all, paperDept).Some?
    then FindPaper(all, paperDept)
    else selected
  }

  /** `finalEventDetails?.name || values.selectedEvent`. */
  function SubmittedEvent(resolved: Option<Event>, formValue: string): string {
    if resolved.Some? && resolved.value.name != "" then resolved.value.name else formValue
  }

  /** The order amount in paise. */
  function OrderAmount(totalFee: int): int {
    totalFee * 100
  }

  /** A paper presentation with a department resolves to that department's
      paper presentation whenever the catalogue has one; the name submitted
      is still "Paper Presentation", so the department travels only in its
      own field. */
  lemma ResolveFacts(selected: Option<Event>, paperDept: string, all: seq<Event>, formValue: string)
    ensures var r := ResolveEvent(selected, paperDept, all);
      (r.Some? <==> selected.Some?)
      && (selected.Some? ==> r.value.name == selected.value.name)
      && (selected.Some? && IsPaper(selected.value) && paperDept != ""
          && (exists i :: 0 <= i < |all| && IsPaper(all[i]) && all[i].department == paperDept) ==>
            r.value.department == paperDept)
      && (selected.Some? && !IsPaper(selected.value) ==> r == selected)
      && SubmittedEvent(r, formValue) == SubmittedEvent(selected, formValue)
  {
  }

  // ----------------------------------------------------------------- state

  /** The component's state and the form fields the handlers write. */
  class RegistrationForm {
    var selectedEvent: Option<Event>
    var participationType: string
    var teamSize: int
    var totalFee: int
    var showPaperPresentationDept: bool
    /** Form values: the event id, the paper department, the participation
        type, the team size and the member slots. */
    var eventValue: string
    var paperPresentationDept: string
    var formParticipationType: string
    var formTeamSize: int
    var teamMembers: seq<Member>

    constructor()
      ensures selectedEvent == None && participationType == "solo" && teamSize == 1 && totalFee == 0
      ensures !showPaperPresentationDept && eventValue == "" && paperPresentationDept == ""
      ensures formParticipationType == "solo" && formTeamSize == 1 && teamMembers == []
    {
      selectedEvent := None;
      participationType := "solo";
      teamSize := 1;
      totalFee := 0;
      showPaperPresentationDept := false;
      eventValue := "";
      paperPresentationDept := "";
      formParticipationType := "solo";
      formTeamSize := 1;
      teamMembers := [];
    }

    /** The team size respects the selected event's limit, and team mode is
        only on for events that admit teams. */
    predicate InBounds()
      reads this
    {
      selectedEvent.Some? ==>
        1 <= selectedEvent.value.maxTeamSize && teamSize <= selectedEvent.value.maxTeamSize
        && (participationType == "team" ==> selectedEvent.value.maxTeamSize >= 2)
    }

    /** The fee and the member slots agree with the participation type and
        team size, as the effect leaves them. */
    predicate Settled()
      reads this
    {
      if participationType == "solo" then totalFee == FeePerHead && teamSize == 1 && teamMembers == []
      else totalFee == FeePerHead * teamSize && formTeamSize == teamSize
           && |teamMembers| == (if teamSize < 1 then 0 else teamSize - 1)
    }

    /** The participation effect: solo costs 100 and has no member slots; a
        team costs 100 per participant and gets one slot per member besides
        the leader, added empty at the end or removed from the end. */
    method ApplyParticipation()
      modifies this
      ensures selectedEvent == old(selectedEvent) && participationType == old(participationType)
      ensures showPaperPresentationDept == old(showPaperPresentationDept)
      ensures eventValue == old(eventValue) && paperPresentationDept == old(paperPresentationDept)
      ensures formParticipationType == old(formParticipationType)
      ensures old(participationType) == "solo" ==>
        totalFee == FeePerHead && teamSize == 1 && formTeamSize == 1 && teamMembers == []
      ensures old(participationType) != "solo" ==>
        totalFee == FeePerHead * old(teamSize) && teamSize == old(teamSize) && formTeamSize == old(teamSize)
        && teamMembers == Resized(old(teamMembers), old(teamSize) - 1)
      ensures Settled()
      ensures old(InBounds()) ==> InBounds()
    {
      if participationType == "solo" {
        totalFee := FeePerHead;
        teamSize := 1;
        formTeamSize := 1;
        teamMembers := [];
      } else {
        totalFee := teamSize * FeePerHead;
        formTeamSize := teamSize;
        var current := teamMembers;
        var slots := current;
        var target := teamSize - 1;
        if |current| < target {
          for i := |current| to target
            invariant slots == current + seq(i - |current|, _ => Blank)
          {
            slots := slots + [Blank];
          }
        } else if |current| > target {
          var i := |current| - 1;
          while i >= target
            invariant target - 1 <= i <= |current| - 1
            invariant slots == current[..if i + 1 < 0 then 0 else i + 1]
          {
            if 0 <= i < |slots| {
              slots := slots[..i] + slots[i + 1..];
            }
            i := i - 1;
          }
        }
        teamMembers := slots;
      }
    }

    /** `handleEventChange`. */
    method HandleEventChange(eventId: string)
      modifies this
      ensures selectedEvent == FindById(GetAllEvents(), eventId) && eventValue == eventId
      ensures showPaperPresentationDept == (selectedEvent.Some? && IsPaper(selectedEvent.value))
      ensures paperPresentationDept == if showPaperPresentationDept then old(paperPresentationDept) else ""
      ensures (participationType, teamSize) == AfterEventChange(old(participationType), old(teamSize), selectedEvent)
      ensures formParticipationType == (if participationType != old(participationType) || (selectedEvent.Some? && selectedEvent.value.maxTeamSize == 1) then participationType else old(formParticipationType))
      ensures formTeamSize == (if selectedEvent.Some? && (selectedEvent.value.maxTeamSize == 1 || old(teamSize) > selectedEvent.value.maxTeamSize) then teamSize else old(formTeamSize))
      ensures totalFee == old(totalFee) && teamMembers == old(teamMembers)
      ensures InBounds()
    {
      var e := FindById(GetAllEvents(), eventId);
      selectedEvent := e;
      eventValue := eventId;
      var isPaper := e.Some? && IsPaper(e.value);
      showPaperPresentationDept := isPaper;
      if !isPaper {
        paperPresentationDept := "";
      }
      if e.Some? {
        FitToEvent(e.value);
        CatalogueEventBounds(e.value);
      }
    }

    /** The part of `handleEventChange` that fits the participation type and
        team size to the new event. */
    method FitToEvent(e: Event)
      modifies this
      ensures (participationType, teamSize) == AfterEventChange(old(participationType), old(teamSize), Some(e))
      ensures formParticipationType == (if participationType != old(participationType) || e.maxTeamSize == 1 then participationType else old(formParticipationType))
      ensures formTeamSize == (if e.maxTeamSize == 1 || old(teamSize) > e.maxTeamSize then teamSize else old(formTeamSize))
      ensures selectedEvent == old(selectedEvent) && eventValue == old(eventValue)
      ensures showPaperPresentationDept == old(showPaperPresentationDept)
      ensures paperPresentationDept == old(paperPresentationDept)
      ensures totalFee == old(totalFee) && teamMembers == old(teamMembers)
    {
      if e.maxTeamSize == 1 {
        participationType := "solo";
        formParticipationType := "solo";
        teamSize := 1;
        formTeamSize := 1;
      } else if teamSize > e.maxTeamSize {
        var newTeamSize := if teamSize < e.maxTeamSize then teamSize else e.maxTeamSize;
        teamSize := newTeamSize;
        formTeamSize := newTeamSize;
        if participationType == "team" && newTeamSize < 2 {
          participationType := "solo";
          formParticipationType := "solo";
          teamSize := 1;
          formTeamSize := 1;
        }
      }
    }

    /** `handleParticipationTypeChange`; `accepted` is false when the change
        is refused with a notice. */
    method HandleParticipationTypeChange(kind: string) returns (accepted: bool)
      modifies this
      ensures accepted <==> AfterParticipationChange(kind, old(selectedEvent)).Some?
      ensures accepted ==> (participationType, teamSize) == AfterParticipationChange(kind, old(selectedEvent)).value
                           && formParticipationType == kind
      ensures !accepted ==> participationType == old(participationType) && teamSize == old(teamSize)
                            && formParticipationType == old(formParticipationType)
      ensures selectedEvent == old(selectedEvent) && totalFee == old(totalFee) && teamMembers == old(teamMembers)
      ensures formTeamSize == old(formTeamSize) && paperPresentationDept == old(paperPresentationDept)
      ensures showPaperPresentationDept == old(showPaperPresentationDept) && eventValue == old(eventValue)
      ensures old(InBounds()) && (kind == "solo" || kind == "team") ==> InBounds()
    {
      if kind == "team" && selectedEvent.Some? && selectedEvent.value.maxTeamSize == 1 {
        return false;
      }
      participationType := kind;
      formParticipationType := kind;
      if kind == "solo" {
        teamSize := 1;
      } else {
        teamSize := if selectedEvent.Some? then (if selectedEvent.value.maxTeamSize < 2 then selectedEvent.value.maxTeamSize else 2) else 2;
      }
      return true;
    }

    /** `handleTeamSizeChange`: a size above the event's limit is refused. */
    method HandleTeamSizeChange(size: int) returns (accepted: bool)
      modifies this
      ensures accepted <==> !(old(selectedEvent).Some? && size > old(selectedEvent).value.maxTeamSize)
      ensures teamSize == if accepted then size else old(teamSize)
      ensures selectedEvent == old(selectedEvent) && participationType == old(participationType)
      ensures totalFee == old(totalFee) && teamMembers == old(teamMembers) && formTeamSize == old(formTeamSize)
      ensures showPaperPresentationDept == old(showPaperPresentationDept) && eventValue == old(eventValue)
      ensures paperPresentationDept == old(paperPresentationDept) && formParticipationType == old(formParticipationType)
      ensures old(InBounds()) ==> InBounds()
    {
      if selectedEvent.Some? && size > selectedEvent.value.maxTeamSize {
        return false;
      }
      teamSize := size;
      return true;
    }
  }

  /** Every catalogue event admits 1 to 6 participants. */
  lemma CatalogueEventBounds(e: Event)
    requires e in GetAllEvents()
    ensures 1 <= e.maxTeamSize <= 6 && e.entryFee == 100
  {
    CatalogueFacts();
  }

  /** Once the effect has run, the fee is 100 per participant and never more
      than 100 times the selected event's limit; the order amount is that fee
      in paise. */
  lemma SettledFee(participationType: string, teamSize: int, totalFee: int, e: Event)
    requires 1 <= e.maxTeamSize && teamSize <= e.maxTeamSize
    requires participationType == "solo" ==> totalFee == FeePerHead && teamSize == 1
    requires participationType != "solo" ==> totalFee == FeePerHead * teamSize
    ensures totalFee <= FeePerHead * e.maxTeamSize
    ensures OrderAmount(totalFee) == 10000 * teamSize
  {
  }
}

=== FILE: grouping.dfy ===
/** Grouping entries by a string key, counting and summing per key, as the
    store's `$group` stage and the `reduce` into a `Record<string, number>`
    do. Groups appear in the order their key first appears. */
module Grouping {

  datatype Group = Group(key: string, count: nat, total: int)

  /** The position of the first group with `key`, or the number of groups
      when there is none. */
  function FirstIndex(gs: seq<Group>, key: string): (k: nat)
    ensures k <= |gs|
    ensures k < |gs| ==> gs[k].key == key
    ensures forall j :: 0 <= j < k ==> gs[j].key != key
  {
    if gs == [] then 0 else if gs[0].key == key then 0 else 1 + FirstIndex(gs[1..], key)
  }

  /** Adds one entry to its group, opening a new group at the end for a new key. */
  function Bump(gs: seq<Group>, key: string, amount: int): (r: seq<Group>)
    ensures |r| == |gs| || |r| == |gs| + 1
  {
    if gs == [] then [Group(key, 1, amount)]
    else if gs[0].key == key then [gs[0].(count := gs[0].count + 1, total := gs[0].total + amount)] + gs[1..]
    else [gs[0]] + Bump(gs[1..], key, amount)
  }

  /** Adding one entry: the first group with the key counts one more and
      adds the amount, every other group stays as it is, and a new key opens
      a group of its own at the end. */
  lemma {:induction false} BumpAt(gs: seq<Group>, key: string, amount: int)
    ensures |Bump(gs, key, amount)| == if FirstIndex(gs, key) < |gs| then |gs| else |gs| + 1
    ensures forall i :: 0 <= i < |gs| && i != FirstIndex(gs, key) ==> Bump(gs, key, amount)[i] == gs[i]
    ensures FirstIndex(gs, key) < |gs| ==>
      Bump(gs, key, amount)[FirstIndex(gs, key)]
        == gs[FirstIndex(gs, key)].(count := gs[FirstIndex(gs, key)].count + 1,
                                    total := gs[FirstIndex(gs, key)].total + amount)
    ensures FirstIndex(gs, key) == |gs| ==> Bump(gs, key, amount)[|gs|] == Group(key, 1, amount)
  {
    if gs != [] && gs[0].key != key {
      var r := Bump(gs, key, amount);
      var rest := Bump(gs[1..], key, amount);
      var k := FirstIndex(gs[1..], key);
      BumpAt(gs[1..], key, amount);
      assert r == [gs[0]] + rest;
      assert FirstIndex(gs, key) == 1 + k;
      forall i | 1 <= i < |gs| && i != 1 + k ensures r[i] == gs[i] {
        assert r[i] == rest[i - 1] && gs[1..][i - 1] == gs[i];
      }
      if k < |gs| - 1 {
        assert r[1 + k] == rest[k] && gs[1..][k] == gs[1 + k];
      }
    }
  }

  /** Groups the `(key, amount)` entries. */
  function GroupBy(entries: seq<(string, int)>): seq<Group> {
    if entries == [] then []
    else
      var last := entries[|entries| - 1];
      Bump(GroupBy(entries[..|entries| - 1]), last.0, last.1)
  }

  /** How many entries carry `key`. */
  function CountKey(entries: seq<(string, int)>, key: string): nat {
    if entries == [] then 0
    else CountKey(entries[..|entries| - 1], key) + (if entries[|entries| - 1].0 == key then 1 else 0)
  }

  /** The sum of the amounts of the entries that carry `key`. */
  function SumKey(entries: seq<(string, int)>, key: string): int {
    if entries == [] then 0
    else SumKey(entries[..|entries| - 1], key) + (if entries[|entries| - 1].0 == key then entries[|entries| - 1].1 else 0)
  }

  /** The count the groups record for `key`. */
  function CountIn(gs: seq<Group>, key: string): nat {
    if gs == [] then 0 else (if gs[0].key == key then gs[0].count else 0) + CountIn(gs[1..], key)
  }

  /** The total the groups record for `key`. */
  function TotalIn(gs: seq<Group>, key: string): int {
    if gs == [] then 0 else (if gs[0].key == key then gs[0].total else 0) + TotalIn(gs[1..], key)
  }

  function SumCounts(gs: seq<Group>): nat {
    if gs == [] then 0 else gs[0].count + SumCounts(gs[1..])
  }

  function SumTotals(gs: seq<Group>): int {
    if gs == [] then 0 else gs[0].total + SumTotals(gs[1..])
  }

  /** The sum of all the entries' amounts. */
  function SumAmounts(entries: seq<(string, int)>): int {
    if entries == [] then 0 else SumAmounts(entries[..|entries| - 1]) + entries[|entries| - 1].1
  }

  predicate DistinctKeys(gs: seq<Group>) {
    forall i, j :: 0 <= i < j < |gs| ==> gs[i].key != gs[j].key
  }

  predicate HasKey(gs: seq<Group>, key: string) {
    exists i :: 0 <= i < |gs| && gs[i].key == key
  }

  lemma {:induction false} BumpTallies(gs: seq<Group>, key: string, amount: int, k: string)
    ensures CountIn(Bump(gs, key, amount), k) == CountIn(gs, k) + (if k == key then 1 else 0)
    ensures TotalIn(Bump(gs, key, amount), k) == TotalIn(gs, k) + (if k == key then amount else 0)
    ensures SumCounts(Bump(gs, key, amount)) == SumCounts(gs) + 1
    ensures SumTotals(Bump(gs, key, amount)) == SumTotals(gs) + amount
  {
    if gs != [] && gs[0].key != key {
      BumpTallies(gs[1..], key, amount, k);
      assert Bump(gs, key, amount)[1..] == Bump(gs[1..], key, amount);
    } else if gs != [] {
      assert Bump(gs, key, amount)[1..] == gs[1..];
    }
  }

  lemma BumpHasKey(gs: seq<Group>, key: string, amount: int, k: string)
    ensures HasKey(Bump(gs, key, amount), k) <==> HasKey(gs, k) || k == key
  {
    var r := Bump(gs, key, amount);
    var f := FirstIndex(gs, key);
    BumpAt(gs, key, amount);
    if HasKey(gs, k) {
      var i :| 0 <= i < |gs| && gs[i].key == k;
      if i != f {
        assert r[i].key == k;
      } else {
        assert r[f].key == k;
      }
    }
    if k == key {
      assert r[f].key == k;
    }
    if HasKey(r, k) {
      var i :| 0 <= i < |r| && r[i].key == k;
      if i < |gs| && i != f {
        assert gs[i].key == k;
      } else if i < |gs| {
        assert gs[f].key == k;
      }
    }
  }

  /** Bumping changes no key of an existing group. */
  lemma BumpKeys(gs: seq<Group>, key: string, amount: int)
    ensures forall x :: 0 <= x < |gs| ==> Bump(gs, key, amount)[x].key == gs[x].key
  {
    var r := Bump(gs, key, amount);
    var f := FirstIndex(gs, key);
    BumpAt(gs, key, amount);
    forall x | 0 <= x < |gs| ensures r[x].key == gs[x].key {
      if x == f {
        assert r[f] == gs[f].(count := gs[f].count + 1, total := gs[f].total + amount);
      }
    }
  }

  lemma BumpDistinct(gs: seq<Group>, key: string, amount: int)
    requires DistinctKeys(gs)
    ensures DistinctKeys(Bump(gs, key, amount))
  {
    var r := Bump(gs, key, amount);
    BumpAt(gs, key, amount);
    BumpKeys(gs, key, amount);
    forall i, j | 0 <= i < j < |r| ensures r[i].key != r[j].key {
      if j == |gs| {
        assert r[j].key == key && gs[i].key != key;
      }
    }
  }

  lemma BumpPositive(gs: seq<Group>, key: string, amount: int)
    requires forall i :: 0 <= i < |gs| ==> gs[i].count > 0
    ensures forall i :: 0 <= i < |Bump(gs, key, amount)| ==> Bump(gs, key, amount)[i].count > 0
  {
    var r := Bump(gs, key, amount);
    var f := FirstIndex(gs, key);
    BumpAt(gs, key, amount);
    forall i | 0 <= i < |r| ensures r[i].count > 0 {
      if i < |gs| && i != f {
        assert r[i] == gs[i];
      }
    }
  }

  /** Grouping keeps, per key, the number of entries and the sum of their
      amounts; the keys are distinct, each group is non-empty, every key that
      occurs has a group, the counts add up to the number of entries and the
      totals to the sum of their amounts. */
  lemma {:induction false} GroupByCorrect(entries: seq<(string, int)>)
    ensures DistinctKeys(GroupBy(entries))
    ensures SumCounts(GroupBy(entries)) == |entries|
    ensures SumTotals(GroupBy(entries)) == SumAmounts(entries)
    ensures forall i :: 0 <= i < |GroupBy(entries)| ==> GroupBy(entries)[i].count > 0
    ensures forall k :: CountIn(GroupBy(entries), k) == CountKey(entries, k)
    ensures forall k :: TotalIn(GroupBy(entries), k) == SumKey(entries, k)
    ensures forall k :: HasKey(GroupBy(entries), k) <==> CountKey(entries, k) > 0
  {
    if entries != [] {
      var init := entries[..|entries| - 1];
      var last := entries[|entries| - 1];
      GroupByCorrect(init);
      forall k
        ensures CountIn(GroupBy(entries), k) == CountKey(entries, k)
        ensures TotalIn(GroupBy(entries), k) == SumKey(entries, k)
        ensures HasKey(GroupBy(entries), k) <==> CountKey(entries, k) > 0
      {
        BumpTallies(GroupBy(init), last.0, last.1, k);
        BumpHasKey(GroupBy(init), last.0, last.1, k);
      }
      BumpTallies(GroupBy(init), last.0, last.1, last.0);
      BumpDistinct(GroupBy(init), last.0, last.1);
      BumpPositive(GroupBy(init), last.0, last.1);
    }
  }

  /** With distinct keys, a group's own count and total are what the groups
      record for its key. */
  lemma {:induction false} GroupLookup(gs: seq<Group>, i: nat)
    requires DistinctKeys(gs) && i < |gs|
    ensures CountIn(gs, gs[i].key) == gs[i].count
    ensures TotalIn(gs, gs[i].key) == gs[i].total
  {
    if i == 0 {
      NotIn(gs[1..], gs[0].key);
    } else {
      assert DistinctKeys(gs[1..]);
      GroupLookup(gs[1..], i - 1);
    }
  }

  lemma {:induction false} NotIn(gs: seq<Group>, k: string)
    requires forall i :: 0 <= i < |gs| ==> gs[i].key != k
    ensures CountIn(gs, k) == 0 && TotalIn(gs, k) == 0
  {
    if gs != [] {
      NotIn(gs[1..], k);
    }
  }
}

=== FILE: mail.dfy ===
/** The welcome mail sent after a registration is saved (backend/dist/utils/mail.js):
    the name, event and college are title-cased, one message is built, and
    sending is tried at most three times with a growing pause between tries. */
module Mail {
  import opened Text
  import opened Seqs
  import opened Retry

  const MaxRetries: nat := 3
  /** The pause after the n-th failed send is n times this many milliseconds. */
  const RetryBaseMs: nat := 2000
  const Subject := "Welcome to Discovery ADCET 2025 \U{1F389}"

  /** `w.charAt(0).toUpperCase() + w.slice(1)`. */
  function Capitalize(w: string): (r: string)
    ensures |r| == |w|
    ensures forall i :: 0 <= i < |w| ==> r[i] == (if i == 0 then UpperChar(w[0]) else w[i])
  {
    if w == [] then [] else [UpperChar(w[0])] + w[1..]
  }

  /** `s.split(' ').map(Capitalize).join(' ')`. */
  function TitleCase(s: string): string {
    Join(Map(Split(s, ' '), Capitalize), " ")
  }

  /** Position `i` of `s` begins a word: it is first, or follows a space. */
  predicate StartsWord(s: string, i: int)
    requires 0 <= i < |s|
  {
    i == 0 || s[i - 1] == ' '
  }

  /** What title-casing puts at position `i`. */
  function Titled(s: string, i: int): char
    requires 0 <= i < |s|
  {
    if StartsWord(s, i) then UpperChar(s[i]) else s[i]
  }

  lemma UpperSpace(c: char)
    ensures UpperChar(c) == ' ' <==> c == ' '
  {
  }

  lemma {:induction false} CapitalizeJoin(parts: seq<string>)
    requires |parts| >= 1
    requires forall i :: 0 <= i < |parts| ==> ' ' !in parts[i]
    ensures |Join(Map(parts, Capitalize), " ")| == |Join(parts, " ")|
    ensures forall i :: 0 <= i < |Join(parts, " ")| ==>
              Join(Map(parts, Capitalize), " ")[i] == Titled(Join(parts, " "), i)
  {
    var p := parts[0];
    var c := Map(parts, Capitalize);
    var j := Join(parts, " ");
    if |parts| == 1 {
      forall i | 0 < i < |p| ensures !StartsWord(p, i) {
        assert p[i - 1] in p;
      }
    } else {
      CapitalizeJoin(parts[1..]);
      assert c[1..] == Map(parts[1..], Capitalize);
      var j' := Join(parts[1..], " ");
      var c' := Join(c[1..], " ");
      assert j == p + " " + j';
      assert Join(c, " ") == Capitalize(p) + " " + c';
      forall i | 0 <= i < |j| ensures Join(c, " ")[i] == Titled(j, i) {
        if i < |p| {
          if i > 0 { assert j[i - 1] == p[i - 1]; assert p[i - 1] in p; }
        } else if i == |p| {
          if i > 0 { assert j[i - 1] == p[i - 1]; assert p[i - 1] in p; }
        } else {
          var k := i - |p| - 1;
          assert j[i] == j'[k];
          if k > 0 { assert j[i - 1] == j'[k - 1]; }
        }
      }
    }
  }

  /** Title-casing keeps the length and upper-cases exactly the first letter
      of every space-separated word, leaving every other character as it is. */
  lemma TitleCaseShape(s: string)
    ensures |TitleCase(s)| == |s|
    ensures forall i :: 0 <= i < |s| ==> TitleCase(s)[i] == Titled(s, i)
  {
    JoinSplit(s, ' ');
    CapitalizeJoin(Split(s, ' '));
  }

  /** Title-casing a title-cased string changes nothing. */
  lemma TitleCaseIdempotent(s: string)
    ensures TitleCase(TitleCase(s)) == TitleCase(s)
  {
    var t := TitleCase(s);
    TitleCaseShape(s);
    TitleCaseShape(t);
    forall i | 0 <= i < |t| ensures Titled(t, i) == t[i] {
      if i > 0 { UpperSpace(s[i - 1]); }
    }
  }

  /** The words of the title-cased string are the original words, capitalised. */
  lemma TitleCaseWords(s: string)
    ensures Split(TitleCase(s), ' ') == Map(Split(s, ' '), Capitalize)
  {
    var ws := Map(Split(s, ' '), Capitalize);
    forall i | 0 <= i < |ws| ensures ' ' !in ws[i] {
      var w := Split(s, ' ')[i];
      forall k | 0 <= k < |w| ensures ws[i][k] != ' ' {
        assert w[k] in w;
        UpperSpace(w[k]);
      }
    }
    SplitJoin(ws, ' ');
  }

  /** The parts of the message the core fills in. */
  datatype MailOptions = MailOptions(
    to: string, subject: string,
    name: string, event: string, college: string,
    registrationId: string, yearOfStudy: string, phone: string)

  function WelcomeMail(to: string, id: string, name: string, yearOfStudy: string,
                       phone: string, eventName: string, college: string): MailOptions
  {
    MailOptions(to, Subject, TitleCase(name), TitleCase(eventName), TitleCase(college),
                id, yearOfStudy, phone)
  }

  /** The message goes to the given address with the fixed subject; it shows
      the registration number, year and phone verbatim and the name, event and
      college title-cased. */
  lemma WelcomeMailContents(to: string, id: string, name: string, yearOfStudy: string,
                            phone: string, eventName: string, college: string)
    ensures var m := WelcomeMail(to, id, name, yearOfStudy, phone, eventName, college);
      m.to == to && m.subject == Subject
      && m.registrationId == id && m.yearOfStudy == yearOfStudy && m.phone == phone
      && |m.name| == |name| && (forall i :: 0 <= i < |name| ==> m.name[i] == Titled(name, i))
      && |m.event| == |eventName| && (forall i :: 0 <= i < |eventName| ==> m.event[i] == Titled(eventName, i))
      && |m.college| == |college| && (forall i :: 0 <= i < |college| ==> m.college[i] == Titled(college, i))
  {
    TitleCaseShape(name);
    TitleCaseShape(eventName);
    TitleCaseShape(college);
  }

  /** Sends the welcome mail; `outcomes[k]` says whether the (k+1)-th send
      succeeds. Returns whether the mail went out, the messages handed to the
      mailer, and the pauses taken between tries. */
  method SendWelcomeEmail(to: string, id: string, name: string, yearOfStudy: string,
                          phone: string, eventName: string, college: string,
                          outcomes: seq<bool>)
    returns (delivered: bool, sent: seq<MailOptions>, waits: seq<nat>)
    ensures delivered <==> FirstSuccess(outcomes, MaxRetries).Some?
    ensures |sent| == Attempts(outcomes, MaxRetries)
    ensures forall i :: 0 <= i < |sent| ==>
              sent[i] == WelcomeMail(to, id, name, yearOfStudy, phone, eventName, college)
    ensures waits == Backoff(RetryBaseMs, |sent| - 1)
  {
    var mailOptions := WelcomeMail(to, id, name, yearOfStudy, phone, eventName, college);
    var attempt := 0;
    delivered, sent, waits := false, [], [];
    while attempt < MaxRetries
      invariant attempt < MaxRetries
      invariant |sent| == attempt
      invariant forall i :: 0 <= i < |sent| ==> sent[i] == mailOptions
      invariant forall j :: 0 <= j < attempt ==> !Succeeds(outcomes, j)
      invariant waits == Backoff(RetryBaseMs, attempt)
      decreases MaxRetries - attempt
    {
      sent := sent + [mailOptions];
      if Succeeds(outcomes, attempt) {
        delivered := true;
        return;
      }
      attempt := attempt + 1;
      if attempt >= MaxRetries {
        return;
      }
      waits := waits + [RetryBaseMs * attempt];
    }
  }
}

=== FILE: payment.dfy ===
/** The payment check (backend/src/utils/payment-verification.ts): the order
    id, payment id and signature must be present, the gateway secret must be
    configured, and the signature must be the gateway's HMAC-SHA256 of
    "order|payment" under that secret. The HMAC (section 2 of RFC 2104 over
    SHA-256, rendered in lower-case hexadecimal) is a parameter. */
module Payment {
  import opened Common
  import opened Records

  const MissingDetails := "Payment verification failed: Missing payment details. Registration requires completed payment."
  const ConfigError := "Payment configuration error. Please contact support."
  const BadSignature := "Payment verification failed: Invalid payment signature. Registration cannot proceed without valid payment."
  const VerifyError := "Payment verification error. Please try again or contact support."

  /** `primary || fallback`. */
  function Pick(primary: Option<string>, fallback: Option<string>): (r: Option<string>)
    ensures Truthy(r) <==> Truthy(primary) || Truthy(fallback)
    ensures Truthy(primary) ==> r == primary
  {
    if Truthy(primary) then primary else fallback
  }

  /** The gateway's signature for an order and a payment. */
  function Signature(hmac: (string, string) -> string, secret: string, order: string, payment: string): string {
    hmac(secret, order + "|" + payment)
  }

  /** The three payment fields the check reads, each from its `razorpay_*`
      name when that is set and non-empty, else from the plain name. */
  function OrderField(b: Body): Option<string> { Pick(b.razorpayOrderId, b.orderId) }
  function PaymentField(b: Body): Option<string> { Pick(b.razorpayPaymentId, b.paymentId) }
  function SignatureField(b: Body): Option<string> { Pick(b.razorpaySignature, b.signature) }

  /** The check; `secret` is the configured key secret and `hmacThrows` says
      whether computing the digest raises an error. */
  function VerifyPayment(b: Body, secret: Option<string>, hmac: (string, string) -> string, hmacThrows: bool): Step {
    var order := OrderField(b);
    var payment := PaymentField(b);
    var signature := SignatureField(b);
    if !Truthy(order) || !Truthy(payment) || !Truthy(signature) then Stop(Fail(400, MissingDetails))
    else if !Truthy(secret) then Stop(Fail(500, ConfigError))
    else if hmacThrows then Stop(Fail(500, VerifyError))
    else if Signature(hmac, secret.value, order.value, payment.value) == signature.value then Next
    else Stop(Fail(400, BadSignature))
  }

  /** The request goes on exactly when the three fields are present, a secret
      is configured, the digest is computed, and the signature is the HMAC of
      "order|payment"; a missing field is reported before the secret is
      consulted, and configuration and digest faults are 500s. */
  lemma VerifyPaymentIff(b: Body, secret: Option<string>, hmac: (string, string) -> string, hmacThrows: bool)
    ensures VerifyPayment(b, secret, hmac, hmacThrows) == Next <==>
      Truthy(OrderField(b)) && Truthy(PaymentField(b)) && Truthy(SignatureField(b))
      && Truthy(secret) && !hmacThrows
      && SignatureField(b).value == Signature(hmac, secret.value, OrderField(b).value, PaymentField(b).value)
    ensures !Truthy(OrderField(b)) || !Truthy(PaymentField(b)) || !Truthy(SignatureField(b)) ==>
      VerifyPayment(b, secret, hmac, hmacThrows) == Stop(Fail(400, MissingDetails))
    ensures Truthy(OrderField(b)) && Truthy(PaymentField(b)) && Truthy(SignatureField(b)) && !Truthy(secret) ==>
      VerifyPayment(b, secret, hmac, hmacThrows) == Stop(Fail(500, ConfigError))
  {
  }

  /** A signature made by the gateway for the order and payment passes,
      whichever field names carry them. */
  lemma GenuineSignaturePasses(b: Body, secret: string, hmac: (string, string) -> string)
    requires Truthy(OrderField(b)) && Truthy(PaymentField(b)) && secret != ""
    requires SignatureField(b) == Some(Signature(hmac, secret, OrderField(b).value, PaymentField(b).value))
    requires Signature(hmac, secret, OrderField(b).value, PaymentField(b).value) != ""
    ensures VerifyPayment(b, Some(secret), hmac, false) == Next
  {
  }

  /** The outcome depends only on the three selected fields and the secret:
      two bodies that agree on them get the same answer. */
  lemma VerifyPaymentDependsOnFields(b1: Body, b2: Body, secret: Option<string>, hmac: (string, string) -> string, hmacThrows: bool)
    requires OrderField(b1) == OrderField(b2) && PaymentField(b1) == PaymentField(b2)
    requires SignatureField(b1) == SignatureField(b2)
    ensures VerifyPayment(b1, secret, hmac, hmacThrows) == VerifyPayment(b2, secret, hmac, hmacThrows)
  {
  }
}

=== FILE: pipeline.dfy ===
/** The registration route (backend/src/index.ts:51): the duplicate guard,
    then the payment check, then the registration handler. Each guard either
    passes the request on or answers it, and a request that is answered early
    leaves the collection untouched. */
module Pipeline {
  import opened Common
  import opened Text
  import opened Records
  import Search
  import Payment
  import opened Retry
  import opened Register
  import Mail

  /** What the two guards depend on besides the body and the collection:
      whether the duplicate lookup throws, the configured gateway secret, the
      HMAC, and whether computing it throws. */
  datatype Guards = Guards(
    duplicateLookupFails: bool, secret: Option<string>,
    hmac: (string, string) -> string, hmacThrows: bool)

  /** A request answered by a guard: nothing saved, nothing mailed. */
  function Refused(rs: seq<Registration>, reply: Response): Outcome {
    Outcome(reply, rs, [], [], [])
  }

  /** The chain after the duplicate guard has given its verdict. */
  function Chain(duplicate: Step, rs: seq<Registration>, b: Body, g: Guards, env: Env): Outcome {
    match duplicate
    case Stop(reply) => Refused(rs, reply)
    case Next =>
      match Payment.VerifyPayment(b, g.secret, g.hmac, g.hmacThrows)
      case Stop(reply) => Refused(rs, reply)
      case Next => RegisterSpec(rs, b, env)
  }

  /** The route with the corrected duplicate guard, which compares events
      without regard to case. */
  function RegisterRouteCaseless(rs: seq<Registration>, b: Body, g: Guards, env: Env): Outcome {
    Chain(Search.CheckDuplicateCaseless(rs, b, g.duplicateLookupFails), rs, b, g, env)
  }

  /** `POST /api/register` as written: `checkDuplicate`, `verifyPayment`,
      `registerUser`. */
  function RegisterRoute(rs: seq<Registration>, b: Body, g: Guards, env: Env): Outcome {
    Chain(Search.CheckDuplicate(rs, b, g.duplicateLookupFails), rs, b, g, env)
  }

  /** The registration that the handler stores for a body, if it stores one. */
  function Stored(rs: seq<Registration>, b: Body, env: Env): Registration
    requires Normalize(b).Some?
  {
    Registration(Some(NextRegistrationId(rs)), Normalize(b).value, env.now)
  }

  /** Whatever the duplicate guard answers, a registration is stored only
      when it and the payment check pass the request and the handler accepts
      it; then exactly one document is appended, numbered after the stored
      ones and schema-valid. Otherwise the collection is unchanged and no mail
      is sent. */
  lemma ChainStoresOnlyWhenAllPass(duplicate: Step, rs: seq<Registration>, b: Body, g: Guards, env: Env)
    ensures var o := Chain(duplicate, rs, b, g, env);
      (o.records == rs && o.mail == [])
      || (duplicate == Next
          && Payment.VerifyPayment(b, g.secret, g.hmac, g.hmacThrows) == Next
          && PaymentRejection(b).None? && Normalize(b).Some? && !env.lookupFails
          && o.records == rs + [Stored(rs, b, env)]
          && SchemaValid(Stored(rs, b, env)) && IdFree(rs, Stored(rs, b, env)))
  {
    if duplicate == Next && Payment.VerifyPayment(b, g.secret, g.hmac, g.hmacThrows) == Next {
      RegisterStoresOnlyValid(rs, b, env);
    }
  }

  /** On `POST /api/register`, a registration is stored only when
      `checkDuplicate` as written, `verifyPayment` and the handler's own
      checks all pass; then exactly one schema-valid document with a fresh
      number is appended. Otherwise nothing is stored or mailed. */
  lemma RouteStoresOnlyWhenAllPass(rs: seq<Registration>, b: Body, g: Guards, env: Env)
    ensures var o := RegisterRoute(rs, b, g, env);
      (o.records == rs && o.mail == [])
      || (Search.CheckDuplicate(rs, b, g.duplicateLookupFails) == Next
          && Payment.VerifyPayment(b, g.secret, g.hmac, g.hmacThrows) == Next
          && PaymentRejection(b).None? && Normalize(b).Some? && !env.lookupFails
          && o.records == rs + [Stored(rs, b, env)]
          && SchemaValid(Stored(rs, b, env)) && IdFree(rs, Stored(rs, b, env)))
  {
    ChainStoresOnlyWhenAllPass(Search.CheckDuplicate(rs, b, g.duplicateLookupFails), rs, b, g, env);
  }

  /** The handlers of `POST /api/register` answer in order: a duplicate is
      reported before the payment is looked at, and a payment failure before
      the handler runs. The reply is a 409 exactly when `checkDuplicate` as
      written finds a stored registration with the lower-cased event and the
      same e-mail or mobile, a 201 exactly when a registration is stored and
      its mail goes out, and only a 201 reports success. */
  lemma RouteReply(rs: seq<Registration>, b: Body, g: Guards, env: Env)
    ensures var o := RegisterRoute(rs, b, g, env);
      var dup := Search.CheckDuplicate(rs, b, g.duplicateLookupFails);
      var pay := Payment.VerifyPayment(b, g.secret, g.hmac, g.hmacThrows);
      (dup.Stop? ==> o.response == dup.response && o.records == rs)
      && (dup == Next && pay.Stop? ==> o.response == pay.response && o.records == rs)
      && (o.response.status == 409 <==> dup == Stop(Fail(409, Search.AlreadyRegistered)))
      && (o.response.status == 201 <==>
            |o.records| == |rs| + 1 && FirstSuccess(env.mailOutcomes, Mail.MaxRetries).Some?)
      && (o.response.success <==> o.response.status == 201)
      && (o.response.status in {201, 400, 409, 500})
  {
    var dup := Search.CheckDuplicate(rs, b, g.duplicateLookupFails);
    var pay := Payment.VerifyPayment(b, g.secret, g.hmac, g.hmacThrows);
    Search.CheckDuplicateNext(rs, b, g.duplicateLookupFails);
    if dup == Next {
      Payment.VerifyPaymentIff(b, g.secret, g.hmac, g.hmacThrows);
      if pay == Next {
        RegisterReply(rs, b, env);
      }
    }
  }

  /** The route as written, and the route with the corrected guard, keep the
      collection schema-valid with distinct numbers. */
  lemma RouteKeepsStoreValid(rs: seq<Registration>, b: Body, g: Guards, env: Env)
    requires StoreValid(rs)
    ensures StoreValid(RegisterRoute(rs, b, g, env).records)
    ensures StoreValid(RegisterRouteCaseless(rs, b, g, env).records)
  {
    if Payment.VerifyPayment(b, g.secret, g.hmac, g.hmacThrows) == Next {
      RegisterKeepsStoreValid(rs, b, env);
    }
  }

  /** The normalised e-mail and event of a stored registration are the keys
      the duplicate guard looks for. */
  lemma StoredKeys(rs: seq<Registration>, b: Body, env: Env)
    requires Normalize(b).Some?
    ensures Stored(rs, b, env).data.leaderEmail == Search.Key(b.leaderEmail.value)
    ensures Stored(rs, b, env).data.selectedEvent == Trim(b.selectedEvent.value)
  {
  }

  /** With the corrected guard, replaying a request that registered a team
      is refused with 409 and stores nothing, whatever the second request's payment and environment. */
  lemma ReplayRefused(rs: seq<Registration>, b: Body, g: Guards, env: Env, g2: Guards, env2: Env)
    requires |RegisterRouteCaseless(rs, b, g, env).records| == |rs| + 1
    requires !g2.duplicateLookupFails
    ensures var again := RegisterRouteCaseless(RegisterRouteCaseless(rs, b, g, env).records, b, g2, env2);
      again.response == Fail(409, Search.AlreadyRegistered)
      && again.records == RegisterRouteCaseless(rs, b, g, env).records
      && again.mail == []
  {
    ChainStoresOnlyWhenAllPass(Search.CheckDuplicateCaseless(rs, b, g.duplicateLookupFails), rs, b, g, env);
    StoredKeys(rs, b, env);
    Search.StoredIsFound(rs, Stored(rs, b, env), b);
  }

  /** As written, a replayed request for an event whose name has a capital
      letter passes the duplicate guard and is stored a second time when the
      store behaves as it did the first time: the collection then holds the
      same submission twice under two numbers. */
  lemma AsWrittenReplayStoresTwice(rs: seq<Registration>, b: Body, g: Guards, env: Env)
    requires forall i :: 0 <= i < |rs| ==> HasUpper(rs[i].data.selectedEvent)
    requires b.selectedEvent.Some? && HasUpper(Trim(b.selectedEvent.value))
    requires |RegisterRoute(rs, b, g, env).records| == |rs| + 1
    ensures var first := RegisterRoute(rs, b, g, env).records;
      var second := RegisterRoute(first, b, g, env).records;
      |second| == |rs| + 2
      && second[|rs|].data == second[|rs| + 1].data
      && second[|rs|].registrationId != second[|rs| + 1].registrationId
  {
    ReplayReachesHandler(rs, b, g, env);
    SecondSave(rs, Stored(rs, b, env), Normalize(b).value, env);
  }

  /** After the route as written stored a request whose event name has a
      capital letter, the replay reaches the handler, which sees the
      collection with the first copy appended. */
  lemma ReplayReachesHandler(rs: seq<Registration>, b: Body, g: Guards, env: Env)
    requires forall i :: 0 <= i < |rs| ==> HasUpper(rs[i].data.selectedEvent)
    requires b.selectedEvent.Some? && HasUpper(Trim(b.selectedEvent.value))
    requires |RegisterRoute(rs, b, g, env).records| == |rs| + 1
    ensures Normalize(b).Some?
    ensures RegisterRoute(rs, b, g, env).records == rs + [Stored(rs, b, env)]
    ensures RegisterRoute(rs + [Stored(rs, b, env)], b, g, env)
            == SaveAndMail(rs + [Stored(rs, b, env)], Normalize(b).value, env)
    ensures SchemaValid(Stored(rs, b, env)) && IdFree(rs, Stored(rs, b, env))
    ensures FirstSuccess(SaveOutcomes(rs, Stored(rs, b, env), env.saveOutcomes), SaveAttempts).Some?
  {
    var s := Normalize(b);
    FirstPassedAll(rs, b, g, env);
    var r := Stored(rs, b, env);
    SaveAndMailFacts(rs, s.value, env);
    SecondPassesAsWritten(rs, r, b, g.duplicateLookupFails);
  }

  /** A body that passed the as-written guard passes it again after its own
      registration is stored, when every stored event name has a capital. */
  lemma SecondPassesAsWritten(rs: seq<Registration>, r: Registration, b: Body, lookupFails: bool)
    requires Search.CheckDuplicate(rs, b, lookupFails) == Next
    requires forall i :: 0 <= i < |rs| ==> HasUpper(rs[i].data.selectedEvent)
    requires HasUpper(r.data.selectedEvent)
    ensures Search.CheckDuplicate(rs + [r], b, lookupFails) == Next
  {
    var first := rs + [r];
    assert forall i :: 0 <= i < |first| ==> HasUpper(first[i].data.selectedEvent) by {
      assert forall i :: 0 <= i < |rs| ==> first[i] == rs[i];
    }
    Search.AsWrittenIgnoresCapitalised(first, b, lookupFails);
  }

  /** A request the as-written route stored passed both guards and the
      handler's own checks, and the save script let one attempt through. */
  lemma FirstPassedAll(rs: seq<Registration>, b: Body, g: Guards, env: Env)
    requires |RegisterRoute(rs, b, g, env).records| == |rs| + 1
    ensures Search.CheckDuplicate(rs, b, g.duplicateLookupFails) == Next
    ensures Payment.VerifyPayment(b, g.secret, g.hmac, g.hmacThrows) == Next
    ensures PaymentRejection(b).None? && Normalize(b).Some? && !env.lookupFails
    ensures RegisterRoute(rs, b, g, env) == SaveAndMail(rs, Normalize(b).value, env)
    ensures FirstSuccess(SaveOutcomes(rs, Stored(rs, b, env), env.saveOutcomes), SaveAttempts).Some?
  {
  }

  /** The handler stores a schema-valid submission again after one copy of it
      was stored, under the next number. */
  lemma SecondSave(rs: seq<Registration>, r: Registration, s: Submission, env: Env)
    requires r == Registration(Some(NextRegistrationId(rs)), s, env.now)
    requires SchemaValid(r) && IdFree(rs, r)
    requires FirstSuccess(SaveOutcomes(rs, r, env.saveOutcomes), SaveAttempts).Some?
    ensures var o := SaveAndMail(rs + [r], s, env);
      |o.records| == |rs| + 2 && o.records[..|rs| + 1] == rs + [r]
      && o.records[|rs| + 1].data == s
      && o.records[|rs| + 1].registrationId != r.registrationId
  {
    var first := rs + [r];
    var r2 := Registration(Some(NextRegistrationId(first)), s, env.now);
    NextIdFresh(first);
    assert first[|rs|] == r;
    assert IdFree(first, r2);
  }

  /** `POST /api/register` on a store object: the guards as written run first, and only a request
      they pass reaches the handler, which may append to the collection. */
  method HandleRegister(store: Store, b: Body, g: Guards, env: Env)
    returns (response: Response, saveWaits: seq<nat>, mail: seq<Mail.MailOptions>, mailWaits: seq<nat>)
    modifies store
    ensures Outcome(response, store.records, saveWaits, mail, mailWaits)
            == RegisterRoute(old(store.records), b, g, env)
    ensures old(store.Valid()) ==> store.Valid()
  {
    saveWaits, mail, mailWaits := [], [], [];
    var duplicate := Search.CheckDuplicate(store.records, b, g.duplicateLookupFails);
    if duplicate.Stop? {
      response := duplicate.response;
      return;
    }
    var payment := Payment.VerifyPayment(b, g.secret, g.hmac, g.hmacThrows);
    if payment.Stop? {
      response := payment.response;
      return;
    }
    response, saveWaits, mail, mailWaits := store.RegisterUser(b, env);
  }
}

=== FILE: razorpay.dfy ===
/** Creating a gateway order (backend/src/utils/razorpay.ts): configuration
    check, the request-body guards, then one call to the gateway, whose
    behaviour is a parameter. */
module Razorpay {
  import opened Common

  const ConfigError := "Payment service configuration error"
  const MissingFields := "Missing required fields: amount, currency, receipt"
  const InvalidAmount := "Invalid amount. Must be a positive number"
  const CreateFailed := "Failed to create order"

  /** A JSON value as it arrives in the body (numbers are integers here). */
  datatype JsValue = Undefined | Null | Bool(b: bool) | Num(n: int) | Str(s: string)

  predicate Falsy(v: JsValue) {
    v == Undefined || v == Null || v == Bool(false) || v == Num(0) || v == Str("")
  }

  /** The options handed to the gateway. */
  datatype OrderOptions = OrderOptions(amount: int, currency: JsValue, receipt: JsValue, paymentCapture: int)

  /** What the gateway call does: returns an order, returns nothing, or throws
      an error carrying an optional description and message. */
  datatype GatewayResult =
    | Created(orderId: string)
    | NoOrder
    | Threw(description: Option<string>, message: Option<string>)

  /** The reply, the order returned to the client, and the options the
      gateway was called with (`None` when it was not called). */
  datatype OrderReply = OrderReply(response: Response, order: Option<string>, request: Option<OrderOptions>)

  /** `error.description || error.message || 'Failed to create order'`. */
  function ErrorText(description: Option<string>, message: Option<string>): (t: string)
    ensures t == CreateFailed || (Truthy(description) && t == description.value)
            || (Truthy(message) && t == message.value)
    ensures Truthy(description) ==> t == description.value
    ensures !Truthy(description) && Truthy(message) ==> t == message.value
  {
    if Truthy(description) then description.value
    else if Truthy(message) then message.value
    else CreateFailed
  }

  function OrderRazorpay(keyId: Option<string>, keySecret: Option<string>,
                         amount: JsValue, currency: JsValue, receipt: JsValue,
                         gateway: OrderOptions -> GatewayResult): OrderReply
  {
    if !Truthy(keyId) || !Truthy(keySecret) then OrderReply(Fail(500, ConfigError), None, None)
    else if Falsy(amount) || Falsy(currency) || Falsy(receipt) then OrderReply(Fail(400, MissingFields), None, None)
    else if !amount.Num? || amount.n <= 0 then OrderReply(Fail(400, InvalidAmount), None, None)
    else
      var options := OrderOptions(amount.n, currency, receipt, 1);
      match gateway(options)
      case Created(id) => OrderReply(Response(200, true, ""), Some(id), Some(options))
      case NoOrder => OrderReply(Fail(500, CreateFailed), None, Some(options))
      case Threw(d, m) => OrderReply(Fail(500, ErrorText(d, m)), None, Some(options))
  }

  /** Missing credentials are reported before the body is looked at. */
  lemma ConfigCheckedFirst(keyId: Option<string>, keySecret: Option<string>,
                           amount: JsValue, currency: JsValue, receipt: JsValue,
                           gateway: OrderOptions -> GatewayResult)
    requires !Truthy(keyId) || !Truthy(keySecret)
    ensures OrderRazorpay(keyId, keySecret, amount, currency, receipt, gateway)
            == OrderReply(Fail(500, ConfigError), None, None)
  {
  }

  /** The gateway is called exactly when the credentials are set, the three
      fields are truthy and the amount is a positive number; it then gets the
      amount, currency and receipt unchanged with automatic capture. An amount
      of 0 is reported as a missing field. */
  lemma GatewayCalledOnlyWhenValid(keyId: Option<string>, keySecret: Option<string>,
                                   amount: JsValue, currency: JsValue, receipt: JsValue,
                                   gateway: OrderOptions -> GatewayResult)
    ensures var o := OrderRazorpay(keyId, keySecret, amount, currency, receipt, gateway);
      (o.request.Some? <==>
         Truthy(keyId) && Truthy(keySecret) && amount.Num? && amount.n > 0
         && !Falsy(currency) && !Falsy(receipt))
      && (o.request.Some? ==> o.request.value == OrderOptions(amount.n, currency, receipt, 1))
    ensures Truthy(keyId) && Truthy(keySecret) && amount == Num(0) ==>
      OrderRazorpay(keyId, keySecret, amount, currency, receipt, gateway).response == Fail(400, MissingFields)
  {
  }

  /** Success (200, with the order) exactly when the gateway returns an order;
      every other outcome is an error reply without an order. */
  lemma OrderSuccessIff(keyId: Option<string>, keySecret: Option<string>,
                        amount: JsValue, currency: JsValue, receipt: JsValue,
                        gateway: OrderOptions -> GatewayResult)
    ensures var o := OrderRazorpay(keyId, keySecret, amount, currency, receipt, gateway);
      (o.response.success <==> o.request.Some? && gateway(o.request.value).Created?)
      && (o.response.success ==> o.response.status == 200 && o.order == Some(gateway(o.request.value).orderId))
      && (!o.response.success ==> o.order.None? && o.response.status in {400, 500})
  {
  }
}

=== FILE: records.dfy ===
/** The registration document of the `registrations` collection and the
    request body the registration endpoint receives (backend/src/register.ts). */
module Records {
  import opened Common

  /** A team member as stored. */
  datatype Member = Member(name: string, mobile: string, email: string, college: string)

  /** The fields the handler builds from the request before numbering it.
      `participationType` is stored as sent; `teamSize` and `totalFee` are the
      results of `Number(...)`, `None` standing for `NaN`. */
  datatype Submission = Submission(
    leaderName: string, leaderEmail: string, leaderMobile: string,
    leaderCollege: string, leaderDepartment: string, leaderYear: string,
    leaderCity: string, selectedEvent: string, paperPresentationDept: string,
    participationType: Option<string>, teamSize: Option<int>,
    teamMembers: seq<Member>,
    paymentId: string, orderId: string, signature: string,
    totalFee: Option<int>)

  /** A stored registration: the submission, its sequential number (documents
      written before numbering existed have none) and its creation time. */
  datatype Registration = Registration(registrationId: Option<int>, data: Submission, createdAt: int)

  /** A team member as it arrives in the request; absent fields are `None`. */
  datatype MemberInput = MemberInput(
    name: Option<string>, mobile: Option<string>, email: Option<string>, college: Option<string>)

  /** The JSON body of a registration request. The `razorpay_*` fields are the
      gateway's own names for the payment fields, which the payment check also
      accepts. */
  datatype Body = Body(
    leaderName: Option<string>, leaderEmail: Option<string>, leaderMobile: Option<string>,
    leaderCollege: Option<string>, leaderDepartment: Option<string>, leaderYear: Option<string>,
    leaderCity: Option<string>, selectedEvent: Option<string>, paperPresentationDept: Option<string>,
    participationType: Option<string>, teamSize: Option<int>,
    teamMembers: Option<seq<MemberInput>>,
    paymentId: Option<string>, orderId: Option<string>, signature: Option<string>,
    razorpayOrderId: Option<string>, razorpayPaymentId: Option<string>, razorpaySignature: Option<string>,
    totalFee: Option<int>)

  /** A `required` string path: the store rejects a missing or empty string. */
  predicate Filled(s: string) {
    s != ""
  }

  predicate MemberValid(m: Member) {
    Filled(m.name) && Filled(m.mobile) && Filled(m.email) && Filled(m.college)
  }

  /** The document passes the collection's schema validation. */
  predicate SchemaValid(r: Registration) {
    var d := r.data;
    Filled(d.leaderName) && Filled(d.leaderEmail) && Filled(d.leaderMobile)
    && Filled(d.leaderCollege) && Filled(d.leaderDepartment) && Filled(d.leaderYear)
    && Filled(d.leaderCity) && Filled(d.selectedEvent)
    && (d.participationType == Some("solo") || d.participationType == Some("team"))
    && d.teamSize.Some?
    && (forall i :: 0 <= i < |d.teamMembers| ==> MemberValid(d.teamMembers[i]))
    && Filled(d.paymentId) && Filled(d.orderId) && Filled(d.signature)
    && d.totalFee.Some?
  }

  /** The unique index on `registrationId` admits `r` next to `rs`. */
  predicate IdFree(rs: seq<Registration>, r: Registration) {
    forall i :: 0 <= i < |rs| ==> rs[i].registrationId != r.registrationId
  }

  /** Every stored document is schema-valid and no two share a number. */
  predicate StoreValid(rs: seq<Registration>) {
    (forall i :: 0 <= i < |rs| ==> SchemaValid(rs[i]))
    && (forall i, j :: 0 <= i < j < |rs| ==> rs[i].registrationId != rs[j].registrationId)
  }
}

=== FILE: register.dfy ===
/** The registration endpoint (backend/src/register.ts): payment and fee
    checks, normalisation of the submitted fields, sequential numbering, a
    save retried up to three times, and the welcome mail. */
module Register {
  import opened Common
  import opened Text
  import opened Seqs
  import opened Retry
  import opened Records
  import Mail

  const PaymentRequired := "Payment details are required. Registration cannot proceed without completing payment."
  const PaymentInvalid := "Invalid payment details. Please complete payment through the authorized gateway."
  const FeeInvalid := "Invalid fee amount. Registration requires payment."
  const RegisterFailed := "Failed to register user"
  const Registered := "Registration successful"

  /** The number given when no numbered registration exists yet. */
  const FirstRegistrationId := 1001
  const SaveAttempts: nat := 3
  /** The pause after the n-th failed save is n times this many milliseconds. */
  const SaveBackoffMs: nat := 1000

  /** The highest `registrationId` stored: what a descending sort on it
      brings first. */
  function MaxRegistrationId(rs: seq<Registration>): (m: Option<int>)
    ensures m.None? ==> forall i :: 0 <= i < |rs| ==> rs[i].registrationId.None?
    ensures m.Some? ==> exists i :: 0 <= i < |rs| && rs[i].registrationId == m
    ensures m.Some? ==> forall i :: 0 <= i < |rs| && rs[i].registrationId.Some? ==>
                          rs[i].registrationId.value <= m.value
  {
    if rs == [] then None
    else
      var rest := MaxRegistrationId(rs[1..]);
      assert forall i :: 0 < i < |rs| ==> rs[i] == rs[1..][i - 1];
      match rs[0].registrationId
      case None => rest
      case Some(n) => if rest.Some? && rest.value > n then rest else Some(n)
  }

  /** The number of the next registration: one more than the highest stored,
      or 1001 when there is none or the highest is 0. */
  function NextRegistrationId(rs: seq<Registration>): int {
    match MaxRegistrationId(rs)
    case None => FirstRegistrationId
    case Some(m) => if m == 0 then FirstRegistrationId else m + 1
  }

  /** The next number is larger than every stored one, so the unique index
      never refuses it; it is 1001 or follows a stored number. */
  lemma NextIdFresh(rs: seq<Registration>)
    ensures forall i :: 0 <= i < |rs| && rs[i].registrationId.Some? ==>
              rs[i].registrationId.value < NextRegistrationId(rs)
    ensures NextRegistrationId(rs) == FirstRegistrationId
            || exists i :: 0 <= i < |rs| && rs[i].registrationId == Some(NextRegistrationId(rs) - 1)
  {
  }

  /** Registrations numbered 1001, 1002, … in order get the following number next. */
  lemma NextIdSequential(rs: seq<Registration>)
    requires forall i :: 0 <= i < |rs| ==> rs[i].registrationId == Some(FirstRegistrationId + i)
    ensures NextRegistrationId(rs) == FirstRegistrationId + |rs|
  {
    if rs != [] {
      var last := |rs| - 1;
      assert rs[last].registrationId == Some(FirstRegistrationId + last);
    }
  }

  /** The payment and fee checks that open the handler; the first that fails
      answers the request. */
  function PaymentRejection(b: Body): Option<Response> {
    if !Truthy(b.paymentId) || !Truthy(b.orderId) || !Truthy(b.signature) then
      Some(Fail(400, PaymentRequired))
    else if !StartsWith(b.paymentId.value, "pay_") || !StartsWith(b.orderId.value, "order_") then
      Some(Fail(400, PaymentInvalid))
    else if b.totalFee.None? || b.totalFee.value <= 0 then
      Some(Fail(400, FeeInvalid))
    else None
  }

  /** A request passes the payment checks exactly when it carries a payment id
      starting with `pay_`, an order id starting with `order_`, a non-empty
      signature and a positive fee; a rejection is a 400. */
  lemma PaymentRejectionIff(b: Body)
    ensures PaymentRejection(b).None? <==>
      b.paymentId.Some? && StartsWith(b.paymentId.value, "pay_")
      && b.orderId.Some? && StartsWith(b.orderId.value, "order_")
      && Truthy(b.signature) && b.totalFee.Some? && b.totalFee.value > 0
    ensures PaymentRejection(b).Some? ==>
      PaymentRejection(b).value.status == 400 && !PaymentRejection(b).value.success
  {
  }

  function NormalizeMember(m: MemberInput): Option<Member> {
    if m.name.Some? && m.mobile.Some? && m.email.Some? && m.college.Some? then
      Some(Member(Trim(m.name.value), Trim(m.mobile.value),
                  Lower(Trim(m.email.value)), Trim(m.college.value)))
    else None
  }

  /** The team members, each normalised; `None` when a member lacks a field
      (the `.trim()` on it throws). */
  function NormalizeMembers(ms: seq<MemberInput>): (r: Option<seq<Member>>)
    ensures r.Some? <==> forall i :: 0 <= i < |ms| ==> NormalizeMember(ms[i]).Some?
    ensures r.Some? ==> |r.value| == |ms|
                        && forall i :: 0 <= i < |ms| ==> NormalizeMember(ms[i]) == Some(r.value[i])
  {
    if ms == [] then Some([])
    else
      var head := NormalizeMember(ms[0]);
      var rest := NormalizeMembers(ms[1..]);
      assert forall i :: 0 < i < |ms| ==> ms[i] == ms[1..][i - 1];
      if head.None? || rest.None? then None else Some([head.value] + rest.value)
  }

  /** The submission built from the request body: strings trimmed, e-mail
      addresses lower-cased, a missing paper department as `""`, a missing
      member list as empty. `None` when a field the code calls `.trim()` on
      is missing, which throws. */
  function Normalize(b: Body): Option<Submission> {
    if b.leaderName.None? || b.leaderEmail.None? || b.leaderMobile.None?
       || b.leaderCollege.None? || b.leaderDepartment.None? || b.leaderYear.None?
       || b.leaderCity.None? || b.selectedEvent.None? then None
    else
      var members := if b.teamMembers.None? then Some([]) else NormalizeMembers(b.teamMembers.value);
      if members.None? then None
      else Some(Submission(
        Trim(b.leaderName.value), Lower(Trim(b.leaderEmail.value)), Trim(b.leaderMobile.value),
        Trim(b.leaderCollege.value), Trim(b.leaderDepartment.value), Trim(b.leaderYear.value),
        Trim(b.leaderCity.value), Trim(b.selectedEvent.value),
        if b.paperPresentationDept.Some? then Trim(b.paperPresentationDept.value) else "",
        b.participationType, b.teamSize, members.value,
        OrEmpty(b.paymentId), OrEmpty(b.orderId), OrEmpty(b.signature), b.totalFee))
  }

  predicate MemberInputComplete(m: MemberInput) {
    m.name.Some? && m.mobile.Some? && m.email.Some? && m.college.Some?
  }

  /** Normalisation fails exactly when one of the eight leader and event fields
      is missing, or a team member lacks one of its four fields. */
  lemma NormalizeDefined(b: Body)
    ensures Normalize(b).Some? <==>
      b.leaderName.Some? && b.leaderEmail.Some? && b.leaderMobile.Some?
      && b.leaderCollege.Some? && b.leaderDepartment.Some? && b.leaderYear.Some?
      && b.leaderCity.Some? && b.selectedEvent.Some?
      && (b.teamMembers.Some? ==>
            forall i :: 0 <= i < |b.teamMembers.value| ==> MemberInputComplete(b.teamMembers.value[i]))
  {
  }

  predicate MemberClean(m: Member) {
    IsTrimmed(m.name) && IsTrimmed(m.mobile) && IsTrimmed(m.college)
    && IsTrimmed(m.email) && Lower(m.email) == m.email
  }

  /** Every text field of a normalised submission is trimmed and every e-mail
      address is in lower case. */
  predicate Clean(s: Submission) {
    IsTrimmed(s.leaderName) && IsTrimmed(s.leaderEmail) && Lower(s.leaderEmail) == s.leaderEmail
    && IsTrimmed(s.leaderMobile) && IsTrimmed(s.leaderCollege) && IsTrimmed(s.leaderDepartment)
    && IsTrimmed(s.leaderYear) && IsTrimmed(s.leaderCity) && IsTrimmed(s.selectedEvent)
    && IsTrimmed(s.paperPresentationDept)
    && forall i :: 0 <= i < |s.teamMembers| ==> MemberClean(s.teamMembers[i])
  }

  lemma LowerKeepsTrimmed(s: string)
    requires IsTrimmed(s)
    ensures IsTrimmed(Lower(s))
  {
  }

  /** A normalised submission is clean, keeps the members in number and order,
      and carries the payment fields, type, size and fee as sent. */
  lemma NormalizeClean(b: Body)
    requires Normalize(b).Some?
    ensures Clean(Normalize(b).value)
    ensures var s := Normalize(b).value;
      |s.teamMembers| == (if b.teamMembers.Some? then |b.teamMembers.value| else 0)
      && s.paymentId == OrEmpty(b.paymentId) && s.orderId == OrEmpty(b.orderId)
      && s.signature == OrEmpty(b.signature) && s.totalFee == b.totalFee
      && s.participationType == b.participationType && s.teamSize == b.teamSize
  {
    var s := Normalize(b).value;
    TrimFacts(b.leaderName.value);
    TrimFacts(b.leaderEmail.value);
    TrimFacts(b.leaderMobile.value);
    TrimFacts(b.leaderCollege.value);
    TrimFacts(b.leaderDepartment.value);
    TrimFacts(b.leaderYear.value);
    TrimFacts(b.leaderCity.value);
    TrimFacts(b.selectedEvent.value);
    if b.paperPresentationDept.Some? {
      TrimFacts(b.paperPresentationDept.value);
    }
    LowerKeepsTrimmed(Trim(b.leaderEmail.value));
    LowerIdempotent(Trim(b.leaderEmail.value));
    forall i | 0 <= i < |s.teamMembers| ensures MemberClean(s.teamMembers[i]) {
      var m := b.teamMembers.value[i];
      assert NormalizeMember(m) == Some(s.teamMembers[i]);
      TrimFacts(m.name.value);
      TrimFacts(m.email.value);
      TrimFacts(m.mobile.value);
      TrimFacts(m.college.value);
      LowerKeepsTrimmed(Trim(m.email.value));
      LowerIdempotent(Trim(m.email.value));
    }
  }

  function AsInput(m: Member): MemberInput {
    MemberInput(Some(m.name), Some(m.mobile), Some(m.email), Some(m.college))
  }

  /** The request body that would carry exactly this submission. */
  function AsBody(s: Submission): Body {
    Body(Some(s.leaderName), Some(s.leaderEmail), Some(s.leaderMobile), Some(s.leaderCollege),
         Some(s.leaderDepartment), Some(s.leaderYear), Some(s.leaderCity), Some(s.selectedEvent),
         Some(s.paperPresentationDept), s.participationType, s.teamSize,
         Some(Map(s.teamMembers, AsInput)),
         Some(s.paymentId), Some(s.orderId), Some(s.signature), None, None, None, s.totalFee)
  }

  /** Normalising is idempotent: sending a normalised submission again yields it unchanged. */
  lemma NormalizeIdempotent(b: Body)
    requires Normalize(b).Some?
    ensures Normalize(AsBody(Normalize(b).value)) == Normalize(b)
  {
    var s := Normalize(b).value;
    NormalizeClean(b);
    NormalizeCleanFixed(s);
  }

  lemma NormalizeCleanFixed(s: Submission)
    requires Clean(s)
    ensures Normalize(AsBody(s)) == Some(s)
  {
    TrimOfTrimmed(s.leaderName);
    TrimOfTrimmed(s.leaderEmail);
    TrimOfTrimmed(s.leaderMobile);
    TrimOfTrimmed(s.leaderCollege);
    TrimOfTrimmed(s.leaderDepartment);
    TrimOfTrimmed(s.leaderYear);
    TrimOfTrimmed(s.leaderCity);
    TrimOfTrimmed(s.selectedEvent);
    TrimOfTrimmed(s.paperPresentationDept);
    NormalizeMembersFixed(s.teamMembers);
  }

  lemma NormalizeMembersFixed(ms: seq<Member>)
    requires forall i :: 0 <= i < |ms| ==> MemberClean(ms[i])
    ensures NormalizeMembers(Map(ms, AsInput)) == Some(ms)
  {
    var ins := Map(ms, AsInput);
    forall i | 0 <= i < |ins| ensures NormalizeMember(ins[i]) == Some(ms[i]) {
      var m := ms[i];
      TrimOfTrimmed(m.name);
      TrimOfTrimmed(m.mobile);
      TrimOfTrimmed(m.email);
      TrimOfTrimmed(m.college);
    }
    var r := NormalizeMembers(ins);
    assert r.value == ms;
  }

  /** What the store, the mailer and the clock do during one request:
      the current time, whether looking up the highest number fails, and
      whether each save and each send attempt succeeds. */
  datatype Env = Env(now: int, lookupFails: bool, saveOutcomes: seq<bool>, mailOutcomes: seq<bool>)

  /** The reply, the collection afterwards, the pauses between save attempts,
      the messages handed to the mailer and the pauses between sends. */
  datatype Outcome = Outcome(
    response: Response, records: seq<Registration>, saveWaits: seq<nat>,
    mail: seq<Mail.MailOptions>, mailWaits: seq<nat>)

  /** The outcomes of the save attempts: validation and the unique index
      refuse the same document on every attempt; otherwise the store's own
      behaviour decides each one. */
  function SaveOutcomes(rs: seq<Registration>, r: Registration, script: seq<bool>): seq<bool> {
    if SchemaValid(r) && IdFree(rs, r) then script else []
  }

  function WelcomeFor(s: Submission, id: int): Mail.MailOptions {
    Mail.WelcomeMail(s.leaderEmail, IntToString(id), s.leaderName, s.leaderYear,
                     s.leaderMobile, s.selectedEvent, s.leaderCollege)
  }

  /** The handler from the moment the number is known: build the document,
      save it with retries, then send the welcome mail. */
  function SaveAndMail(rs: seq<Registration>, s: Submission, env: Env): Outcome {
    var failed := Fail(500, RegisterFailed);
    var id := NextRegistrationId(rs);
    var r := Registration(Some(id), s, env.now);
    match FirstSuccess(SaveOutcomes(rs, r, env.saveOutcomes), SaveAttempts)
    case None => Outcome(failed, rs, Backoff(SaveBackoffMs, SaveAttempts - 1), [], [])
    case Some(k) =>
      var n := Attempts(env.mailOutcomes, Mail.MaxRetries);
      var reply := if FirstSuccess(env.mailOutcomes, Mail.MaxRetries).Some?
                   then Response(201, true, Registered) else failed;
      Outcome(reply, rs + [r], Backoff(SaveBackoffMs, k),
              seq(n, _ => WelcomeFor(s, id)), Backoff(Mail.RetryBaseMs, n - 1))
  }

  /** The whole handler as a function of the stored registrations, the body
      and the environment. */
  function RegisterSpec(rs: seq<Registration>, b: Body, env: Env): Outcome {
    var failed := Fail(500, RegisterFailed);
    match PaymentRejection(b)
    case Some(reply) => Outcome(reply, rs, [], [], [])
    case None =>
      match Normalize(b)
      case None => Outcome(failed, rs, [], [], [])
      case Some(s) =>
        if env.lookupFails then Outcome(failed, rs, [], [], []) else SaveAndMail(rs, s, env)
  }

  /** After normalisation: the document is stored exactly when it is
      schema-valid, its number is free and one of the three saves succeeds;
      the reply is a 201 exactly when it is stored and the mail goes out;
      every message goes to the leader with the new number. */
  lemma SaveAndMailFacts(rs: seq<Registration>, s: Submission, env: Env)
    ensures var o := SaveAndMail(rs, s, env);
      var r := Registration(Some(NextRegistrationId(rs)), s, env.now);
      (o.records == rs + [r] && SchemaValid(r) && IdFree(rs, r)
       && 1 <= |o.mail| <= Mail.MaxRetries
       && (forall i :: 0 <= i < |o.mail| ==>
             o.mail[i].to == s.leaderEmail
             && o.mail[i].registrationId == IntToString(NextRegistrationId(rs)))
       && (o.response.status == 201 <==> FirstSuccess(env.mailOutcomes, Mail.MaxRetries).Some?))
      || (o.records == rs && o.mail == [] && o.response == Fail(500, RegisterFailed))
  {
  }

  /** A registration is stored only for a request that passes the payment
      checks and normalises to a schema-valid document with a free number; it
      is stored once, at the end, with the next number, the normalised fields
      and the current time. Otherwise the collection is unchanged and no mail
      is sent. */
  lemma RegisterStoresOnlyValid(rs: seq<Registration>, b: Body, env: Env)
    ensures var o := RegisterSpec(rs, b, env);
      (o.records == rs && o.mail == [])
      || (PaymentRejection(b).None? && Normalize(b).Some? && !env.lookupFails
          && o.records == rs + [Registration(Some(NextRegistrationId(rs)), Normalize(b).value, env.now)]
          && SchemaValid(o.records[|rs|]) && IdFree(rs, o.records[|rs|]))
  {
    if PaymentRejection(b).None? && Normalize(b).Some? && !env.lookupFails {
      SaveAndMailFacts(rs, Normalize(b).value, env);
    }
  }

  /** The reply is a 201 exactly when the registration was stored and the
      welcome mail went out, and only a 201 reports success; a stored
      registration whose mail fails three times is still answered with a 500. */
  lemma RegisterReply(rs: seq<Registration>, b: Body, env: Env)
    ensures var o := RegisterSpec(rs, b, env);
      (o.response.status == 201 <==>
         |o.records| == |rs| + 1 && FirstSuccess(env.mailOutcomes, Mail.MaxRetries).Some?)
      && (o.response.success <==> o.response.status == 201)
      && (o.response.status != 201 ==> o.response.status == 400 || o.response.status == 500)
  {
    if PaymentRejection(b).None? && Normalize(b).Some? && !env.lookupFails {
      SaveAndMailFacts(rs, Normalize(b).value, env);
    }
  }

  /** When the registration is stored, every message handed to the mailer
      goes to the leader's normalised address and shows the new number, and
      one to three sends are attempted. */
  lemma RegisterMails(rs: seq<Registration>, b: Body, env: Env)
    requires |RegisterSpec(rs, b, env).records| == |rs| + 1
    ensures var o := RegisterSpec(rs, b, env);
      1 <= |o.mail| <= Mail.MaxRetries
      && forall i :: 0 <= i < |o.mail| ==>
           o.mail[i].to == o.records[|rs|].data.leaderEmail
           && o.mail[i].registrationId == IntToString(NextRegistrationId(rs))
  {
    SaveAndMailFacts(rs, Normalize(b).value, env);
  }

  lemma AppendKeepsValid(rs: seq<Registration>, r: Registration)
    requires StoreValid(rs) && SchemaValid(r) && IdFree(rs, r)
    ensures StoreValid(rs + [r])
  {
  }

  /** Registering keeps the collection schema-valid and its numbers distinct. */
  lemma RegisterKeepsStoreValid(rs: seq<Registration>, b: Body, env: Env)
    requires StoreValid(rs)
    ensures StoreValid(RegisterSpec(rs, b, env).records)
  {
    RegisterStoresOnlyValid(rs, b, env);
    if RegisterSpec(rs, b, env).records != rs {
      AppendKeepsValid(rs, RegisterSpec(rs, b, env).records[|rs|]);
    }
  }

  /** The collection of registrations. */
  class Store {
    var records: seq<Registration>

    constructor (initial: seq<Registration>)
      ensures records == initial
    {
      records := initial;
    }

    ghost predicate Valid()
      reads this
    {
      StoreValid(records)
    }

    /** Handles one registration request. */
    method RegisterUser(b: Body, env: Env)
      returns (response: Response, saveWaits: seq<nat>, mail: seq<Mail.MailOptions>, mailWaits: seq<nat>)
      modifies this
      ensures Outcome(response, records, saveWaits, mail, mailWaits) == RegisterSpec(old(records), b, env)
      ensures old(Valid()) ==> Valid()
    {
      saveWaits, mail, mailWaits := [], [], [];
      if Valid() {
        RegisterKeepsStoreValid(records, b, env);
      }
      var failed := Fail(500, RegisterFailed);
      var rejection := PaymentRejection(b);
      if rejection.Some? {
        response := rejection.value;
        return;
      }
      var normalized := Normalize(b);
      if normalized.None? || env.lookupFails {
        response := failed;
        return;
      }
      response, saveWaits, mail, mailWaits := SaveAndSend(normalized.value, env);
    }

    /** Numbers the normalised submission, saves it with up to three
        attempts, then sends the welcome mail. */
    method SaveAndSend(s: Submission, env: Env)
      returns (response: Response, saveWaits: seq<nat>, mail: seq<Mail.MailOptions>, mailWaits: seq<nat>)
      modifies this
      ensures Outcome(response, records, saveWaits, mail, mailWaits) == SaveAndMail(old(records), s, env)
    {
      saveWaits, mail, mailWaits := [], [], [];
      var failed := Fail(500, RegisterFailed);
      var registrationId := NextRegistrationId(records);
      var registration := Registration(Some(registrationId), s, env.now);
      var outcomes := SaveOutcomes(records, registration, env.saveOutcomes);
      var saved := false;
      var attempt: nat := 1;
      while attempt <= SaveAttempts
        invariant 1 <= attempt <= SaveAttempts
        invariant records == old(records) && !saved
        invariant forall j :: 0 <= j < attempt - 1 ==> !Succeeds(outcomes, j)
        invariant saveWaits == Backoff(SaveBackoffMs, attempt - 1)
        decreases SaveAttempts - attempt
      {
        if Succeeds(outcomes, attempt - 1) {
          assert FirstSuccess(outcomes, SaveAttempts) == Some(attempt - 1);
          records := records + [registration];
          saved := true;
          break;
        }
        if attempt == SaveAttempts {
          assert FirstSuccess(outcomes, SaveAttempts).None?;
          response := failed;
          return;
        }
        saveWaits := saveWaits + [SaveBackoffMs * attempt];
        attempt := attempt + 1;
      }
      if !saved {
        response := failed;
        return;
      }
      var delivered;
      delivered, mail, mailWaits := Mail.SendWelcomeEmail(
        registration.data.leaderEmail, IntToString(registrationId), registration.data.leaderName,
        registration.data.leaderYear, registration.data.leaderMobile,
        registration.data.selectedEvent, registration.data.leaderCollege, env.mailOutcomes);
      assert mail == seq(|mail|, _ => WelcomeFor(s, registrationId));
      response := if delivered then Response(201, true, Registered) else failed;
    }
  }
}

=== FILE: retry.dfy ===
/** The bounded-retry schedule shared by the registration save loop and the
    mail send loop: try up to `limit` times, stop at the first success, and
    wait `base * attempt` after each failed attempt that is not the last.
    The outcome of each attempt comes from a script; attempts beyond the end
    of the script fail. */
module Retry {
  import opened Common

  predicate Succeeds(outcomes: seq<bool>, k: nat) {
    k < |outcomes| && outcomes[k]
  }

  function FirstSuccessFrom(outcomes: seq<bool>, k: nat, limit: nat): (r: Option<nat>)
    requires k <= limit
    ensures r.Some? ==> k <= r.value < limit && Succeeds(outcomes, r.value)
    ensures forall j :: k <= j < limit && (r.None? || j < r.value) ==> !Succeeds(outcomes, j)
    decreases limit - k
  {
    if k == limit then None
    else if Succeeds(outcomes, k) then Some(k)
    else FirstSuccessFrom(outcomes, k + 1, limit)
  }

  /** The index (from 0) of the first of the `limit` attempts that succeeds. */
  function FirstSuccess(outcomes: seq<bool>, limit: nat): (r: Option<nat>)
    ensures r.Some? ==> r.value < limit && Succeeds(outcomes, r.value)
    ensures forall j :: 0 <= j < limit && (r.None? || j < r.value) ==> !Succeeds(outcomes, j)
  {
    FirstSuccessFrom(outcomes, 0, limit)
  }

  /** How many attempts are made: up to and including the first success, and
      never more than `limit`. */
  function Attempts(outcomes: seq<bool>, limit: nat): (n: nat)
    ensures n <= limit
    ensures limit > 0 ==> n >= 1
  {
    match FirstSuccess(outcomes, limit)
    case Some(k) => k + 1
    case None => limit
  }

  /** The waits after the first `n` failures: base·1, base·2, …, base·n. */
  function Backoff(base: nat, n: nat): (r: seq<nat>)
    ensures |r| == n
    ensures forall i :: 0 <= i < n ==> r[i] == base * (i + 1)
  {
    if n == 0 then [] else Backoff(base, n - 1) + [base * n]
  }
}

=== FILE: search.dfy ===
/** The duplicate-registration guard (backend/src/search.ts): a request whose
    leader e-mail or mobile is already registered for the same event is
    refused with 409 before payment is verified. */
module Search {
  import opened Common
  import opened Text
  import opened Records

  const MissingFields := "Missing required fields for registration validation"
  const AlreadyRegistered := "User with this email or phone already registered for this event"
  const CheckFailed := "Failed to check duplicate registration"

  /** The lookup keys: each field trimmed and lower-cased. */
  function Key(s: string): string {
    Lower(Trim(s))
  }

  /** The stored document matches the lookup exactly as the query is written:
      the stored event must equal the lower-cased event. */
  predicate Matches(r: Registration, email: string, event: string, phone: string) {
    r.data.selectedEvent == event && (r.data.leaderEmail == email || r.data.leaderMobile == phone)
  }

  /** `checkDuplicate` as written; `lookupFails` says whether the store query
      throws. */
  function CheckDuplicate(rs: seq<Registration>, b: Body, lookupFails: bool): Step {
    if !Truthy(b.leaderEmail) || !Truthy(b.selectedEvent) || !Truthy(b.leaderMobile) then
      Stop(Fail(400, MissingFields))
    else if lookupFails then Stop(Fail(500, CheckFailed))
    else if exists i :: 0 <= i < |rs| && Matches(rs[i], Key(b.leaderEmail.value),
                                                          Key(b.selectedEvent.value), Key(b.leaderMobile.value))
    then Stop(Fail(409, AlreadyRegistered))
    else Next
  }

  /** The guard passes a request on exactly when the three fields are
      present, the lookup works and no stored registration has the
      lower-cased event, character for character, together with the same
      e-mail or mobile. A missing field is a 400, a failing lookup a 500 and a
      match a 409, and every refusal reports failure. */
  lemma CheckDuplicateNext(rs: seq<Registration>, b: Body, lookupFails: bool)
    ensures CheckDuplicate(rs, b, lookupFails) == Next <==>
      Truthy(b.leaderEmail) && Truthy(b.selectedEvent) && Truthy(b.leaderMobile) && !lookupFails
      && forall i :: 0 <= i < |rs| ==>
           rs[i].data.selectedEvent != Key(b.selectedEvent.value)
           || (rs[i].data.leaderEmail != Key(b.leaderEmail.value)
               && rs[i].data.leaderMobile != Key(b.leaderMobile.value))
    ensures CheckDuplicate(rs, b, lookupFails) == Stop(Fail(400, MissingFields)) <==>
      !Truthy(b.leaderEmail) || !Truthy(b.selectedEvent) || !Truthy(b.leaderMobile)
    ensures CheckDuplicate(rs, b, lookupFails) == Stop(Fail(500, CheckFailed)) <==>
      Truthy(b.leaderEmail) && Truthy(b.selectedEvent) && Truthy(b.leaderMobile) && lookupFails
    ensures CheckDuplicate(rs, b, lookupFails).Stop? ==>
      CheckDuplicate(rs, b, lookupFails).response.status in {400, 409, 500}
      && !CheckDuplicate(rs, b, lookupFails).response.success
  {
  }

  /** More stored registrations can only turn a pass of the guard as written
      into a 409, never the reverse. */
  lemma CheckDuplicateMonotone(rs: seq<Registration>, more: seq<Registration>, b: Body)
    requires CheckDuplicate(rs, b, false) == Stop(Fail(409, AlreadyRegistered))
    ensures CheckDuplicate(rs + more, b, false) == Stop(Fail(409, AlreadyRegistered))
  {
    var i :| 0 <= i < |rs| && Matches(rs[i], Key(b.leaderEmail.value),
                                       Key(b.selectedEvent.value), Key(b.leaderMobile.value));
    assert (rs + more)[i] == rs[i];
  }

  lemma LowerHasNoUpper(s: string)
    ensures !HasUpper(Lower(s))
  {
  }

  /** As written, a stored registration whose event name has a capital letter
      is never found, so it never blocks a second registration. */
  lemma AsWrittenIgnoresCapitalised(rs: seq<Registration>, b: Body, lookupFails: bool)
    requires forall i :: 0 <= i < |rs| ==> HasUpper(rs[i].data.selectedEvent)
    ensures CheckDuplicate(rs, b, lookupFails).Stop? ==>
              CheckDuplicate(rs, b, lookupFails).response.status != 409
  {
    if Truthy(b.selectedEvent) {
      LowerHasNoUpper(Trim(b.selectedEvent.value));
    }
  }

  /** A concrete instance: "Robo Race" stored for a@b.in, then the same
      leader asks again for "Robo Race" and is let through. */
  lemma AsWrittenLetsDuplicateThrough()
    ensures var stored := Registration(Some(1001), Submission(
              "Asha", "a@b.in", "9876543210", "ADCET", "CSE", "2nd Year", "Ashta", "Robo Race", "",
              Some("team"), Some(2), [], "pay_1", "order_1", "sig", Some(100)), 0);
            var again := Body(Some("Asha"), Some("a@b.in"), Some("9876543210"), Some("ADCET"),
              Some("CSE"), Some("2nd Year"), Some("Ashta"), Some("Robo Race"), None,
              Some("team"), Some(2), None, Some("pay_2"), Some("order_2"), Some("sig2"),
              None, None, None, Some(100));
            CheckDuplicate([stored], again, false) == Next
  {
    var r := Registration(Some(1001), Submission(
              "Asha", "a@b.in", "9876543210", "ADCET", "CSE", "2nd Year", "Ashta", "Robo Race", "",
              Some("team"), Some(2), [], "pay_1", "order_1", "sig", Some(100)), 0);
    assert HasUpper(r.data.selectedEvent) by { assert r.data.selectedEvent[0] == 'R'; }
    var again := Body(Some("Asha"), Some("a@b.in"), Some("9876543210"), Some("ADCET"),
              Some("CSE"), Some("2nd Year"), Some("Ashta"), Some("Robo Race"), None,
              Some("team"), Some(2), None, Some("pay_2"), Some("order_2"), Some("sig2"),
              None, None, None, Some(100));
    AsWrittenIgnoresCapitalised([r], again, false);
  }

  /** The stored document matches the lookup: its event agrees with the
      requested one ignoring case, and its leader e-mail or mobile agrees with
      the normalised one. */
  predicate MatchesCaseless(r: Registration, email: string, event: string, phone: string) {
    Lower(r.data.selectedEvent) == event && (r.data.leaderEmail == email || r.data.leaderMobile == phone)
  }

  /** The corrected guard: the event is compared without regard to case, so
      the trimmed event the handler stores is found again. */
  function CheckDuplicateCaseless(rs: seq<Registration>, b: Body, lookupFails: bool): Step {
    if !Truthy(b.leaderEmail) || !Truthy(b.selectedEvent) || !Truthy(b.leaderMobile) then
      Stop(Fail(400, MissingFields))
    else if lookupFails then Stop(Fail(500, CheckFailed))
    else if exists i :: 0 <= i < |rs| && MatchesCaseless(rs[i], Key(b.leaderEmail.value),
                                                 Key(b.selectedEvent.value), Key(b.leaderMobile.value))
    then Stop(Fail(409, AlreadyRegistered))
    else Next
  }

  /** The corrected guard lets a request through exactly when the three
      fields are present, the lookup works and no stored registration for the
      same event, ignoring case, has the same e-mail or mobile; every refusal
      is a 400, 409 or 500. */
  lemma CaselessNext(rs: seq<Registration>, b: Body, lookupFails: bool)
    ensures CheckDuplicateCaseless(rs, b, lookupFails) == Next <==>
      Truthy(b.leaderEmail) && Truthy(b.selectedEvent) && Truthy(b.leaderMobile) && !lookupFails
      && forall i :: 0 <= i < |rs| ==>
           Lower(rs[i].data.selectedEvent) != Key(b.selectedEvent.value)
           || (rs[i].data.leaderEmail != Key(b.leaderEmail.value)
               && rs[i].data.leaderMobile != Key(b.leaderMobile.value))
    ensures CheckDuplicateCaseless(rs, b, lookupFails).Stop? ==>
      CheckDuplicateCaseless(rs, b, lookupFails).response.status in {400, 409, 500}
      && !CheckDuplicateCaseless(rs, b, lookupFails).response.success
  {
  }

  /** The corrected guard is monotone in the same way. */
  lemma CaselessMonotone(rs: seq<Registration>, more: seq<Registration>, b: Body)
    requires CheckDuplicateCaseless(rs, b, false) == Stop(Fail(409, AlreadyRegistered))
    ensures CheckDuplicateCaseless(rs + more, b, false) == Stop(Fail(409, AlreadyRegistered))
  {
    var i :| 0 <= i < |rs| && MatchesCaseless(rs[i], Key(b.leaderEmail.value),
                                       Key(b.selectedEvent.value), Key(b.leaderMobile.value));
    assert (rs + more)[i] == rs[i];
  }

  /** With the corrected guard, once a registration is stored from a body,
      the same body is refused with 409: the stored e-mail and event are the trimmed ones, and the
      lookup keys are those lower-cased. */
  lemma StoredIsFound(rs: seq<Registration>, r: Registration, b: Body)
    requires Truthy(b.leaderEmail) && Truthy(b.selectedEvent) && Truthy(b.leaderMobile)
    requires r.data.leaderEmail == Key(b.leaderEmail.value)
    requires r.data.selectedEvent == Trim(b.selectedEvent.value)
    ensures CheckDuplicateCaseless(rs + [r], b, false) == Stop(Fail(409, AlreadyRegistered))
  {
    assert (rs + [r])[|rs|] == r;
    assert MatchesCaseless(r, Key(b.leaderEmail.value), Key(b.selectedEvent.value), Key(b.leaderMobile.value));
  }
}

=== FILE: seqs.dfy ===
/** `Array.prototype.filter` and `Array.prototype.map` over sequences, with
    the facts about them the core's list transformations rely on. */
module Seqs {

  /** `s.filter(p)`: the elements satisfying `p`, in their original order. */
  function Filter<T(==)>(s: seq<T>, p: T -> bool): (r: seq<T>)
    ensures |r| <= |s|
    ensures forall i :: 0 <= i < |r| ==> p(r[i])
    ensures forall i :: 0 <= i < |s| && p(s[i]) ==> s[i] in r
    ensures multiset(r) <= multiset(s)
    ensures |r| == CountIf(s, p)
  {
    if s == [] then []
    else
      assert s == [s[0]] + s[1..];
      if p(s[0]) then [s[0]] + Filter(s[1..], p) else Filter(s[1..], p)
  }

  /** Filtering keeps every element satisfying `p` exactly as often as it
      occurs, and no other element. */
  lemma {:induction false} FilterMultiplicity<T>(s: seq<T>, p: T -> bool)
    ensures forall x :: multiset(Filter(s, p))[x] == if p(x) then multiset(s)[x] else 0
  {
    if s != [] {
      FilterMultiplicity(s[1..], p);
      assert s == [s[0]] + s[1..];
      assert multiset(s) == multiset{s[0]} + multiset(s[1..]);
    }
  }

  /** Filtering distributes over concatenation. */
  lemma {:induction false} FilterAppend<T>(s: seq<T>, t: seq<T>, p: T -> bool)
    ensures Filter(s + t, p) == Filter(s, p) + Filter(t, p)
  {
    if s == [] {
      assert s + t == t;
    } else {
      assert (s + t)[0] == s[0] && (s + t)[1..] == s[1..] + t;
      FilterAppend(s[1..], t, p);
    }
  }

  /** Filtering drops an element that fails the test and keeps both sides. */
  lemma FilterDropOne<T>(before: seq<T>, x: T, after: seq<T>, p: T -> bool)
    requires !p(x)
    ensures Filter(before + [x] + after, p) == Filter(before, p) + Filter(after, p)
  {
    FilterAppend(before + [x], after, p);
    FilterAppend(before, [x], p);
    FilterRejects(x, p);
  }

  lemma FilterRejects<T>(x: T, p: T -> bool)
    requires !p(x)
    ensures Filter([x], p) == []
  {
    assert [x][1..] == [];
  }

  /** `t` is `s` with some elements left out and the rest in the same order. */
  predicate IsSubsequence<T(==)>(t: seq<T>, s: seq<T>) {
    t == [] || (s != [] && (if t[0] == s[0] then IsSubsequence(t[1..], s[1..]) else IsSubsequence(t, s[1..])))
  }

  lemma {:induction false} FilterIsSubsequence<T>(s: seq<T>, p: T -> bool)
    ensures IsSubsequence(Filter(s, p), s)
  {
    if s != [] {
      FilterIsSubsequence(s[1..], p);
      if p(s[0]) {
        assert Filter(s, p)[1..] == Filter(s[1..], p);
      } else {
        SubsequenceOfTail(Filter(s[1..], p), s);
      }
    }
  }

  lemma {:induction false} SubsequenceOfTail<T>(t: seq<T>, s: seq<T>)
    requires s != [] && IsSubsequence(t, s[1..])
    ensures IsSubsequence(t, s)
  {
    if t != [] && t[0] == s[0] {
      assert s[1..] != [];
      if t[0] == s[1..][0] {
        SubsequenceOfTail(t[1..], s[1..]);
      } else {
        SubsequenceOfTail(t, s[1..]);
        assert IsSubsequence(t[1..], s[1..]) by { DropHead(t, s[1..]); }
      }
    }
  }

  lemma {:induction false} DropHead<T>(t: seq<T>, s: seq<T>)
    requires t != [] && IsSubsequence(t, s)
    ensures IsSubsequence(t[1..], s)
  {
    if t[0] == s[0] {
      if t[1..] != [] {
        SubsequenceOfTail(t[1..], s);
      }
    } else {
      DropHead(t, s[1..]);
      if t[1..] != [] {
        SubsequenceOfTail(t[1..], s);
      }
    }
  }

  /** The filter's result is pinned down: a subsequence holding exactly the
      elements that satisfy `p`, each as often as it occurs. */
  lemma FilterExactly<T>(s: seq<T>, p: T -> bool)
    ensures IsSubsequence(Filter(s, p), s)
    ensures forall x :: x in Filter(s, p) <==> x in s && p(x)
    ensures forall x :: multiset(Filter(s, p))[x] == if p(x) then multiset(s)[x] else 0
  {
    FilterIsSubsequence(s, p);
    FilterMultiplicity(s, p);
    forall x | x in Filter(s, p) ensures x in s {
      assert x in multiset(Filter(s, p));
    }
  }

  /** Filtering with a predicate every element meets changes nothing. */
  lemma {:induction false} FilterAll<T>(s: seq<T>, p: T -> bool)
    requires forall i :: 0 <= i < |s| ==> p(s[i])
    ensures Filter(s, p) == s
  {
    if s != [] {
      FilterAll(s[1..], p);
    }
  }

  /** Filtering twice with the same predicate is filtering once. */
  lemma FilterIdempotent<T>(s: seq<T>, p: T -> bool)
    ensures Filter(Filter(s, p), p) == Filter(s, p)
  {
    FilterAll(Filter(s, p), p);
  }

  /** `s.map(f)`. */
  function Map<T, U>(s: seq<T>, f: T -> U): (r: seq<U>)
    ensures |r| == |s|
    ensures forall i :: 0 <= i < |s| ==> r[i] == f(s[i])
  {
    if s == [] then [] else [f(s[0])] + Map(s[1..], f)
  }

  lemma {:induction false} MapAppend<T, U>(s: seq<T>, t: seq<T>, f: T -> U)
    ensures Map(s + t, f) == Map(s, f) + Map(t, f)
  {
    if s == [] {
      assert s + t == t;
    } else {
      assert (s + t)[1..] == s[1..] + t;
      MapAppend(s[1..], t, f);
    }
  }

  /** Mapping a function that fixes every element leaves the sequence as it is. */
  lemma MapFixed<T>(s: seq<T>, f: T -> T)
    requires forall i :: 0 <= i < |s| ==> f(s[i]) == s[i]
    ensures Map(s, f) == s
  {
  }

  /** Mapping a function that fixes every element around one position
      changes only that position. */
  lemma {:induction false} MapAround<T>(before: seq<T>, e: T, after: seq<T>, f: T -> T)
    requires forall i :: 0 <= i < |before| ==> f(before[i]) == before[i]
    requires forall i :: 0 <= i < |after| ==> f(after[i]) == after[i]
    ensures Map(before + [e] + after, f) == before + [f(e)] + after
  {
    MapAppend(before + [e], after, f);
    MapAppend(before, [e], f);
    MapFixed(before, f);
    MapFixed(after, f);
    assert Map([e], f) == [f(e)];
  }

  /** The number of elements satisfying `p`. */
  function CountIf<T>(s: seq<T>, p: T -> bool): (n: nat)
    ensures n <= |s|
  {
    if s == [] then 0 else (if p(s[0]) then 1 else 0) + CountIf(s[1..], p)
  }

  lemma {:induction false} CountIfAppend<T>(s: seq<T>, t: seq<T>, p: T -> bool)
    ensures CountIf(s + t, p) == CountIf(s, p) + CountIf(t, p)
  {
    if s == [] {
      assert s + t == t;
    } else {
      assert (s + t)[0] == s[0] && (s + t)[1..] == s[1..] + t;
      CountIfAppend(s[1..], t, p);
    }
  }

  /** No element is counted exactly when none satisfies `p`. */
  lemma {:induction false} CountIfZero<T>(s: seq<T>, p: T -> bool)
    ensures CountIf(s, p) == 0 <==> forall i :: 0 <= i < |s| ==> !p(s[i])
  {
    if s != [] {
      CountIfZero(s[1..], p);
      assert forall i :: 0 < i < |s| ==> s[i] == s[1..][i - 1];
    }
  }

  /** Elements satisfying `p` plus those that do not make up the whole list. */
  lemma {:induction false} CountIfSplit<T>(s: seq<T>, p: T -> bool)
    ensures CountIf(s, p) + CountIf(s, x => !p(x)) == |s|
  {
    if s != [] {
      CountIfSplit(s[1..], p);
    }
  }

  /** The sum of `f` over the elements. */
  function SumOf<T>(s: seq<T>, f: T -> int): int {
    if s == [] then 0 else f(s[0]) + SumOf(s[1..], f)
  }

  lemma {:induction false} SumOfAppend<T>(s: seq<T>, t: seq<T>, f: T -> int)
    ensures SumOf(s + t, f) == SumOf(s, f) + SumOf(t, f)
  {
    if s == [] {
      assert s + t == t;
    } else {
      assert (s + t)[0] == s[0] && (s + t)[1..] == s[1..] + t;
      SumOfAppend(s[1..], t, f);
    }
  }
}

=== FILE: sorting.dfy ===
/** Ordering by a numeric key, as the store's `sort({field: 1 | -1})` does. */
module Sorting {
  import opened Seqs

  predicate InOrder(a: int, b: int, ascending: bool) {
    if ascending then a <= b else a >= b
  }

  /** `s` is ordered by `key`: non-decreasing when ascending, non-increasing otherwise. */
  predicate Ordered<T>(s: seq<T>, key: T -> int, ascending: bool) {
    forall i, j :: 0 <= i < j < |s| ==> InOrder(key(s[i]), key(s[j]), ascending)
  }

  function Insert<T(==)>(x: T, s: seq<T>, key: T -> int, ascending: bool): (r: seq<T>)
    requires Ordered(s, key, ascending)
    ensures Ordered(r, key, ascending)
    ensures multiset(r) == multiset{x} + multiset(s)
    ensures forall i :: 0 <= i < |r| ==> r[i] == x || r[i] in s
    ensures |r| == |s| + 1
  {
    if s == [] || InOrder(key(x), key(s[0]), ascending) then [x] + s
    else
      var rest := Insert(x, s[1..], key, ascending);
      InsertBehindHead(x, s, rest, key, ascending);
      [s[0]] + rest
  }

  /** When `x` goes behind the head of `s`, the head stays in front of the
      rest with `x` inserted into it. */
  lemma InsertBehindHead<T>(x: T, s: seq<T>, rest: seq<T>, key: T -> int, ascending: bool)
    requires s != [] && !InOrder(key(x), key(s[0]), ascending)
    requires Ordered(s, key, ascending) && Ordered(rest, key, ascending)
    requires forall i :: 0 <= i < |rest| ==> rest[i] == x || rest[i] in s[1..]
    requires multiset(rest) == multiset{x} + multiset(s[1..])
    ensures Ordered([s[0]] + rest, key, ascending)
    ensures multiset([s[0]] + rest) == multiset{x} + multiset(s)
    ensures forall i :: 0 <= i < |[s[0]] + rest| ==> ([s[0]] + rest)[i] == x || ([s[0]] + rest)[i] in s
  {
    assert s == [s[0]] + s[1..];
    forall i | 0 <= i < |rest| ensures InOrder(key(s[0]), key(rest[i]), ascending) {
      if rest[i] != x {
        var j :| 0 <= j < |s[1..]| && s[1..][j] == rest[i];
        assert s[j + 1] == rest[i];
      }
    }
  }

  /** The elements of `s` rearranged in `key` order; elements with equal keys
      keep their relative order. */
  function SortByKey<T(==)>(s: seq<T>, key: T -> int, ascending: bool): (r: seq<T>)
    ensures Ordered(r, key, ascending)
    ensures multiset(r) == multiset(s)
    ensures |r| == |s|
  {
    if s == [] then []
    else
      assert s == [s[0]] + s[1..];
      Insert(s[0], SortByKey(s[1..], key, ascending), key, ascending)
  }

  /** Inserting adds the inserted element's value to a sum over the list. */
  lemma {:induction false} InsertSum<T>(x: T, s: seq<T>, key: T -> int, ascending: bool, f: T -> int)
    requires Ordered(s, key, ascending)
    ensures SumOf(Insert(x, s, key, ascending), f) == f(x) + SumOf(s, f)
  {
    var r := Insert(x, s, key, ascending);
    if s == [] || InOrder(key(x), key(s[0]), ascending) {
      assert r[1..] == s;
    } else {
      assert Ordered(s[1..], key, ascending);
      InsertSum(x, s[1..], key, ascending, f);
      assert r[1..] == Insert(x, s[1..], key, ascending);
    }
  }

  /** Sorting changes no sum over the list. */
  lemma {:induction false} SortKeepsSum<T>(s: seq<T>, key: T -> int, ascending: bool, f: T -> int)
    ensures SumOf(SortByKey(s, key, ascending), f) == SumOf(s, f)
  {
    if s != [] {
      SortKeepsSum(s[1..], key, ascending, f);
      InsertSum(s[0], SortByKey(s[1..], key, ascending), key, ascending, f);
    }
  }
}

=== FILE: teamutils.dfy ===
/** The frontend's team-member helpers (frontend/src/utils/teamMemberUtils.ts)
    over the types of frontend/src/data/teamMembers.ts: validation, joining
    and leaving a team, statistics, CSV export, search and filters, and the
    mapping between a team and the registration the API stores. */
module TeamUtils {
  import opened Common
  import opened Text
  import opened Seqs
  import opened Grouping
  import Records

  // ----------------------------------------------------------------- types

  /** An emergency contact as the form hands it over; absent fields are `None`
      (the relation is not checked). */
  datatype ContactInput = ContactInput(name: Option<string>, mobile: Option<string>)

  /** A partially filled member, as the validators receive it. */
  datatype Candidate = Candidate(
    name: Option<string>, email: Option<string>, mobile: Option<string>, college: Option<string>,
    department: Option<string>, year: Option<string>, city: Option<string>,
    emergencyContact: Option<ContactInput>)

  /** An `ExtendedTeamMember` (its optional extras other than the id are
      not used by the helpers). */
  datatype TeamMember = TeamMember(
    id: Option<string>, name: string, email: string, mobile: string, college: string,
    department: string, year: string, city: string)

  /** A `TeamLeader`: a member with the ids of its team and registration. */
  datatype Leader = Leader(person: TeamMember, teamId: Option<string>, registrationId: Option<string>)

  datatype TeamStatus = Forming | Complete | Registered | Cancelled

  /** A `Team`; dates are opaque timestamps. */
  datatype Team = Team(
    id: string, name: Option<string>, leader: Leader, members: seq<TeamMember>,
    event: string, registrationDate: int, maxSize: int, currentSize: int,
    status: TeamStatus, paymentStatus: string, totalFee: int)

  datatype Result<T> = Ok(value: T) | Error(message: string)

  const Departments: seq<string> := [
    "Aeronautical Engineering", "Mechanical Engineering", "Electrical Engineering",
    "Civil Engineering", "Computer Science Engineering", "AI & Data Science",
    "IoT & Cyber Security", "Business Administration", "Food Technology", "Other"]

  const AcademicYears: seq<string> := ["1st Year", "2nd Year", "3rd Year", "4th Year", "Postgraduate", "PhD"]

  // ------------------------------------------------------------ validation

  const NameError := "Name must be at least 2 characters long"
  const EmailError := "Please provide a valid email address"
  const MobileError := "Please provide a valid mobile number (10-15 digits)"
  const CollegeError := "Please provide college name"
  const DepartmentError := "Please select a valid department"
  const YearError := "Please select a valid academic year"
  const CityError := "Please provide city name"
  const ContactNameError := "Emergency contact name is required"
  const ContactMobileError := "Emergency contact mobile number is invalid"

  /** Present and at least two characters long once trimmed. */
  predicate LongEnough(o: Option<string>) {
    Truthy(o) && |Trim(o.value)| >= 2
  }

  predicate NoSpaceOrAt(s: string) {
    forall k :: 0 <= k < |s| ==> !IsSpace(s[k]) && s[k] != '@'
  }

  /** The pattern `^[^\s@]+@[^\s@]+\.[^\s@]+$`: a non-empty local part, an
      `@`, a non-empty domain, a dot and a non-empty suffix, none of them
      holding white space or `@`. */
  predicate IsValidEmail(s: string) {
    exists i, j :: 0 < i && i + 1 < j < |s| - 1 && s[i] == '@' && s[j] == '.'
      && NoSpaceOrAt(s[..i]) && NoSpaceOrAt(s[i + 1..j]) && NoSpaceOrAt(s[j + 1..])
  }

  /** The pattern `^\d{10,15}$`. */
  predicate IsValidMobile(s: string) {
    10 <= |s| <= 15 && forall k :: 0 <= k < |s| ==> IsDigit(s[k])
  }

  predicate EmailOk(o: Option<string>) {
    Truthy(o) && IsValidEmail(o.value)
  }

  predicate MobileOk(o: Option<string>) {
    Truthy(o) && IsValidMobile(o.value)
  }

  /** The messages whose check failed, in the order of the checks. */
  function Failed(checks: seq<bool>, messages: seq<string>): seq<string>
    requires |checks| == |messages|
  {
    if checks == [] then []
    else (if checks[0] then [] else [messages[0]]) + Failed(checks[1..], messages[1..])
  }

  predicate Distinct(messages: seq<string>) {
    forall k, l :: 0 <= k < l < |messages| ==> messages[k] != messages[l]
  }

  /** The failed messages come in the order of the checks and are among the
      messages; nothing is reported exactly when no check failed; with
      distinct messages, a message is reported exactly when its check failed. */
  lemma {:induction false} FailedFacts(checks: seq<bool>, messages: seq<string>)
    requires |checks| == |messages|
    ensures var r := Failed(checks, messages);
      IsSubsequence(r, messages) && |r| <= |messages|
      && (forall x :: x in r ==> x in messages)
      && (r == [] <==> false !in checks)
      && (Distinct(messages) ==> forall k :: 0 <= k < |checks| ==> (messages[k] in r <==> !checks[k]))
  {
    if checks != [] {
      var r := Failed(checks, messages);
      var rest := Failed(checks[1..], messages[1..]);
      FailedFacts(checks[1..], messages[1..]);
      assert checks == [checks[0]] + checks[1..];
      if checks[0] {
        assert r == rest;
        if rest != [] {
          SubsequenceOfTail(rest, messages);
        }
      } else {
        assert r[0] == messages[0] && r[1..] == rest;
      }
      assert forall k :: 1 <= k < |checks| ==> checks[k] == checks[1..][k - 1];
      if Distinct(messages) {
        assert Distinct(messages[1..]);
        forall k | 0 <= k < |checks|
          ensures messages[k] in r <==> !checks[k]
        {
          if k == 0 {
            assert messages[0] !in messages[1..];
          } else {
            assert messages[k] == messages[1..][k - 1];
          }
        }
      }
    }
  }

  lemma {:induction false} FailedAppend(c1: seq<bool>, m1: seq<string>, c2: seq<bool>, m2: seq<string>)
    requires |c1| == |m1| && |c2| == |m2|
    ensures Failed(c1 + c2, m1 + m2) == Failed(c1, m1) + Failed(c2, m2)
  {
    if c1 != [] {
      assert (c1 + c2)[1..] == c1[1..] + c2 && (m1 + m2)[1..] == m1[1..] + m2;
      FailedAppend(c1[1..], m1[1..], c2, m2);
    } else {
      assert c1 + c2 == c2 && m1 + m2 == m2;
    }
  }

  /** The failed messages of the first `k + 1` checks extend those of the
      first `k` by the `k`-th message when that check failed. */
  lemma FailedSnoc(checks: seq<bool>, messages: seq<string>, k: nat)
    requires |checks| == |messages| && k < |checks|
    ensures Failed(checks[..k + 1], messages[..k + 1])
            == Failed(checks[..k], messages[..k]) + (if checks[k] then [] else [messages[k]])
  {
    assert checks[..k + 1] == checks[..k] + [checks[k]];
    assert messages[..k + 1] == messages[..k] + [messages[k]];
    FailedAppend(checks[..k], messages[..k], [checks[k]], [messages[k]]);
  }

  lemma FailedWhole(checks: seq<bool>, messages: seq<string>)
    requires |checks| == |messages|
    ensures Failed(checks[..|checks|], messages[..|messages|]) == Failed(checks, messages)
  {
    assert checks[..|checks|] == checks && messages[..|messages|] == messages;
  }

  function BaseChecks(m: Candidate): seq<bool> {
    [LongEnough(m.name), EmailOk(m.email), MobileOk(m.mobile), LongEnough(m.college)]
  }

  const BaseMessages: seq<string> := [NameError, EmailError, MobileError, CollegeError]

  /** The messages of `validateTeamMember`, in order. */
  function BaseErrors(m: Candidate): seq<string> {
    Failed(BaseChecks(m), BaseMessages)
  }

  predicate BaseValid(m: Candidate) {
    LongEnough(m.name) && EmailOk(m.email) && MobileOk(m.mobile) && LongEnough(m.college)
  }

  /** At most four messages, in the order name, email, mobile, college; none
      exactly when the member is valid; each exactly when its check fails. */
  lemma BaseErrorsFacts(m: Candidate)
    ensures var errors := BaseErrors(m);
      |errors| <= 4 && IsSubsequence(errors, BaseMessages)
      && (errors == [] <==> BaseValid(m))
      && (NameError in errors <==> !LongEnough(m.name)) && (EmailError in errors <==> !EmailOk(m.email))
      && (MobileError in errors <==> !MobileOk(m.mobile)) && (CollegeError in errors <==> !LongEnough(m.college))
  {
    var checks := BaseChecks(m);
    assert Distinct(BaseMessages);
    FailedFacts(checks, BaseMessages);
    assert false !in checks <==> checks[0] && checks[1] && checks[2] && checks[3];
    assert BaseMessages[0] == NameError && BaseMessages[1] == EmailError;
    assert BaseMessages[2] == MobileError && BaseMessages[3] == CollegeError;
  }

  /** `validateTeamMember`: one message per failed check. */
  method ValidateTeamMember(m: Candidate) returns (errors: seq<string>)
    ensures errors == BaseErrors(m)
  {
    var checks := BaseChecks(m);
    errors := [];
    assert checks[..0] == [] && BaseMessages[..0] == [];
    if !LongEnough(m.name) {
      errors := errors + [NameError];
    }
    FailedSnoc(checks, BaseMessages, 0);
    assert errors == Failed(checks[..1], BaseMessages[..1]);
    if !EmailOk(m.email) {
      errors := errors + [EmailError];
    }
    FailedSnoc(checks, BaseMessages, 1);
    assert errors == Failed(checks[..2], BaseMessages[..2]);
    if !MobileOk(m.mobile) {
      errors := errors + [MobileError];
    }
    FailedSnoc(checks, BaseMessages, 2);
    assert errors == Failed(checks[..3], BaseMessages[..3]);
    if !LongEnough(m.college) {
      errors := errors + [CollegeError];
    }
    FailedSnoc(checks, BaseMessages, 3);
    FailedWhole(checks, BaseMessages);
  }

  /** A department from the list. */
  predicate DepartmentOk(m: Candidate) {
    Truthy(m.department) && m.department.value in Departments
  }

  /** An academic year from the list. */
  predicate YearOk(m: Candidate) {
    Truthy(m.year) && m.year.value in AcademicYears
  }

  function ExtendedChecks(m: Candidate): seq<bool> {
    [DepartmentOk(m), YearOk(m), LongEnough(m.city)]
  }

  const ExtendedMessages: seq<string> := [DepartmentError, YearError, CityError]

  function ContactChecks(c: ContactInput): seq<bool> {
    [LongEnough(c.name), MobileOk(c.mobile)]
  }

  const ContactMessages: seq<string> := [ContactNameError, ContactMobileError]

  /** The errors of the emergency contact, checked only when one is given. */
  function ContactErrors(m: Candidate): seq<string> {
    if m.emergencyContact.Some? then Failed(ContactChecks(m.emergencyContact.value), ContactMessages) else []
  }

  predicate ExtendedValid(m: Candidate) {
    BaseValid(m) && DepartmentOk(m) && YearOk(m) && LongEnough(m.city)
    && (m.emergencyContact.Some? ==>
          LongEnough(m.emergencyContact.value.name) && MobileOk(m.emergencyContact.value.mobile))
  }

  /** The messages of `validateExtendedTeamMember`, in order. */
  function ExtendedErrors(m: Candidate): seq<string> {
    BaseErrors(m) + Failed(ExtendedChecks(m), ExtendedMessages) + ContactErrors(m)
  }

  /** The base errors come first and the department, year and city errors
      next; without a contact there is nothing else; at most nine messages
      are reported. */
  lemma ExtendedErrorsShape(m: Candidate)
    ensures var errors := ExtendedErrors(m);
      var extended := Failed(ExtendedChecks(m), ExtendedMessages);
      errors[..|BaseErrors(m)|] == BaseErrors(m)
      && errors[|BaseErrors(m)|..|BaseErrors(m)| + |extended|] == extended
      && |errors| <= 9 && (m.emergencyContact.None? ==> errors == BaseErrors(m) + extended)
  {
    FailedAtMost(BaseChecks(m), BaseMessages);
    FailedAtMost(ExtendedChecks(m), ExtendedMessages);
    if m.emergencyContact.Some? {
      FailedAtMost(ContactChecks(m.emergencyContact.value), ContactMessages);
    }
  }

  lemma {:induction false} FailedAtMost(checks: seq<bool>, messages: seq<string>)
    requires |checks| == |messages|
    ensures |Failed(checks, messages)| <= |checks|
  {
    if checks != [] {
      FailedAtMost(checks[1..], messages[1..]);
    }
  }

  /** Nothing is reported exactly when every check passes, the contact's
      only when a contact is given. */
  lemma ExtendedErrorsEmptyIff(m: Candidate)
    ensures ExtendedErrors(m) == [] <==> ExtendedValid(m)
  {
    FailedFacts(BaseChecks(m), BaseMessages);
    FailedFacts(ExtendedChecks(m), ExtendedMessages);
    if m.emergencyContact.Some? {
      FailedFacts(ContactChecks(m.emergencyContact.value), ContactMessages);
    }
  }

  /** `validateExtendedTeamMember`: the base errors first, then department,
      year and city, then the emergency contact's errors when a contact is
      given. */
  method ValidateExtendedTeamMember(m: Candidate) returns (errors: seq<string>)
    ensures errors == ExtendedErrors(m)
  {
    errors := ValidateTeamMember(m);
    var base := errors;
    var checks := ExtendedChecks(m);
    assert checks[..0] == [] && ExtendedMessages[..0] == [];
    if !DepartmentOk(m) {
      errors := errors + [DepartmentError];
    }
    FailedSnoc(checks, ExtendedMessages, 0);
    assert errors == base + Failed(checks[..1], ExtendedMessages[..1]);
    if !YearOk(m) {
      errors := errors + [YearError];
    }
    FailedSnoc(checks, ExtendedMessages, 1);
    assert errors == base + Failed(checks[..2], ExtendedMessages[..2]);
    if !LongEnough(m.city) {
      errors := errors + [CityError];
    }
    FailedSnoc(checks, ExtendedMessages, 2);
    FailedWhole(checks, ExtendedMessages);
    assert errors == base + Failed(checks, ExtendedMessages);
    if m.emergencyContact.Some? {
      errors := CheckEmergencyContact(m.emergencyContact.value, errors);
      assert ContactErrors(m) == Failed(ContactChecks(m.emergencyContact.value), ContactMessages);
    } else {
      assert ContactErrors(m) == [];
    }
  }

  /** The emergency-contact part of `validateExtendedTeamMember`: the name,
      then the mobile number. */
  method CheckEmergencyContact(c: ContactInput, errors: seq<string>) returns (r: seq<string>)
    ensures r == errors + Failed(ContactChecks(c), ContactMessages)
  {
    var checks := ContactChecks(c);
    r := errors;
    assert checks[..0] == [] && ContactMessages[..0] == [];
    if !LongEnough(c.name) {
      r := r + [ContactNameError];
    }
    FailedSnoc(checks, ContactMessages, 0);
    assert r == errors + Failed(checks[..1], ContactMessages[..1]);
    if !MobileOk(c.mobile) {
      r := r + [ContactMobileError];
    }
    FailedSnoc(checks, ContactMessages, 1);
    FailedWhole(checks, ContactMessages);
  }

  /** A sample address of the team-member data passes the check. */
  lemma SampleEmailValid()
    ensures IsValidEmail("john.doe@example.com")
  {
    var s := "john.doe@example.com";
    assert s[8] == '@' && s[16] == '.';
    assert NoSpaceOrAt(s[..8]) && NoSpaceOrAt(s[9..16]) && NoSpaceOrAt(s[17..]);
  }

  /** An address without a dot after the `@` fails the check. */
  lemma EmailWithoutDotInvalid()
    ensures !IsValidEmail("john@example")
  {
  }

  /** Ten digits pass the mobile check; a dash does not. */
  lemma MobileExamples()
    ensures IsValidMobile("9876543210") && !IsValidMobile("98765-43210")
  {
    assert "98765-43210"[5] == '-';
  }

  /** A valid address has no white space and exactly one `@`. */
  lemma EmailShape(s: string)
    requires IsValidEmail(s)
    ensures forall k :: 0 <= k < |s| ==> !IsSpace(s[k])
    ensures exists i :: 0 <= i < |s| && s[i] == '@' && forall k :: 0 <= k < |s| && k != i ==> s[k] != '@'
  {
    var i, j :| 0 < i && i + 1 < j < |s| - 1 && s[i] == '@' && s[j] == '.'
      && NoSpaceOrAt(s[..i]) && NoSpaceOrAt(s[i + 1..j]) && NoSpaceOrAt(s[j + 1..]);
    forall k | 0 <= k < |s| && k != i
      ensures !IsSpace(s[k]) && s[k] != '@'
    {
      if k < i {
        assert s[k] == s[..i][k];
      } else if k < j {
        assert s[k] == s[i + 1..j][k - i - 1];
      } else if k > j {
        assert s[k] == s[j + 1..][k - j - 1];
      }
    }
  }

  /** An address with no dot after one of its `@`s fails the check: a dot
      before that `@` does not make it valid, and neither does a second
      `@` followed by a dot. */
  lemma DotlessDomainInvalid(s: string, at: nat)
    requires at < |s| && s[at] == '@'
    requires forall k :: at < k < |s| ==> s[k] != '.'
    ensures !IsValidEmail(s)
  {
  }


  // ------------------------------------------------------------ formatting

  /** `formatMobileNumber`: a ten-character number as `+91-XXXXX-XXXXX`,
      anything else unchanged. */
  function FormatMobileNumber(mobile: string): string {
    if |mobile| == 10 then "+91-" + mobile[..5] + "-" + mobile[5..] else mobile
  }

  /** A ten-character number becomes fifteen characters starting `+91-` from
      which it can be read back; any other input is returned as it is, so
      formatting twice is formatting once. */
  lemma FormatMobileFacts(mobile: string)
    ensures var f := FormatMobileNumber(mobile);
      (|mobile| == 10 ==> |f| == 15 && f[..4] == "+91-" && f[9] == '-' && f[4..9] + f[10..] == mobile)
      && (|mobile| != 10 ==> f == mobile)
      && FormatMobileNumber(f) == f
  {
    if |mobile| == 10 {
      var f := FormatMobileNumber(mobile);
      assert f[4..9] == mobile[..5] && f[10..] == mobile[5..];
      assert mobile[..5] + mobile[5..] == mobile;
    }
  }

  /** Two valid mobile numbers never format to the same text. */
  lemma FormatMobileInjective(a: string, b: string)
    requires IsValidMobile(a) && IsValidMobile(b)
    requires FormatMobileNumber(a) == FormatMobileNumber(b)
    ensures a == b
  {
    FormatMobileFacts(a);
    FormatMobileFacts(b);
  }

  // ------------------------------------------------------- team membership

  const AddError := "Cannot add member to team: team is full or not accepting members"

  /** `canAddMemberToTeam`. */
  predicate CanAddMemberToTeam(t: Team) {
    t.currentSize < t.maxSize && t.status == Forming
  }

  /** `addMemberToTeam`; the thrown error is an `Error` result. */
  function AddMemberToTeam(t: Team, m: TeamMember): Result<Team> {
    if !CanAddMemberToTeam(t) then Error(AddError)
    else Ok(t.(members := t.members + [m], currentSize := t.currentSize + 1,
               status := if t.currentSize + 1 >= t.maxSize then Complete else Forming))
  }

  /** The selector keeping every member whose id is not `memberId`. */
  function Without(memberId: string): TeamMember -> bool {
    (m: TeamMember) => m.id != Some(memberId)
  }

  /** `removeMemberFromTeam`. */
  function RemoveMemberFromTeam(t: Team, memberId: string): Team {
    var kept := Filter(t.members, Without(memberId));
    t.(members := kept, currentSize := |kept| + 1,
       status := if |kept| + 1 < t.maxSize then Forming else Complete)
  }

  /** The size bookkeeping: the size counts the leader and the members, a
      forming team has room and a complete one has none. */
  predicate Coherent(t: Team) {
    t.currentSize == |t.members| + 1
    && (t.status == Forming ==> t.currentSize < t.maxSize)
    && (t.status == Complete ==> t.currentSize >= t.maxSize)
  }

  /** Adding succeeds exactly when the team is forming and has room; it puts
      the member last, counts it, completes the team when it becomes full,
      changes nothing else and keeps the bookkeeping coherent. */
  lemma AddMemberFacts(t: Team, m: TeamMember)
    ensures var r := AddMemberToTeam(t, m);
      (r.Ok? <==> t.currentSize < t.maxSize && t.status == Forming)
      && (r.Error? ==> r.message == AddError)
      && (r.Ok? ==>
            r.value.members == t.members + [m] && r.value.currentSize == t.currentSize + 1
            && (r.value.status == Complete <==> t.currentSize + 1 >= t.maxSize)
            && r.value.status in {Forming, Complete}
            && r.value.(members := t.members, currentSize := t.currentSize, status := t.status) == t)
      && (r.Ok? && Coherent(t) ==> Coherent(r.value))
  {
  }

  /** Removing drops every member with the id and keeps every other member,
      in order and as often as it occurs; it recomputes the size and status
      coherently, changes nothing else, and removing again changes nothing. */
  lemma RemoveMemberFacts(t: Team, memberId: string)
    ensures var r := RemoveMemberFromTeam(t, memberId);
      IsSubsequence(r.members, t.members)
      && (forall k :: 0 <= k < |r.members| ==> r.members[k].id != Some(memberId))
      && (forall k :: 0 <= k < |t.members| && t.members[k].id != Some(memberId) ==> t.members[k] in r.members)
      && (forall m :: multiset(r.members)[m] == if m.id != Some(memberId) then multiset(t.members)[m] else 0)
      && Coherent(r) && r.status in {Forming, Complete}
      && r.(members := t.members, currentSize := t.currentSize, status := t.status) == t
      && RemoveMemberFromTeam(r, memberId) == r
  {
    FilterIsSubsequence(t.members, Without(memberId));
    FilterIdempotent(t.members, Without(memberId));
    FilterMultiplicity(t.members, Without(memberId));
  }

  /** Adding a member with a fresh id to a coherent team and removing it
      again gives back the team. */
  lemma AddThenRemove(t: Team, m: TeamMember, memberId: string)
    requires Coherent(t) && CanAddMemberToTeam(t)
    requires m.id == Some(memberId)
    requires forall k :: 0 <= k < |t.members| ==> t.members[k].id != Some(memberId)
    ensures AddMemberToTeam(t, m).Ok?
    ensures RemoveMemberFromTeam(AddMemberToTeam(t, m).value, memberId) == t
  {
    FilterAll(t.members, Without(memberId));
    FilterAppend(t.members, [m], Without(memberId));
    assert Filter([m], Without(memberId)) == [];
  }

  // ------------------------------------------------------------ statistics

  /** Everyone in a team: its leader, then its members. */
  function People(t: Team): seq<TeamMember> {
    [t.leader.person] + t.members
  }

  /** The list the statistics loop builds: the people of every team, team by team. */
  function AllMembers(teams: seq<Team>): seq<TeamMember> {
    if teams == [] then [] else AllMembers(teams[..|teams| - 1]) + People(teams[|teams| - 1])
  }

  function Headcount(t: Team): int {
    1 + |t.members|
  }

  predicate IsSolo(t: Team) {
    t.currentSize == 1
  }

  function DepartmentOf(p: TeamMember): string { p.department }
  function CollegeOf(p: TeamMember): string { p.college }
  function YearOf(p: TeamMember): string { p.year }
  function CityOf(p: TeamMember): string { p.city }

  /** The `reduce` into a `Record<string, number>`: how many people carry
      each key, one group per key. The groups are listed in the order their
      keys first appear; a plain object's own key order (integer-like keys
      first) and its inherited keys are not modelled. */
  function Tally(people: seq<TeamMember>, key: TeamMember -> string): seq<Group> {
    GroupBy(Map(people, (p: TeamMember) => (key(p), 1)))
  }

  /** `TeamMemberStatistics` without the average team size. */
  datatype TeamMemberStatistics = TeamMemberStatistics(
    totalMembers: nat, membersByDepartment: seq<Group>, membersByCollege: seq<Group>,
    membersByYear: seq<Group>, membersByCity: seq<Group>,
    soloParticipations: nat, teamParticipations: nat)

  /** Each tally has one group per key and its counts add up to the people counted. */
  lemma TallyFacts(people: seq<TeamMember>, key: TeamMember -> string)
    ensures DistinctKeys(Tally(people, key)) && SumCounts(Tally(people, key)) == |people|
  {
    GroupByCorrect(Map(people, (p: TeamMember) => (key(p), 1)));
  }

  /** `calculateTeamMemberStatistics`: the loop over the teams collects their
      people and counts solo and team entries; the tallies follow. */
  method CalculateTeamMemberStatistics(teams: seq<Team>) returns (stats: TeamMemberStatistics)
    ensures stats.totalMembers == SumOf(teams, Headcount)
    ensures stats.soloParticipations == CountIf(teams, IsSolo)
    ensures stats.soloParticipations + stats.teamParticipations == |teams|
    ensures stats.membersByDepartment == Tally(AllMembers(teams), DepartmentOf)
    ensures stats.membersByCollege == Tally(AllMembers(teams), CollegeOf)
    ensures stats.membersByYear == Tally(AllMembers(teams), YearOf)
    ensures stats.membersByCity == Tally(AllMembers(teams), CityOf)
    ensures SumCounts(stats.membersByDepartment) == stats.totalMembers
    ensures SumCounts(stats.membersByCollege) == stats.totalMembers
    ensures SumCounts(stats.membersByYear) == stats.totalMembers
    ensures SumCounts(stats.membersByCity) == stats.totalMembers
  {
    var allMembers: seq<TeamMember> := [];
    var soloCount := 0;
    var teamCount := 0;
    var i := 0;
    while i < |teams|
      invariant 0 <= i <= |teams|
      invariant allMembers == AllMembers(teams[..i])
      invariant |allMembers| == SumOf(teams[..i], Headcount)
      invariant soloCount == CountIf(teams[..i], IsSolo)
      invariant soloCount + teamCount == i
    {
      var team := teams[i];
      assert teams[..i + 1] == teams[..i] + [team];
      assert teams[..i + 1][..i] == teams[..i];
      SumOfAppend(teams[..i], [team], Headcount);
      CountIfAppend(teams[..i], [team], IsSolo);
      allMembers := allMembers + [team.leader.person] + team.members;
      if team.currentSize == 1 {
        soloCount := soloCount + 1;
      } else {
        teamCount := teamCount + 1;
      }
      i := i + 1;
    }
    assert teams[..i] == teams;
    TallyFacts(allMembers, DepartmentOf);
    TallyFacts(allMembers, CollegeOf);
    TallyFacts(allMembers, YearOf);
    TallyFacts(allMembers, CityOf);
    stats := TeamMemberStatistics(
      |allMembers|, Tally(allMembers, DepartmentOf), Tally(allMembers, CollegeOf),
      Tally(allMembers, YearOf), Tally(allMembers, CityOf), soloCount, teamCount);
  }

  // -------------------------------------------------------------------- CSV

  const CsvHeaders: seq<string> := [
    "Team ID", "Team Name", "Leader Name", "Leader Email", "Leader Mobile", "Leader College",
    "Leader Department", "Leader Year", "Event", "Team Size", "Payment Status", "Total Fee",
    "Registration Date", "Member Names", "Member Emails", "Member Colleges"]

  function NameOf(p: TeamMember): string { p.name }
  function EmailOf(p: TeamMember): string { p.email }

  /** A team's sixteen fields; `day` renders the registration date as
      `YYYY-MM-DD`. */
  function CsvRow(t: Team, day: int -> string): seq<string> {
    var l := t.leader.person;
    [t.id, OrEmpty(t.name), l.name, l.email, l.mobile, l.college, l.department, l.year,
     t.event, IntToString(t.currentSize), t.paymentStatus, IntToString(t.totalFee),
     day(t.registrationDate),
     Join(Map(t.members, NameOf), "; "), Join(Map(t.members, EmailOf), "; "),
     Join(Map(t.members, CollegeOf), "; ")]
  }

  /** A field wrapped in double quotes, with no escaping. */
  function Quote(field: string): string {
    "\"" + field + "\""
  }

  function CsvLine(row: seq<string>): string {
    Join(Map(row, Quote), ",")
  }

  /** The header and one row per team. */
  function CsvTable(teams: seq<Team>, day: int -> string): seq<seq<string>> {
    [CsvHeaders] + seq(|teams|, k requires 0 <= k < |teams| => CsvRow(teams[k], day))
  }

  /** `exportTeamMembersToCSV`. */
  function ExportTeamMembersToCsv(teams: seq<Team>, day: int -> string): string {
    Join(Map(CsvTable(teams, day), CsvLine), "\n")
  }

  lemma {:induction false} JoinAvoids(parts: seq<string>, sep: string, c: char)
    requires c !in sep && forall k :: 0 <= k < |parts| ==> c !in parts[k]
    ensures c !in Join(parts, sep)
  {
    if |parts| > 1 {
      JoinAvoids(parts[1..], sep, c);
    }
  }

  predicate Free(row: seq<string>, c: char) {
    forall k :: 0 <= k < |row| ==> c !in row[k]
  }

  /** Every line has sixteen fields, the header's among them. */
  lemma CsvRowWidth(t: Team, day: int -> string)
    ensures |CsvRow(t, day)| == 16 == |CsvHeaders|
  {
  }

  /** A row whose fields hold no comma splits at the commas into its quoted
      fields, and each quoted field gives back the field. */
  lemma CsvLineFields(row: seq<string>)
    requires Free(row, ',')
    ensures Split(CsvLine(row), ',') == Map(row, Quote) || row == []
    ensures forall k :: 0 <= k < |row| ==> Quote(row[k])[1..|Quote(row[k])| - 1] == row[k]
  {
    var quoted := Map(row, Quote);
    if row != [] {
      forall k | 0 <= k < |quoted|
        ensures ',' !in quoted[k]
      {
        assert quoted[k] == "\"" + row[k] + "\"";
      }
      SplitJoin(quoted, ',');
    }
  }

  /** When no field holds a line break, the export splits at the line breaks
      into the header line followed by one line per team, in order. */
  lemma CsvLines(teams: seq<Team>, day: int -> string)
    requires forall k :: 0 <= k < |teams| ==> Free(CsvRow(teams[k], day), '\n')
    ensures var lines := Split(ExportTeamMembersToCsv(teams, day), '\n');
      |lines| == |teams| + 1 && lines[0] == CsvLine(CsvHeaders)
      && forall k :: 0 <= k < |teams| ==> lines[k + 1] == CsvLine(CsvRow(teams[k], day))
  {
    var table := CsvTable(teams, day);
    TableFree(teams, day);
    LinesFree(table);
    SplitJoin(Map(table, CsvLine), '\n');
  }

  /** With no line break in any team's fields, no row of the table has one. */
  lemma TableFree(teams: seq<Team>, day: int -> string)
    requires forall k :: 0 <= k < |teams| ==> Free(CsvRow(teams[k], day), '\n')
    ensures forall k :: 0 <= k < |CsvTable(teams, day)| ==> Free(CsvTable(teams, day)[k], '\n')
  {
    HeadersFree();
  }

  lemma HeadersFree()
    ensures Free(CsvHeaders, '\n')
  {
  }

  lemma LinesFree(table: seq<seq<string>>)
    requires forall k :: 0 <= k < |table| ==> Free(table[k], '\n')
    ensures forall k :: 0 <= k < |Map(table, CsvLine)| ==> '\n' !in Map(table, CsvLine)[k]
  {
    forall k | 0 <= k < |table| ensures '\n' !in CsvLine(table[k]) {
      LineFree(table[k]);
    }
  }

  /** A row whose fields hold no line break gives a line without one. */
  lemma LineFree(row: seq<string>)
    requires Free(row, '\n')
    ensures '\n' !in CsvLine(row)
  {
    var quoted := Map(row, Quote);
    forall l | 0 <= l < |quoted|
      ensures '\n' !in quoted[l]
    {
      assert quoted[l] == "\"" + row[l] + "\"";
    }
    JoinAvoids(quoted, ",", '\n');
  }

  // ------------------------------------------------------- search, filters

  /** `field.toLowerCase().includes(q)`. */
  predicate Hit(field: string, q: string) {
    Contains(Lower(field), q)
  }

  predicate PersonHit(p: TeamMember, q: string) {
    Hit(p.name, q) || Hit(p.email, q) || Hit(p.college, q) || Hit(p.department, q)
  }

  /** The leader's, some member's or the team's own fields contain `q`. */
  predicate TeamHit(t: Team, q: string) {
    PersonHit(t.leader.person, q)
    || (exists k :: 0 <= k < |t.members| && PersonHit(t.members[k], q))
    || Hit(t.event, q) || (Truthy(t.name) && Hit(t.name.value, q))
  }

  function Matching(q: string): Team -> bool {
    (t: Team) => TeamHit(t, q)
  }

  /** `searchTeamMembers`: a blank term keeps every team; otherwise the
      lower-cased term (not trimmed) is looked up in each team. */
  function SearchTeamMembers(teams: seq<Team>, searchTerm: string): seq<Team> {
    if Trim(searchTerm) == "" then teams else Filter(teams, Matching(Lower(searchTerm)))
  }

  /** A term that is all white space keeps the list; any other term keeps, in
      order, exactly the teams with a case-insensitive hit, each as often as
      it occurs. */
  lemma SearchFacts(teams: seq<Team>, searchTerm: string)
    ensures AllSpace(searchTerm) ==> SearchTeamMembers(teams, searchTerm) == teams
    ensures var r := SearchTeamMembers(teams, searchTerm);
      !AllSpace(searchTerm) ==>
        IsSubsequence(r, teams)
        && (forall k :: 0 <= k < |r| ==> TeamHit(r[k], Lower(searchTerm)))
        && (forall k :: 0 <= k < |teams| && TeamHit(teams[k], Lower(searchTerm)) ==> teams[k] in r)
        && (forall t :: multiset(r)[t] == if TeamHit(t, Lower(searchTerm)) then multiset(teams)[t] else 0)
  {
    TrimEmpty(searchTerm);
    FilterIsSubsequence(teams, Matching(Lower(searchTerm)));
    FilterMultiplicity(teams, Matching(Lower(searchTerm)));
  }

  /** Searching does not depend on the case of the term. */
  lemma SearchIgnoresCase(teams: seq<Team>, searchTerm: string)
    ensures SearchTeamMembers(teams, Lower(searchTerm)) == SearchTeamMembers(teams, searchTerm)
  {
    TrimEmpty(searchTerm);
    TrimEmpty(Lower(searchTerm));
    LowerIdempotent(searchTerm);
    assert AllSpace(Lower(searchTerm)) <==> AllSpace(searchTerm) by {
      forall k | 0 <= k < |searchTerm|
        ensures IsSpace(Lower(searchTerm)[k]) <==> IsSpace(searchTerm[k])
      {
      }
    }
  }

  function ForEvent(eventId: string): Team -> bool { (t: Team) => t.event == eventId }
  function ForDepartment(department: string): Team -> bool { (t: Team) => t.leader.person.department == department }
  function ForPaymentStatus(status: string): Team -> bool { (t: Team) => t.paymentStatus == status }

  /** `filterTeamsByEvent`, `filterTeamsByDepartment`, `filterTeamsByPaymentStatus`:
      "all" keeps every team. */
  function FilterTeamsByEvent(teams: seq<Team>, eventId: string): seq<Team> {
    if eventId == "all" then teams else Filter(teams, ForEvent(eventId))
  }

  function FilterTeamsByDepartment(teams: seq<Team>, department: string): seq<Team> {
    if department == "all" then teams else Filter(teams, ForDepartment(department))
  }

  function FilterTeamsByPaymentStatus(teams: seq<Team>, status: string): seq<Team> {
    if status == "all" then teams else Filter(teams, ForPaymentStatus(status))
  }

  /** Each filter keeps a sub-list in order, applying it twice is applying it
      once, and any value other than "all" keeps exactly the teams that
      carry it, each as often as it occurs. */
  lemma FilterByEventFacts(teams: seq<Team>, eventId: string)
    ensures var r := FilterTeamsByEvent(teams, eventId);
      IsSubsequence(r, teams) && FilterTeamsByEvent(r, eventId) == r
      && (eventId != "all" ==>
            (forall k :: 0 <= k < |r| ==> r[k].event == eventId)
            && (forall k :: 0 <= k < |teams| && teams[k].event == eventId ==> teams[k] in r)
            && (forall t :: multiset(r)[t] == if t.event == eventId then multiset(teams)[t] else 0))
  {
    SelfSubsequence(teams);
    FilterIsSubsequence(teams, ForEvent(eventId));
    FilterIdempotent(teams, ForEvent(eventId));
    FilterMultiplicity(teams, ForEvent(eventId));
  }

  lemma FilterByDepartmentFacts(teams: seq<Team>, department: string)
    ensures var r := FilterTeamsByDepartment(teams, department);
      IsSubsequence(r, teams) && FilterTeamsByDepartment(r, department) == r
      && (department != "all" ==>
            (forall k :: 0 <= k < |r| ==> r[k].leader.person.department == department)
            && (forall k :: 0 <= k < |teams| && teams[k].leader.person.department == department ==> teams[k] in r)
            && (forall t :: multiset(r)[t] == if t.leader.person.department == department then multiset(teams)[t] else 0))
  {
    SelfSubsequence(teams);
    FilterIsSubsequence(teams, ForDepartment(department));
    FilterIdempotent(teams, ForDepartment(department));
    FilterMultiplicity(teams, ForDepartment(department));
  }

  lemma FilterByPaymentStatusFacts(teams: seq<Team>, status: string)
    ensures var r := FilterTeamsByPaymentStatus(teams, status);
      IsSubsequence(r, teams) && FilterTeamsByPaymentStatus(r, status) == r
      && (status != "all" ==>
            (forall k :: 0 <= k < |r| ==> r[k].paymentStatus == status)
            && (forall k :: 0 <= k < |teams| && teams[k].paymentStatus == status ==> teams[k] in r)
            && (forall t :: multiset(r)[t] == if t.paymentStatus == status then multiset(teams)[t] else 0))
  {
    SelfSubsequence(teams);
    FilterIsSubsequence(teams, ForPaymentStatus(status));
    FilterIdempotent(teams, ForPaymentStatus(status));
    FilterMultiplicity(teams, ForPaymentStatus(status));
  }

  lemma {:induction false} SelfSubsequence(s: seq<Team>)
    ensures IsSubsequence(s, s)
  {
    if s != [] {
      SelfSubsequence(s[1..]);
    }
  }

  // -------------------------------------------------------- API mapping

  /** The registration as the API exchanges it; `createdAt` is an opaque date. */
  datatype ApiRegistration = ApiRegistration(
    id: string, leaderName: string, leaderEmail: string, leaderMobile: string,
    leaderCollege: string, leaderDepartment: string, leaderYear: string, leaderCity: string,
    selectedEvent: string, participationType: string, teamSize: int,
    teamMembers: Option<seq<Records.Member>>, totalFee: int, createdAt: int)

  function AsEntry(m: TeamMember): Records.Member {
    Records.Member(m.name, m.mobile, m.email, m.college)
  }

  /** `transformTeamToRegistration`. */
  function TransformTeamToRegistration(t: Team): ApiRegistration {
    var l := t.leader.person;
    ApiRegistration(t.id, l.name, l.email, l.mobile, l.college, l.department, l.year, l.city,
                    t.event, if t.currentSize == 1 then "solo" else "team", t.currentSize,
                    Some(Map(t.members, AsEntry)), t.totalFee, t.registrationDate)
  }

  function Entries(r: ApiRegistration): seq<Records.Member> {
    if r.teamMembers.Some? then r.teamMembers.value else []
  }

  function MemberId(registrationId: string, index: nat): string {
    "member_" + registrationId + "_" + NatToString(index)
  }

  /** The `index`-th entry as a member of the leader's department, year and city. */
  function FromEntry(r: ApiRegistration, e: Records.Member, index: nat): TeamMember {
    TeamMember(Some(MemberId(r.id, index)), e.name, e.email, e.mobile, e.college,
               r.leaderDepartment, r.leaderYear, r.leaderCity)
  }

  /** `transformRegistrationToTeam`. */
  function TransformRegistrationToTeam(r: ApiRegistration): Team {
    var entries := Entries(r);
    var leader := Leader(TeamMember(Some("leader_" + r.id), r.leaderName, r.leaderEmail, r.leaderMobile,
                                    r.leaderCollege, r.leaderDepartment, r.leaderYear, r.leaderCity),
                         Some(r.id), Some(r.id));
    Team(r.id, Some(r.leaderName + "'s Team"), leader,
         seq(|entries|, k requires 0 <= k < |entries| => FromEntry(r, entries[k], k)),
         r.selectedEvent, r.createdAt, 4, r.teamSize, Registered, "paid", r.totalFee)
  }

  /** The members keep the entries' count and order, take the leader's
      department, year and city, and carry distinct ids that differ from the
      leader's. */
  lemma RegistrationToTeamMembers(r: ApiRegistration)
    ensures var t := TransformRegistrationToTeam(r);
      |t.members| == |Entries(r)|
      && (forall k :: 0 <= k < |t.members| ==>
            AsEntry(t.members[k]) == Entries(r)[k]
            && t.members[k].department == r.leaderDepartment
            && t.members[k].year == r.leaderYear && t.members[k].city == r.leaderCity
            && t.members[k].id != t.leader.person.id)
      && (forall k, l :: 0 <= k < l < |t.members| ==> t.members[k].id != t.members[l].id)
  {
    var t := TransformRegistrationToTeam(r);
    forall k | 0 <= k < |t.members|
      ensures t.members[k].id != t.leader.person.id
    {
      assert MemberId(r.id, k)[0] == 'm';
    }
    forall k, l | 0 <= k < l < |t.members|
      ensures t.members[k].id != t.members[l].id
    {
      MemberIdsDiffer(r.id, k, l);
    }
  }

  lemma MemberIdsDiffer(registrationId: string, k: nat, l: nat)
    requires k != l
    ensures MemberId(registrationId, k) != MemberId(registrationId, l)
  {
    var prefix := "member_" + registrationId + "_";
    if MemberId(registrationId, k) == MemberId(registrationId, l) {
      assert NatToString(k) == MemberId(registrationId, k)[|prefix|..];
      assert NatToString(l) == MemberId(registrationId, l)[|prefix|..];
      ParseNatToString(k);
      ParseNatToString(l);
    }
  }

  /** Turning a registration into a team and back gives the registration,
      with its member list made explicit and the participation type "solo"
      exactly for a team size of 1. */
  lemma RegistrationRoundTrip(r: ApiRegistration)
    ensures TransformTeamToRegistration(TransformRegistrationToTeam(r))
            == r.(participationType := if r.teamSize == 1 then "solo" else "team",
                  teamMembers := Some(Entries(r)))
  {
    RegistrationToTeamMembers(r);
    var t := TransformRegistrationToTeam(r);
    assert Map(t.members, AsEntry) == Entries(r);
  }

  /** Turning a team into a registration and back keeps its id, leader
      details, event, date, size, fee and each member's name, email, mobile
      and college; it marks the team registered and paid, for up to 4. */
  lemma TeamRoundTrip(t: Team)
    ensures var u := TransformRegistrationToTeam(TransformTeamToRegistration(t));
      u.id == t.id && u.event == t.event && u.registrationDate == t.registrationDate
      && u.currentSize == t.currentSize && u.totalFee == t.totalFee
      && u.leader.person.(id := t.leader.person.id) == t.leader.person
      && Map(u.members, AsEntry) == Map(t.members, AsEntry)
      && u.maxSize == 4 && u.status == Registered && u.paymentStatus == "paid"
  {
    RegistrationToTeamMembers(TransformTeamToRegistration(t));
  }
}

=== FILE: text.dfy ===
/** String operations of the JavaScript runtime that the core relies on:
    `trim`, `toLowerCase`/`toUpperCase`, `startsWith`, `includes`, `join`
    and the decimal rendering of integers. */
module Text {

  /** The characters JavaScript's `trim` and the regular-expression class `\s`
      treat as white space (WhiteSpace and LineTerminator of ECMA-262). */
  predicate IsSpace(c: char) {
    c == ' ' || c == '\t' || c == '\n' || c == '\r' || c == '\U{000B}' || c == '\U{000C}'
    || c == '\U{00A0}' || c == '\U{1680}' || ('\U{2000}' <= c <= '\U{200A}')
    || c == '\U{2028}' || c == '\U{2029}' || c == '\U{202F}' || c == '\U{205F}'
    || c == '\U{3000}' || c == '\U{FEFF}'
  }

  predicate AllSpace(s: string) {
    forall i :: 0 <= i < |s| ==> IsSpace(s[i])
  }

  /** The string contains an ASCII capital letter. */
  predicate HasUpper(s: string) {
    exists i :: 0 <= i < |s| && 'A' <= s[i] <= 'Z'
  }

  /** A trimmed string neither starts nor ends with white space. */
  predicate IsTrimmed(s: string) {
    s == [] || (!IsSpace(s[0]) && !IsSpace(s[|s| - 1]))
  }

  function TrimStart(s: string): string {
    if s != [] && IsSpace(s[0]) then TrimStart(s[1..]) else s
  }

  function TrimEnd(s: string): string {
    if s != [] && IsSpace(s[|s| - 1]) then TrimEnd(s[..|s| - 1]) else s
  }

  /** `s.trim()`: the string with leading and trailing white space removed. */
  function Trim(s: string): string {
    TrimEnd(TrimStart(s))
  }

  lemma {:induction false} TrimStartFacts(s: string)
    ensures |TrimStart(s)| <= |s| && TrimStart(s) == s[|s| - |TrimStart(s)|..]
    ensures AllSpace(s[..|s| - |TrimStart(s)|])
    ensures TrimStart(s) == [] || !IsSpace(TrimStart(s)[0])
  {
    if s != [] && IsSpace(s[0]) {
      var p := s[1..];
      TrimStartFacts(p);
      var r := TrimStart(p);
      assert p[|p| - |r|..] == s[|s| - |r|..];
      assert s[..|s| - |r|] == [s[0]] + p[..|p| - |r|];
    } else {
      assert s[0..] == s;
    }
  }

  lemma {:induction false} TrimEndFacts(s: string)
    ensures |TrimEnd(s)| <= |s| && TrimEnd(s) == s[..|TrimEnd(s)|]
    ensures AllSpace(s[|TrimEnd(s)|..])
    ensures TrimEnd(s) == [] || !IsSpace(TrimEnd(s)[|TrimEnd(s)| - 1])
  {
    if s != [] && IsSpace(s[|s| - 1]) {
      var p := s[..|s| - 1];
      TrimEndFacts(p);
      var r := TrimEnd(p);
      assert p[..|r|] == s[..|r|];
      assert s[|r|..] == p[|r|..] + [s[|s| - 1]];
    } else {
      assert s[..|s|] == s;
    }
  }

  /** Trimming leaves no white space at either end and removes only white
      space, and only at the two ends. */
  lemma TrimFacts(s: string)
    ensures IsTrimmed(Trim(s)) && |Trim(s)| <= |s|
    ensures exists i :: 0 <= i <= |s| - |Trim(s)| && Trim(s) == s[i..i + |Trim(s)|]
                        && AllSpace(s[..i]) && AllSpace(s[i + |Trim(s)|..])
  {
    var t := TrimStart(s);
    var r := TrimEnd(t);
    TrimStartFacts(s);
    TrimEndFacts(t);
    assert r == s[|s| - |t|..|s| - |t| + |r|];
    assert s[|s| - |t| + |r|..] == t[|r|..];
  }

  /** A string with no white space at either end is its own trim. */
  lemma TrimOfTrimmed(s: string)
    requires IsTrimmed(s)
    ensures Trim(s) == s
  {
  }

  /** Trimming gives the empty string exactly for a string of white space. */
  lemma TrimEmpty(s: string)
    ensures Trim(s) == [] <==> AllSpace(s)
  {
    var t := TrimStart(s);
    TrimStartFacts(s);
    TrimEndFacts(t);
    if Trim(s) == [] {
      assert s[..|s|] == s;
    } else if t != [] {
      assert t[0] == s[|s| - |t|];
    }
  }

  lemma TrimIdempotent(s: string)
    ensures Trim(Trim(s)) == Trim(s)
  {
    TrimFacts(s);
    TrimOfTrimmed(Trim(s));
  }

  function LowerChar(c: char): char {
    if 'A' <= c <= 'Z' then (c as int + 32) as char else c
  }

  function UpperChar(c: char): char {
    if 'a' <= c <= 'z' then (c as int - 32) as char else c
  }

  /** `s.toLowerCase()` on the ASCII letters. */
  function Lower(s: string): (r: string)
    ensures |r| == |s|
    ensures forall i :: 0 <= i < |s| ==> r[i] == LowerChar(s[i])
  {
    if s == [] then [] else [LowerChar(s[0])] + Lower(s[1..])
  }

  lemma LowerIdempotent(s: string)
    ensures Lower(Lower(s)) == Lower(s)
  {
  }

  /** `s.startsWith(p)`. */
  predicate StartsWith(s: string, p: string) {
    |p| <= |s| && s[..|p|] == p
  }

  predicate OccursAt(s: string, sub: string, i: int) {
    0 <= i <= |s| - |sub| && s[i..i + |sub|] == sub
  }

  /** `s.includes(sub)`: `sub` occurs somewhere in `s`. */
  predicate Contains(s: string, sub: string) {
    exists i :: 0 <= i <= |s| - |sub| && OccursAt(s, sub, i)
  }

  /** `parts.join(sep)`. */
  function Join(parts: seq<string>, sep: string): string {
    if parts == [] then ""
    else if |parts| == 1 then parts[0]
    else parts[0] + sep + Join(parts[1..], sep)
  }

  /** `s.split(sep)` for a one-character separator: the pieces between the
      separators, in order, with an empty piece at either end when `s` starts
      or ends with `sep`. */
  function Split(s: string, sep: char): (r: seq<string>)
    ensures |r| >= 1
    ensures forall i :: 0 <= i < |r| ==> sep !in r[i]
  {
    if s == [] then [""]
    else
      var rest := Split(s[1..], sep);
      if s[0] == sep then [""] + rest else [[s[0]] + rest[0]] + rest[1..]
  }

  lemma JoinPrepend(c: char, parts: seq<string>, sep: string)
    requires parts != []
    ensures Join([[c] + parts[0]] + parts[1..], sep) == [c] + Join(parts, sep)
  {
  }

  /** Joining the pieces of a split with the separator gives the string back. */
  lemma {:induction false} JoinSplit(s: string, sep: char)
    ensures Join(Split(s, sep), [sep]) == s
  {
    if s != [] {
      JoinSplit(s[1..], sep);
      var rest := Split(s[1..], sep);
      if s[0] == sep {
        assert ([""] + rest)[1..] == rest;
      } else {
        JoinPrepend(s[0], rest, [sep]);
      }
    }
  }

  lemma {:induction false} SplitNoSep(p: string, sep: char)
    requires sep !in p
    ensures Split(p, sep) == [p]
  {
    if p != [] {
      SplitNoSep(p[1..], sep);
      assert [p[0]] + p[1..] == p;
    }
  }

  lemma {:induction false} SplitPrefix(p: string, sep: char, t: string)
    requires sep !in p
    ensures Split(p + [sep] + t, sep) == [p] + Split(t, sep)
  {
    var s := p + [sep] + t;
    if p == [] {
      assert s[1..] == t;
    } else {
      assert s[1..] == p[1..] + [sep] + t;
      SplitPrefix(p[1..], sep, t);
      assert [p[0]] + p[1..] == p;
    }
  }

  /** Splitting the join of separator-free pieces gives the pieces back. */
  lemma {:induction false} SplitJoin(parts: seq<string>, sep: char)
    requires |parts| >= 1
    requires forall i :: 0 <= i < |parts| ==> sep !in parts[i]
    ensures Split(Join(parts, [sep]), sep) == parts
  {
    if |parts| == 1 {
      SplitNoSep(parts[0], sep);
    } else {
      SplitJoin(parts[1..], sep);
      SplitPrefix(parts[0], sep, Join(parts[1..], [sep]));
      assert [parts[0]] + parts[1..] == parts;
    }
  }

  function Digit(d: nat): char
    requires d < 10
  {
    "0123456789"[d]
  }

  predicate IsDigit(c: char) {
    '0' <= c <= '9'
  }

  /** The decimal rendering of a natural number (`n.toString()`). */
  function NatToString(n: nat): (r: string)
    ensures r != []
    ensures forall i :: 0 <= i < |r| ==> IsDigit(r[i])
  {
    if n < 10 then [Digit(n)] else NatToString(n / 10) + [Digit(n % 10)]
  }

  /** The value of a string of decimal digits. */
  function ParseNat(s: string): nat
    requires forall i :: 0 <= i < |s| ==> IsDigit(s[i])
  {
    if s == [] then 0
    else
      assert IsDigit(s[|s| - 1]);
      ParseNat(s[..|s| - 1]) * 10 + (s[|s| - 1] as int - '0' as int)
  }

  /** Rendering a number in decimal loses nothing: it can be read back. */
  lemma {:induction false} ParseNatToString(n: nat)
    ensures ParseNat(NatToString(n)) == n
  {
    if n >= 10 {
      ParseNatToString(n / 10);
      var s := NatToString(n);
      assert s[..|s| - 1] == NatToString(n / 10);
    }
  }

  /** `n.toString()` for an integer. */
  function IntToString(n: int): string {
    if n < 0 then "-" + NatToString(-n) else NatToString(n)
  }
}
